=== FILE: README.md ===
# A verified model of the ecommerce storefront's core

This project is a Dafny model of the core of a Next.js storefront. The storefront is backed by a hosted Postgres database. The model covers:

- **VNPay payment flow.** This is the VNPay 2.1.0 signing library. It sorts parameters, builds the canonical string, makes the signed payment URL and verifies the gateway's reply. Four route handlers build on it or next to it:
  - `create-payment`, which builds a URL with its own inline signer.
  - `payment/vnpay`, which looks up the order, signs through the library and records a pending transaction.
  - The `vnpay/callback` handler, which has its own inline verification.
  - The `vnpay-return` handler, which verifies through the library and then updates the transaction, the order and the payment history.
- **Order routes.** `orders/create` validates the request, inserts the order header and its item rows, and deletes the header again when the item insert fails. A `null` cart line passes the validation and makes the row mapping throw after the header is written; the header then stays. `orders/update-status` derives the payment status for cash-on-delivery orders.
- **Category reorder route.** It applies one update at a time, stops at the first failure, then returns the list sorted by `display_order`.
- **Admin gates.** The middleware compares the role exactly. The `useAdmin` hook compares it after lower-casing.
- **Client pages, as state transitions.**
  - Admin categories: drag-and-drop renumbering, slug fallback, delete and search, and the page's add and edit handlers, which no control reaches (see "Left out").
  - Admin products: slug generation, image rows, the fetch transform, search, and removal of a pending image.
  - Admin users: filter and role update.
  - Admin store settings: save defaults, upsert and fetch, and nested field edits.
  - Customer pages: account (get-or-create profile, profile save, avatar delete), user settings (notification switches, password), cart popup, product listing query, contact form, coupons, notifications, and the wishlist and favorites pages.

How the outside world is represented:

- Every handler is a pure function of its inputs.
- The database is a value (`Store.Db`, or a list of rows for a page).
- Each database call that can fail is a boolean outcome parameter. This includes a `.single()` lookup whose error leaves `data` null.
- The clock is a parameter: an ISO string or a millisecond count.
- Environment variables are `Option<string>` parameters.
- The keyed hash (HMAC-SHA512 rendered as hex) is a function parameter `(secret, data) -> digest`. Every signing property is proved for every such function.
- JavaScript objects are lists of `(key, value)` pairs in insertion order. That is JavaScript's property order for every key that is not integer-like and not `__proto__`; the exceptions are listed under "Left out".
- `undefined` and `null` are both `None`. The two places where the handlers treat them differently are listed under "Left out".

Module layout, one file each:

- **Shared modules:**
  - `Wrappers` covers optional values and JavaScript truthiness.
  - `Strings` covers case folding, `includes`, `join`/`split` and number rendering.
  - `Entries` covers objects: `delete`, assignment, `Object.fromEntries` and key sorting.
  - `UriEncode` covers `encodeURIComponent` and `URLSearchParams` serialisation.
  - `Store` holds the database rows and HTTP responses.
- **Route modules:** `VNPay`, `CreatePayment`, `PaymentRoute`, `VNPayCallback`, `VNPayReturn`, `OrdersCreate`, `OrdersUpdate`, `CategoryReorder`.
- **Page modules:** `Access`, `AdminCategories`, `AdminProducts`, `AdminUsers`, `StoreSettings`, `UserSettings`, `Account`, `Cart`, `ProductListing`, `Contact`, `Coupons`, `Notifications`, `Wishlist`.

## Model

| member | source | states |
|---|---|---|
| Strings.ToLower | src/app/admin/users/page.tsx:67-68 | every ASCII capital is replaced by its lower-case letter, every other character is kept, and the length is unchanged |
| Strings.ToLowerIdempotent | src/app/admin/users/page.tsx:67-68 | lower-casing twice is the same as lower-casing once |
| Strings.Contains | src/app/admin/users/page.tsx:67-69 | `includes` holds exactly when the needle occurs at some index of the text |
| Strings.ContainsEmpty | src/app/admin/categories/page.tsx:242-245 | every text includes the empty string, so an empty search term matches everything |
| Strings.Join | src/lib/vnpay.ts:34-36 | joining no parts gives the empty string, and joining one part gives that part |
| Strings.Split | src/app/admin/products/page.tsx:280 | a split yields at least one piece, and no piece contains the separator |
| Strings.JoinSplit | src/app/admin/products/page.tsx:280 | joining the pieces of a split with the same separator gives back the original string |
| Strings.SplitJoin | src/app/admin/products/page.tsx:280 | splitting a join of separator-free pieces gives back exactly those pieces |
| Strings.Before | src/app/api/create-payment/route.ts:29 | `split(c)[0]` is a prefix without `c`, followed in the input by `c` when it is shorter, and is the whole input when `c` is absent |
| Strings.NatToString | src/app/api/create-payment/route.ts:31 | a natural number renders as a non-empty string of decimal digits: `0` for zero and no leading zero otherwise |
| Strings.NatToStringRoundTrip | src/app/api/create-payment/route.ts:31 | reading back the digits of a rendered number gives the number |
| Strings.IntToString | src/lib/vnpay.ts:30 | `String(n)` is all digits for `n >= 0`, and a minus sign followed by digits for negative `n` |
| Strings.DashRuns | src/app/admin/categories/page.tsx:75 | `replace(/[k]+/g, '-')` never lengthens its input, keeps a leading character outside the class, and is empty only for an empty input |
| Strings.DashRunsChars | src/app/admin/products/page.tsx:125 | every character of the replacement is a `-` or outside the class |
| Strings.DashRunsNone | src/app/admin/categories/page.tsx:75 | a string with no character of the class is left as it is |
| Strings.WordsShape | src/app/admin/products/page.tsx:125 | the words between runs of the class are non-empty and have no character of the class |
| Strings.JoinEnds | src/app/admin/products/page.tsx:125-126 | a join of non-empty parts starts with the first part's first character and ends with the last part's last character |
| Strings.DashRunsWords | src/app/admin/categories/page.tsx:75 | the replacement is the words of the input joined by `-`, with one more `-` in front for a leading run and one at the end for a trailing run |
| Entries.Lookup | src/lib/vnpay.ts:50 | `obj[k]` is undefined exactly when no entry has key `k`; otherwise it is the value of an entry with that key |
| Entries.LookupDistinct | src/lib/vnpay.ts:50 | in an object with distinct keys, `obj[k]` is `v` exactly when the entry `(k, v)` is present |
| Entries.Zip | src/app/api/payment/vnpay/route.ts:27-40 | an object literal pairs the i-th key with the i-th value |
| Entries.ZipKeys | src/app/api/payment/vnpay/route.ts:27-40 | a literal with distinct names has distinct keys, and has a key exactly when the key is one of the names |
| Entries.Remove | src/lib/vnpay.ts:51-52 | after `delete obj[k]` exactly the entries with other keys remain |
| Entries.RemoveNoKey | src/lib/vnpay.ts:51-52 | after `delete obj[k]` the object has no key `k` |
| Entries.RemoveConcat | src/lib/vnpay.ts:51-52 | deleting a key from two lists joined together is the same as deleting it from each list and joining them |
| Entries.RemoveAbsent | src/lib/vnpay.ts:51-52 | deleting an absent key changes nothing |
| Entries.RemoveDistinct | src/lib/vnpay.ts:51-52 | deleting a key keeps the remaining keys distinct |
| Entries.RemovePermutation | src/lib/vnpay.ts:51-52 | deleting a key from two reorderings of one object leaves two reorderings of one object |
| Entries.RemoveMultiset | src/lib/vnpay.ts:51-52 | deletion drops every occurrence of the entries with that key and keeps the count of every other entry |
| Entries.Set | src/lib/vnpay.ts:29-31 | after `obj[k] = v` the lookup of `k` gives `v`; an existing key keeps the size, a new key is appended, and other entries stay |
| Entries.SetKeysInPlace | src/lib/vnpay.ts:29-31 | assignment leaves every existing key at its position |
| Entries.SetDistinct | src/lib/vnpay.ts:29-31 | assignment keeps the keys distinct |
| Entries.SetLookupOther | src/lib/vnpay.ts:29-31 | assigning one key leaves the lookup of every other key unchanged |
| Entries.FromEntries | src/app/payment/vnpay-return/route.ts:8 | `Object.fromEntries` always yields an object with distinct keys |
| Entries.FromEntriesDistinct | src/app/payment/vnpay-return/route.ts:8 | pairs with distinct keys come out exactly as they went in |
| Entries.LastValue | src/app/payment/vnpay-return/route.ts:8 | the last value given for a key is undefined exactly when no pair has that key |
| Entries.FromEntriesLookup | src/app/payment/vnpay-return/route.ts:8 | reading a key from `Object.fromEntries(pairs)` gives the value of the LAST pair with that key |
| Entries.LessIrreflexive | src/lib/vnpay.ts:27-28 | the default sort order on strings is irreflexive |
| Entries.LessAsymmetric | src/lib/vnpay.ts:27-28 | the default sort order on strings is asymmetric |
| Entries.LessTransitive | src/lib/vnpay.ts:27-28 | the default sort order on strings is transitive |
| Entries.LessTotal | src/lib/vnpay.ts:27-28 | any two different strings are ordered one way or the other |
| Entries.Insert | src/lib/vnpay.ts:27-28 | an insertion step adds exactly one entry to the list's contents |
| Entries.InsertSorted | src/lib/vnpay.ts:27-28 | inserting an entry with a fresh key into a key-sorted list keeps it sorted |
| Entries.SortByKey | src/lib/vnpay.ts:27-32 | sorting by key is a permutation of the entries |
| Entries.SortByKeySorted | src/lib/vnpay.ts:27-32 | sorting an object with distinct keys gives strictly ascending keys |
| Entries.SortedUnique | src/lib/vnpay.ts:27-32 | two key-sorted lists with the same entries are equal |
| Entries.SortInsertionOrderIndependent | src/lib/vnpay.ts:27-32 | objects with the same entries, inserted in any order, sort to the same list |
| Entries.SortSorted | src/lib/vnpay.ts:27-32 | sorting an already sorted list changes nothing |
| Entries.SortedDistinct | src/lib/vnpay.ts:27-32 | a strictly sorted list has distinct keys |
| Entries.PermutationDistinct | src/lib/vnpay.ts:27-32 | distinct keys survive any reordering |
| UriEncode.Utf8 | src/lib/vnpay.ts:35 | a character encodes to one to four bytes, each below 256, and to one byte exactly when it is ASCII |
| UriEncode.PercentBytes | src/lib/vnpay.ts:35 | each byte becomes three characters, the first one `%` |
| UriEncode.ComponentChar | src/lib/vnpay.ts:35 | a character `encodeURIComponent` keeps stays as it is; every other character expands to more than one character |
| UriEncode.EncodeURIComponent | src/lib/vnpay.ts:35 | encoding never shortens a string |
| UriEncode.EncodeURIComponentIdentity | src/lib/vnpay.ts:35 | encoding leaves a string unchanged exactly when every character is unreserved |
| UriEncode.EncodeURIComponentGrows | src/lib/vnpay.ts:35 | a single reserved or non-ASCII character makes the encoded string longer |
| UriEncode.FormChar | src/lib/vnpay.ts:41-46 | the form serializer keeps its safe characters and writes a space as `+` |
| UriEncode.FormEncode | src/lib/vnpay.ts:41-46 | form encoding never shortens a string |
| UriEncode.SerializedPairs | src/lib/vnpay.ts:41-46 | `URLSearchParams.toString()` writes one `name=value` per pair, in order, with both sides form-encoded |
| UriEncode.EncodeURIComponentNoAmp | src/app/api/create-payment/route.ts:69 | `encodeURIComponent` output never contains `&` |
| UriEncode.FormEncodeNoAmp | src/lib/vnpay.ts:41-46 | form-encoded output never contains `&` |
| UriEncode.SerializedPairsSplit | src/lib/vnpay.ts:41-46 | splitting the serialized query on `&` gives back exactly the serialized pairs |
| UriEncode.FormSerialize | src/lib/vnpay.ts:41-46 | `URLSearchParams.toString()` of no pairs is empty, and of some pairs splits on `&` into exactly the serialized pairs |
| VNPay.AmountString | src/app/api/payment/vnpay/route.ts:36 | a non-negative amount is sent as the decimal digits of 100 times the amount; a missing amount (`NaN`) is not a digit string |
| VNPay.Field | src/lib/vnpay.ts:35 | a field starts with the key and `=`; with encoding its value part holds no `&`; it carries the raw value when encoding is off or the value has only unreserved characters |
| VNPay.Fields | src/lib/vnpay.ts:34-35 | the canonical string has one `key=value` field per parameter, in order |
| VNPay.CanonicalString | src/lib/vnpay.ts:27-36 | no parameters sign the empty string; with `&`-free keys the encoded string splits on `&` into one field per parameter, in key order |
| VNPay.CanonicalSplit | src/lib/vnpay.ts:27-36 | the encoded canonical string of parameters with `&`-free keys splits back into its fields |
| VNPay.SignedQuery | src/lib/vnpay.ts:38-44 | the URL's `vnp_SecureHash` is the keyed hash of the encoded canonical string, and every other parameter is carried along |
| VNPay.CreateVNPayUrl | src/lib/vnpay.ts:38-46 | the payment URL is the gateway URL, `?`, and a query that splits on `&` into exactly one serialized field per signed parameter, the hash included |
| VNPay.VerifyVNPayResponse | src/lib/vnpay.ts:49-69 | both hash fields are removed from the caller's object and nothing else is; the reply is valid exactly when the received hash equals the hash of the rest; a reply without a hash is never valid |
| VNPay.LookupPermutation | src/lib/vnpay.ts:54-59 | reading a key gives the same answer under any reordering of an object with distinct keys |
| VNPay.StripSignedQuery | src/lib/vnpay.ts:41-52 | removing the hash fields from a signed query leaves the sorted parameters |
| VNPay.CanonicalOfSorted | src/lib/vnpay.ts:54-63 | signing the already-sorted parameters signs the same string |
| VNPay.SignVerifyRoundTrip | src/lib/vnpay.ts:26-69 | a query produced by `createVNPayUrl` and handed back unchanged passes `verifyVNPayResponse`, for every secret and every hash function |
| VNPay.VerifyInsertionOrderIndependent | src/lib/vnpay.ts:54-68 | verification does not depend on the order in which the parameters arrive |
| VNPay.CanonicalInsertionOrderIndependent | src/lib/vnpay.ts:54-63 | the canonical string does not depend on insertion order |
| VNPay.CanonicalEncodedIffRaw | src/lib/vnpay.ts:61-63 | the library's URL-encoded canonical string equals the raw one exactly when every value consists of characters `encodeURIComponent` keeps |
| CreatePayment.StripSeparators | src/app/api/create-payment/route.ts:29 | `replace(/[-:]/g, '')` never lengthens a string |
| CreatePayment.StripSeparatorsMembers | src/app/api/create-payment/route.ts:29 | exactly the `-` and `:` characters are dropped |
| CreatePayment.StripSeparatorsConcat | src/app/api/create-payment/route.ts:29 | stripping a concatenation is the same as stripping each part and concatenating |
| CreatePayment.CreateDate | src/app/api/create-payment/route.ts:29 | the creation date contains no `-` or `:`, ends in `Z`, and before it holds the stripped timestamp up to its first `.`: a dot-free prefix that is the whole or is followed by `.` |
| CreatePayment.CreateDateOfIso | src/app/api/create-payment/route.ts:29 | on an ISO timestamp the creation date is `YYYYMMDDTHHmmssZ` |
| CreatePayment.Defined | src/app/api/create-payment/route.ts:49-57 | skipping undefined values never adds entries |
| CreatePayment.DefinedMembers | src/app/api/create-payment/route.ts:49-57 | exactly the defined properties are kept, with their values |
| CreatePayment.DefinedDistinct | src/app/api/create-payment/route.ts:49-57 | distinct property names stay distinct after undefined values are skipped |
| CreatePayment.SignedParams | src/app/api/create-payment/route.ts:63-66 | the URL object is the eleven properties followed by `vnp_SecureHash`, the hash of the sign data under the secret |
| CreatePayment.UrlFields | src/app/api/create-payment/route.ts:68-70 | each URL field is the name, `=`, and the URL-encoded value, with undefined written as empty |
| CreatePayment.UrlQuery | src/app/api/create-payment/route.ts:66-70 | with `&`-free names the query splits on `&` into exactly the URL fields |
| CreatePayment.CreatePayment | src/app/api/create-payment/route.ts:23-85 | an unreadable body gives the 500 error and only that; otherwise the reply is 200 with `VNP_URL` or the sandbox default, `?`, and a query that splits on `&` into exactly the URL fields of the properties and the signature |
| CreatePayment.UrlFieldsNoAmp | src/app/api/create-payment/route.ts:68-70 | with `&`-free names, no URL field contains `&` |
| CreatePayment.SignedNamesNoAmp | src/app/api/create-payment/route.ts:35-47 | none of the twelve URL parameter names contains `&` |
| CreatePayment.CreatePaymentQuery | src/app/api/create-payment/route.ts:66-70 | the URL's query lists the properties in object order and then the signature |
| CreatePayment.ParamNamesDistinct | src/app/api/create-payment/route.ts:35-47 | the property names are pairwise distinct |
| CreatePayment.PaymentParamsDistinct | src/app/api/create-payment/route.ts:35-57 | the object and its signed entries have distinct keys |
| CreatePayment.SignedLookup | src/app/api/create-payment/route.ts:49-61 | each property reads back from the signed entries with its own value, undefined when it was undefined |
| CreatePayment.SignedFields | src/app/api/create-payment/route.ts:31-61 | what is signed carries the amount scaled by 100, the `ORDER_` reference from the clock, and the creation date |
| CreatePayment.SignedConstants | src/app/api/create-payment/route.ts:36-61 | the version, command and locale constants are signed |
| CreatePayment.SignedKinds | src/app/api/create-payment/route.ts:40-61 | the currency and the order type are signed |
| CreatePayment.DefinedHasKey | src/app/api/create-payment/route.ts:49-57 | a name is signed exactly when some property of that name is defined |
| CreatePayment.ParamValues | src/app/api/create-payment/route.ts:35-47 | the eleven values: the protocol constants, the `ORDER_` reference from the clock, the scaled amount, the return URL and the creation date are always present, and only the order description may be `undefined` |
| CreatePayment.PaymentParams | src/app/api/create-payment/route.ts:35-47 | the object has eleven distinct names, each paired with its value in declaration order |
| CreatePayment.SignData | src/app/api/create-payment/route.ts:49-61 | the route signs the raw values; this equals what the library would sign, with encoded values, exactly when every value has only unreserved characters |
| CreatePayment.SignedOrderInfo | src/app/api/create-payment/route.ts:42-57 | the order description is signed exactly when the request gives one |
| CreatePayment.HashNotAParam | src/app/api/create-payment/route.ts:35-47 | `vnp_SecureHash` is not among the signed property names |
| CreatePayment.SignedWithoutHash | src/app/api/create-payment/route.ts:49-66 | the signature never signs itself |
| PaymentRoute.LibConfig | src/lib/vnpay.ts:3-8 | the library reads every `VNPAY_*` variable with `''` as default |
| PaymentRoute.OrderInfo | src/app/api/payment/vnpay/route.ts:34 | the description is `Thanh toan don hang ` followed by the order number |
| PaymentRoute.ParamValues | src/app/api/payment/vnpay/route.ts:27-40 | the protocol constants, the order id as reference, `Thanh toan don hang <number>`, the scaled amount, the return URL or its localhost default, the clock in ms, and `127.0.0.1` |
| PaymentRoute.Params | src/app/api/payment/vnpay/route.ts:27-40 | the object handed to the library has twelve distinct keys, each with its value in declaration order |
| PaymentRoute.PendingTxn | src/app/api/payment/vnpay/route.ts:46-65 | the recorded transaction is `pending`, for this order, with the raw amount, the same creation date and description, and no response yet |
| PaymentRoute.PayVNPay | src/app/api/payment/vnpay/route.ts:5-83 | unreadable body gives 500; a missing or failed order lookup gives 404; a failed insert gives 500 with the database unchanged; otherwise a 200 with the library URL and exactly one pending transaction appended |
| PaymentRoute.ParamNamesDistinct | src/app/api/payment/vnpay/route.ts:27-40 | the parameter names are pairwise distinct |
| PaymentRoute.HashNamesFresh | src/app/api/payment/vnpay/route.ts:27-40 | neither hash field is among the parameters |
| PaymentRoute.PaymentUrlVerifies | src/app/api/payment/vnpay/route.ts:43 | the query of the URL this handler returns passes the library's verification when handed back |
| PaymentRoute.SignedParamValues | src/app/api/payment/vnpay/route.ts:33-38 | the signed parameters carry the order id, the amount scaled by 100 and the clock in ms |
| VNPayCallback.RawVerify | src/app/api/vnpay/callback/route.ts:11-31 | both hash fields are deleted; the check passes exactly when the received hash equals the hash of the raw, unencoded canonical string of the rest |
| VNPayCallback.PaymentStatus | src/app/api/vnpay/callback/route.ts:36-37 | `paid` exactly for response code `00`, `failed` for everything else including a missing code |
| VNPayCallback.OrderStatus | src/app/api/vnpay/callback/route.ts:44 | `processing` exactly for a paid order, `pending` otherwise |
| VNPayCallback.Callback | src/app/api/vnpay/callback/route.ts:5-63 | a bad signature gives 400 and a failed update gives 500, each with the database unchanged; otherwise the order with the reference is updated and the reply redirects to success or failure when the app URL makes an absolute URL, else answers 500 with the update kept |
| VNPayCallback.CallbackOutcome | src/app/api/vnpay/callback/route.ts:35-62 | for an existing order an accepted callback marks it `paid`/`processing` exactly when the code is `00`, `failed`/`pending` otherwise, changes no other row, and redirects accordingly when the URL has a scheme, else answers 500 |
| VNPayCallback.RedirectUrl | src/app/api/vnpay/callback/route.ts:54-56 | with the app URL unset the template starts with `undefined/` |
| VNPayCallback.SchemeRestIff | src/app/api/vnpay/callback/route.ts:58 | what follows a scheme's first letter is a run of scheme characters closed by `:` |
| VNPayCallback.UndefinedNoScheme | src/app/api/vnpay/callback/route.ts:54-58 | a URL starting with `undefined/` has no scheme, so it is not absolute |
| VNPayCallback.SchemedAppUrl | src/app/api/vnpay/callback/route.ts:54-58 | an app URL with a scheme gives redirect URLs with a scheme |
| VNPayCallback.UnsetAppUrlFails | src/app/api/vnpay/callback/route.ts:54-62 | with the app URL unset, an accepted callback answers 500 `Internal server error` |
| VNPayCallback.SchemedAppUrlRedirects | src/app/api/vnpay/callback/route.ts:54-58 | with an app URL that has a scheme, an accepted callback whose update succeeds redirects |
| VNPayCallback.RawSignedAccepted | src/app/api/vnpay/callback/route.ts:11-33 | pairs with distinct keys, no hash fields and the raw signature appended are accepted |
| VNPayCallback.LibSignedStripped | src/app/api/vnpay/callback/route.ts:8-13 | a library-signed query, read with `Object.fromEntries` and stripped, yields the sorted parameters and the library's hash |
| VNPayCallback.LibSignedAcceptedWhenSafe | src/app/api/vnpay/callback/route.ts:22-31 | the callback accepts a library-signed query whenever every value is left unchanged by URL-encoding |
| VNPayCallback.LibSignedAcceptedIffSafe | src/app/api/vnpay/callback/route.ts:22-31 | under a hash with no collisions, the callback accepts a library-signed query exactly when every value is left unchanged by URL-encoding |
| VNPayReturn.LibConfig | src/lib/vnpay.ts:3-8 | the secret is `VNPAY_HASH_SECRET` or `''` |
| VNPayReturn.UpdateTxns | src/app/payment/vnpay-return/route.ts:24-31 | rows of other orders are untouched; every row of the order takes the status, code and message |
| VNPayReturn.WithCode | src/app/payment/vnpay-return/route.ts:68-72 | exactly the payment methods with the code are selected |
| VNPayReturn.VNPayMethodId | src/app/payment/vnpay-return/route.ts:68-73 | an id is found exactly when the lookup succeeds and one method has code `VNPAY`, and it is that method's id |
| VNPayReturn.DigitPrefix | src/app/payment/vnpay-return/route.ts:74 | the longest leading run of digits, which is the whole text when it is all digits |
| VNPayReturn.ParseAmount | src/app/payment/vnpay-return/route.ts:74 | a digit string reads as its value divided by 100; a missing value reads as `NaN` |
| VNPayReturn.OrderId | src/app/payment/vnpay-return/route.ts:19 | the reference is absent exactly when the verified parameters lack `vnp_TxnRef`, and is otherwise one of its values |
| VNPayReturn.Code | src/app/payment/vnpay-return/route.ts:20 | the response code is absent exactly when `vnp_ResponseCode` is missing, and is otherwise one of its values |
| VNPayReturn.TransactionNo | src/app/payment/vnpay-return/route.ts:21 | the transaction number is absent exactly when `vnp_TransactionNo` is missing, and is otherwise one of its values |
| VNPayReturn.MarkPaid | src/app/payment/vnpay-return/route.ts:43-53 | a paid order becomes `paid`/`processing` with the transaction number and the payment date, and every other field is unchanged |
| VNPayReturn.RedirectPath | src/app/payment/vnpay-return/route.ts:90-92 | the path is `/orders/`, the rendered reference, then `/success` or `/failed` |
| VNPayReturn.HistoryFor | src/app/payment/vnpay-return/route.ts:64-78 | the history row is `success`, for the reference, with the transaction number, the parsed amount and the verified parameters |
| VNPayReturn.Return | src/app/payment/vnpay-return/route.ts:5-102 | a bad signature gives 400 and a failed transaction update gives 500, each with the database unchanged; otherwise the transaction rows of the order take the outcome and no unrelated table changes |
| VNPayReturn.UpdateTxnsIdempotent | src/app/payment/vnpay-return/route.ts:24-31 | writing the same outcome twice changes nothing further |
| VNPayReturn.AmountRoundTrip | src/app/payment/vnpay-return/route.ts:74 | the amount the store sends as `amount * 100` reads back as `amount` |
| VNPayReturn.ReturnFailed | src/app/payment/vnpay-return/route.ts:33-42 | a verified return with a code other than `00` marks the transactions `failed`, redirects to the failure page, and touches neither orders nor history |
| VNPayReturn.ReturnPaid | src/app/payment/vnpay-return/route.ts:42-94 | a verified `00` return with every write succeeding marks the order paid and processing with the transaction number and time, appends one history row, and redirects to the success page |
| VNPayReturn.ReturnOrderFails | src/app/payment/vnpay-return/route.ts:55-61 | a failed order update answers 500 after the transactions were written, and leaves orders and history as they were |
| VNPayReturn.ReturnHistoryFails | src/app/payment/vnpay-return/route.ts:80-86 | a failed history insert answers 500 with the order already marked paid and no history row added |
| VNPayReturn.PaidAppendsRow | src/app/payment/vnpay-return/route.ts:63-78 | a successful paid return adds exactly one history row for the verified parameters |
| VNPayReturn.ReturnReplayDuplicates | src/app/payment/vnpay-return/route.ts:63-78 | delivering the same successful return twice appends two history rows: nothing guards against replay |
| Store.UpdateOrder | src/app/api/vnpay/callback/route.ts:40-46 | only the order with the id changes, the set of ids is kept, and the other tables are untouched |
| Store.FindOrder | src/app/api/payment/vnpay/route.ts:11-22 | an order is found exactly when the id is given and present, and it is the stored row |
| Store.OrDefault | src/lib/vnpay.ts:4-7 | an unset or empty value gives the default, and any other value is kept |
| Store.Render | src/app/api/create-payment/route.ts:45 | a template renders a missing value as `undefined` |
| OrdersCreate.EmailOkShape | src/app/api/orders/create/route.ts:26 | every string the handler's check accepts matches `^[^\s@]+@[^\s@]+\.[^\s@]+$` |
| OrdersCreate.EmailShapeOk | src/app/api/orders/create/route.ts:26 | every string the pattern matches passes the check |
| OrdersCreate.EmailOkIffShape | src/app/api/orders/create/route.ts:26 | the check and the pattern accept the same strings |
| OrdersCreate.EmailOk | src/app/api/orders/create/route.ts:26 | an accepted e-mail has at least five characters and no whitespace |
| OrdersCreate.Validate | src/app/api/orders/create/route.ts:17-55 | a request passes exactly when every required field is truthy, a given e-mail has the pattern's shape, the phone is ten digits, the items are a non-empty array and the total is positive; a missing required field is reported before any other check |
| OrdersCreate.Header | src/app/api/orders/create/route.ts:58-70 | the header is `pending`/`pending`, with the payment method defaulting to `cod` when undefined; it carries the request's name, phone, e-mail, address, notes and total, the generated order number, and no payment details |
| OrdersCreate.ItemRows | src/app/api/orders/create/route.ts:83-88 | one item row per cart line, in order, tied to the new order |
| OrdersCreate.ErrorStep | src/app/api/orders/create/route.ts:18-55 | an error reply carries its status and message and leaves every table as it was |
| OrdersCreate.Create | src/app/api/orders/create/route.ts:4-120 | an unreadable body gives 500, a failed validation gives 400 with its message, a failed header insert gives 500, each with the database unchanged; a `null` cart line gives 500 `Lỗi server` with the header left in place; other tables are never touched |
| OrdersCreate.CreateSucceeds | src/app/api/orders/create/route.ts:57-112 | a successful creation adds exactly the new pending header and its item rows, and redirects to the success page for the new id |
| OrdersCreate.CreateRollsBack | src/app/api/orders/create/route.ts:94-105 | when the item rows fail, the header is deleted again and the reply is 500 |
| OrdersCreate.CreateNullItemKeepsHeader | src/app/api/orders/create/route.ts:58-118 | with a `null` cart line the header is written, no item row is, and the reply is 500 `Lỗi server`: the header is not deleted again |
| OrdersCreate.CreateRejectsUnchanged | src/app/api/orders/create/route.ts:17-55 | a rejected request writes nothing |
| OrdersUpdate.DerivedPaymentStatus | src/app/api/orders/update-status/route.ts:36-48 | for cash on delivery: `paid` exactly when completed, `failed` exactly when cancelled, `pending` otherwise; for other methods: the requested status or `pending` |
| OrdersUpdate.Apply | src/app/api/orders/update-status/route.ts:31-48 | the row takes the status, the derived payment status and the timestamp, and nothing else changes |
| OrdersUpdate.UpdateStatus | src/app/api/orders/update-status/route.ts:4-77 | an unreadable body gives 500; missing fields give 400; a failed or empty fetch gives 500; a failed update gives 500 `Failed to update order` with the table unchanged; a success writes the new status to exactly that order and returns it |
| OrdersUpdate.UpdateSucceedsIff | src/app/api/orders/update-status/route.ts:4-69 | the order is updated exactly when the body is read, the id and status are given, the order exists and neither call fails |
| OrdersUpdate.CodIgnoresRequested | src/app/api/orders/update-status/route.ts:37-44 | for a cash-on-delivery order the client's payment status has no effect |
| OrdersUpdate.PaidOnlyWhen | src/app/api/orders/update-status/route.ts:36-48 | an order becomes `paid` exactly when it is cash on delivery and completed, or when another method's client asks for `paid` |
| OrdersUpdate.UpdateFailsUnchanged | src/app/api/orders/update-status/route.ts:8-63 | every path other than success leaves the database as it was |
| CategoryReorder.SetOrder | src/app/api/categories/reorder/route.ts:10-13 | only the rows with the update's id take its `display_order`; nothing else changes |
| CategoryReorder.ApplyAll | src/app/api/categories/reorder/route.ts:9-19 | a run of updates changes only `display_order` fields |
| CategoryReorder.FirstFailure | src/app/api/categories/reorder/route.ts:9-19 | the first failing update, if any: every earlier one succeeded |
| CategoryReorder.ApplyUpdates | src/app/api/categories/reorder/route.ts:9-19 | the loop succeeds exactly when no update fails, and then it has applied every update in order; otherwise it stops at the first failure with the earlier updates applied |
| CategoryReorder.InsertByOrder | src/app/api/categories/reorder/route.ts:22-25 | an insertion step adds exactly one category |
| CategoryReorder.InsertByOrderSorted | src/app/api/categories/reorder/route.ts:22-25 | inserting into a list sorted by `display_order` keeps it sorted |
| CategoryReorder.SortByOrder | src/app/api/categories/reorder/route.ts:22-25 | the ordered fetch is a permutation of the table |
| CategoryReorder.SortByOrderSorted | src/app/api/categories/reorder/route.ts:22-25 | the ordered fetch is ascending in `display_order` |
| CategoryReorder.Reorder | src/app/api/categories/reorder/route.ts:4-40 | an unreadable body gives 500; only categories change; a failure keeps the updates before it and answers 500; with no failure every update is applied, then a failed fetch answers 500 and a successful one answers 200 with the table sorted by `display_order` |
| CategoryReorder.ReorderListSorted | src/app/api/categories/reorder/route.ts:22-32 | the list a successful reorder returns is the stored table sorted by `display_order` |
| CategoryReorder.Renumber | src/app/admin/categories/page.tsx:156-159 | position `i` of the dragged list is sent `display_order` `i + 1` |
| CategoryReorder.RenumberApplied | src/app/admin/categories/page.tsx:156-159 | applying the page's updates to the list numbers it `1..n` in list order and changes nothing else |
| AdminCategories.RemoveAt | src/app/admin/categories/page.tsx:148 | `splice(i, 1)` drops exactly position `i` |
| AdminCategories.InsertAt | src/app/admin/categories/page.tsx:149 | `splice(i, 0, x)` puts `x` at `i` and shifts the rest |
| AdminCategories.RemoveInsert | src/app/admin/categories/page.tsx:148-149 | removing what was just inserted gives the list back |
| AdminCategories.InsertRemove | src/app/admin/categories/page.tsx:148-149 | inserting the removed element where it was gives the list back |
| AdminCategories.Move | src/app/admin/categories/page.tsx:147-149 | the dragged element lands at the destination and the others keep their relative order |
| AdminCategories.MovePermutes | src/app/admin/categories/page.tsx:147-149 | a drag is a permutation |
| AdminCategories.MoveBack | src/app/admin/categories/page.tsx:147-149 | dragging back undoes a drag |
| AdminCategories.DragEnd | src/app/admin/categories/page.tsx:144-160 | no destination leaves the list and sends nothing; otherwise the list is permuted with the dragged item at its destination, and the positions are sent as `1..n` |
| AdminCategories.DragEndShown | src/app/admin/categories/page.tsx:144-152 | with indices taken from the searched list, the row placed at the destination is the full list's row at the source index |
| AdminCategories.DragEndShownMovesHiddenRow | src/app/admin/categories/page.tsx:144-152 | for a concrete list and search, the drag moves a row the search hides instead of the dragged one |
| AdminCategories.DragEndByRow | src/app/admin/categories/page.tsx:144-160 | with shown indices mapped to full-list positions, the dragged row lands at the target row's position and the list is permuted |
| AdminCategories.DragEndByRowUnfiltered | src/app/admin/categories/page.tsx:144-160 | without a search, the corrected drag is the handler's own |
| AdminCategories.WithDefaultOrder | src/app/admin/categories/page.tsx:54-57 | every fetched category gets a non-zero order: a non-zero one is kept, a zero one becomes its position plus one; nothing else changes |
| AdminCategories.WithDefaultOrderIdempotent | src/app/admin/categories/page.tsx:54-57 | defaulting rows that were already defaulted changes nothing |
| AdminCategories.DashSpaces | src/app/admin/categories/page.tsx:75 | `replace(/\s+/g, '-')` leaves no whitespace, never lengthens, and is the whitespace-separated words joined by `-`, with a `-` for a leading and a trailing run |
| AdminCategories.DashSpacesNoSpace | src/app/admin/categories/page.tsx:75 | a string without whitespace is left as it is |
| AdminCategories.DashSpacesIdempotent | src/app/admin/categories/page.tsx:75 | the replacement is idempotent |
| AdminCategories.CategorySlug | src/app/admin/categories/page.tsx:75 | a given slug is kept; otherwise the slug is the lower-cased name's words joined by `-`, with a `-` for leading and trailing whitespace, and has no whitespace |
| AdminCategories.Add | src/app/admin/categories/page.tsx:67-96 | a failed insert keeps the list; otherwise the new row is appended with `display_order` one past the list length |
| AdminCategories.AddKeepsNumbering | src/app/admin/categories/page.tsx:77-85 | a list numbered `1..n` is numbered `1..n+1` after an add |
| AdminCategories.EditedRow | src/app/admin/categories/page.tsx:104-110 | the written row falls back to the name's slug and is otherwise the edited record |
| AdminCategories.Edit | src/app/admin/categories/page.tsx:113-117 | after a successful update exactly the entries with the edited id are replaced |
| AdminCategories.Delete | src/app/admin/categories/page.tsx:130-138 | after a successful delete exactly the entries with other ids remain |
| AdminCategories.DeleteMask | src/app/admin/categories/page.tsx:138 | the delete keeps exactly the entries with other ids, or all of them on failure, as a `Kept` mask |
| AdminCategories.DeleteIsSubSequence | src/app/admin/categories/page.tsx:138 | the delete keeps the remaining categories in list order |
| AdminCategories.DeleteAbsent | src/app/admin/categories/page.tsx:138 | deleting an id that is not listed changes nothing |
| AdminCategories.EditThenDelete | src/app/admin/categories/page.tsx:115-138 | editing a record and then deleting its id is the same as deleting it |
| AdminCategories.Search | src/app/admin/categories/page.tsx:242-245 | exactly the categories whose name or description contains the query, ignoring case |
| AdminCategories.SearchMask | src/app/admin/categories/page.tsx:242-245 | the search keeps exactly the entries whose flag is set, and the flag of each entry is whether it matches |
| AdminCategories.SearchIsSubSequence | src/app/admin/categories/page.tsx:242-245 | the search result is a sub-sequence of the list: the matches in their list order |
| AdminCategories.SearchEmpty | src/app/admin/categories/page.tsx:242-245 | an empty search keeps the whole list, in order |
| AdminProducts.Collapse | src/app/admin/products/page.tsx:125 | the result holds only `[a-z0-9]` and single dashes, keeps a leading slug character, and is the `[a-z0-9]` words joined by `-` with a `-` for a leading and a trailing run |
| AdminProducts.DashRunsCollapsed | src/app/admin/products/page.tsx:125 | replacing the runs outside `[a-z0-9]` leaves slug characters and no `--` |
| AdminProducts.TrimJoin | src/app/admin/products/page.tsx:126 | dropping one `-` at each end of a dash-wrapped join gives the join |
| AdminProducts.CollapseTrimmed | src/app/admin/products/page.tsx:125-126 | the trimmed replacement is exactly the `[a-z0-9]` words joined by `-` |
| AdminProducts.TrimDashes | src/app/admin/products/page.tsx:126 | a string that neither starts nor ends with `-` is left as it is, and none is lengthened |
| AdminProducts.TrimDashesSlug | src/app/admin/products/page.tsx:125-126 | trimming the ends of a collapsed string gives a slug |
| AdminProducts.Slugify | src/app/admin/products/page.tsx:123-126 | the slug is the lower-cased name's `[a-z0-9]` words joined by single dashes, so it has no dash at either end |
| AdminProducts.CollapseFixed | src/app/admin/products/page.tsx:125 | collapsing a string already in slug shape changes nothing |
| AdminProducts.ToLowerFixed | src/app/admin/products/page.tsx:124 | lower-casing a string without capitals changes nothing |
| AdminProducts.SlugifyIdempotent | src/app/admin/products/page.tsx:123-126 | a slug is its own slug |
| AdminProducts.CanAdd | src/app/admin/products/page.tsx:117-120 | the add form is accepted exactly when the edit form would be and a main image is chosen |
| AdminProducts.CanUpdate | src/app/admin/products/page.tsx:315-318 | the edit form is refused exactly when the name, the category or the price is falsy |
| AdminProducts.ExtraRows | src/app/admin/products/page.tsx:181-204 | the i-th extra image is written as a non-primary row at position `i + 1` |
| AdminProducts.ImageRows | src/app/admin/products/page.tsx:167-204 | the main image is written first as primary at position 0 when its URL is non-empty, then the extras |
| AdminProducts.OnePrimary | src/app/admin/products/page.tsx:167-204 | at most one written row is primary, and it is the main image |
| AdminProducts.FirstPrimary | src/app/admin/products/page.tsx:87 | the first primary image, or none exactly when no image is primary |
| AdminProducts.Transform | src/app/admin/products/page.tsx:84-88 | the category name or `Uncategorized`; the first primary image's URL when it is non-empty, otherwise, also when that URL is empty or there is no primary image, the product's own |
| AdminProducts.Search | src/app/admin/products/page.tsx:422-425 | exactly the products whose name or category contains the term, ignoring case |
| AdminProducts.SearchMask | src/app/admin/products/page.tsx:422-425 | the search keeps exactly the entries whose flag is set, and the flag of each entry is whether it matches |
| AdminProducts.SearchIsSubSequence | src/app/admin/products/page.tsx:422-425 | the search result is a sub-sequence of the list: the matches in their list order |
| AdminProducts.SearchEmpty | src/app/admin/products/page.tsx:422-425 | an empty term keeps every product, in order |
| AdminProducts.WithoutIndex | src/app/admin/products/page.tsx:276-277 | `filter((_, i) => i !== index)` drops that position, or nothing when it is out of range |
| AdminProducts.RemoveAdditionalImage | src/app/admin/products/page.tsx:275-282 | the same index is dropped from files and previews |
| AdminProducts.RemoveAdditionalImageUrl | src/app/admin/products/page.tsx:280 | reading the new `image_url` back gives the old pieces without the removed one |
| AdminProducts.RemoveAdditionalImageOutside | src/app/admin/products/page.tsx:280 | an index outside the pieces leaves `image_url` as it was |
| AdminUsers.FilterUsers | src/app/admin/users/page.tsx:65-74 | exactly the users matching the search (name or e-mail ignoring case, phone as typed, null fields never matching) and the role filter |
| AdminUsers.Mask | src/app/admin/users/page.tsx:65-74 | the filter keeps exactly the entries whose flag is set, and the flag of each user is whether both the search and the role filter match |
| AdminUsers.FilterIsSubSequence | src/app/admin/users/page.tsx:65-74 | the filtered list is a sub-sequence of the list |
| AdminUsers.EmptyTermAll | src/app/admin/users/page.tsx:65-74 | with an empty term and role `all`, exactly the users with at least one non-null searchable field are listed |
| AdminUsers.UpdateRole | src/app/admin/users/page.tsx:43-55 | after a successful write only the role of the user with the id changes |
| AdminUsers.UpdateRoleFilter | src/app/admin/users/page.tsx:43-74 | after a role change the user is listed under that role's filter |
| Access.SingleByEmail | src/middleware.ts:21-25 | a row is found only when exactly one user has the session's e-mail |
| Access.WithEmail | src/middleware.ts:21-25 | exactly the users with the e-mail |
| Access.SingleCount | src/middleware.ts:21-25 | one matching row means no two positions hold the e-mail |
| Access.Middleware | src/middleware.ts:5-34 | paths outside `/admin` pass, and an admin path without a session, or whose users query fails, redirects home |
| Access.Gate | src/middleware.ts:36-41 | the middleware runs only on paths its matcher selects |
| Access.MatchedIsAdminPath | src/middleware.ts:14-41 | every matched path is one the middleware treats as an admin path |
| Access.GateIff | src/middleware.ts:5-41 | a matched request passes exactly when there is a session, the users query succeeds, and its single user row has role `admin` |
| Access.CheckAdmin | src/hooks/useAdmin.ts:11-49 | loading ends; admin and redirect exclude each other; no session or a failed lookup never grants admin |
| Access.CheckAdminIff | src/hooks/useAdmin.ts:11-49 | the hook grants access exactly when the single user row's role, lower-cased, is `admin` |
| Access.MiddlewareThenHook | src/hooks/useAdmin.ts:35 | whoever the middleware lets through, the hook accepts as well |
| Access.UpperCaseRoleDisagrees | src/middleware.ts:27 | a role spelt `ADMIN` satisfies the hook but is refused by the middleware |
| Cart.AddItem | src/components/CartPopup.tsx:39 | the item is appended, with no merging |
| Cart.RemoveItem | src/components/CartPopup.tsx:40 | exactly the items with other ids remain |
| Cart.RemoveMask | src/components/CartPopup.tsx:40 | removal keeps exactly the items flagged, and an item is flagged exactly when its id differs |
| Cart.RemoveItemIsSubSequence | src/components/CartPopup.tsx:40 | the remaining items are a sub-sequence of the cart, in cart order |
| Cart.UpdateItemQuantity | src/components/CartPopup.tsx:41-45 | every item with the id takes the quantity, and the others are unchanged |
| Cart.ClearCart | src/components/CartPopup.tsx:46 | the cart becomes empty |
| Cart.Find | src/components/CartPopup.tsx:117 | an item is found exactly when one has the id |
| Cart.Clamp | src/components/CartPopup.tsx:120 | `Math.max(1, q + change)` is at least 1 and at least `q + change`, and is one of the two |
| Cart.QuantityChange | src/components/CartPopup.tsx:115-133 | an unknown id or a failed write keeps the cart; otherwise that id's quantity becomes the clamped value |
| Cart.QuantityChangeKeepsPositive | src/components/CartPopup.tsx:115-133 | the buttons keep a cart of positive quantities positive |
| Cart.HandleRemove | src/components/CartPopup.tsx:135-148 | the store follows only a successful delete |
| Cart.TotalItems | src/components/CartPopup.tsx:150 | the item count is never negative for non-negative quantities, and is at least the number of lines when every quantity is positive |
| Cart.TotalPrice | src/components/CartPopup.tsx:151 | the total price is never negative for non-negative prices and quantities |
| Cart.TotalsConcat | src/components/CartPopup.tsx:150-151 | the totals of two carts joined together are the sums of their totals |
| Cart.AddItemTotals | src/components/CartPopup.tsx:39-151 | adding an item adds its quantity and its line price to the totals |
| Cart.RemoveItemTotal | src/components/CartPopup.tsx:40-150 | removing an id takes away exactly the quantity held under it |
| Cart.UpdateThenRemove | src/components/CartPopup.tsx:40-45 | setting a quantity and then removing the id is the same as removing it |
| Cart.AddThenRemove | src/components/CartPopup.tsx:39-40 | adding an item and removing its id undoes the add |
| ProductListing.Toggle | src/app/products/page.tsx:133-139 | a selected id is removed and others are kept; an unselected one is appended |
| ProductListing.Without | src/app/products/page.tsx:136 | exactly the other ids remain |
| ProductListing.ToggleTwice | src/app/products/page.tsx:133-139 | toggling twice restores the selection, and restores the exact list when the id was unselected |
| ProductListing.WithoutAbsent | src/app/products/page.tsx:136 | filtering out an absent id changes nothing |
| ProductListing.WithoutAppended | src/app/products/page.tsx:136-137 | filtering out an id that was just appended gives the same as filtering the list |
| ProductListing.BuildQuery | src/app/products/page.tsx:77-116 | the category filter is present exactly when categories are selected; the name filter exactly when there is a term; the price filter exactly when the range is not `[0, 1000]`, scaled by 10000 |
| ProductListing.SortOrder | src/app/products/page.tsx:104-116 | order by price exactly for the two price options, ascending only for `price-asc`; every other option orders by `created_at`, newest first |
| ProductListing.ResetQuery | src/app/products/page.tsx:145-150 | after a reset the query has no filter and lists the newest first |
| Contact.Failing | src/app/contact/page.tsx:11-17 | exactly the listed fields whose rule is broken |
| Contact.Errors | src/app/contact/page.tsx:11-17 | each field is reported exactly when its rule is broken: name under 2 characters, e-mail rejected, phone not ten digits, subject empty, message under 10 characters |
| Contact.Valid | src/app/contact/page.tsx:11-17 | a form passes exactly when every rule holds |
| Contact.Submit | src/app/contact/page.tsx:34-62 | an invalid form never reaches the insert; a failed insert shows the error; a success stores a `pending` message with the form's fields and clears the form |
| Contact.SubmitKeepsValid | src/app/contact/page.tsx:34-62 | every stored message satisfied the schema when it was sent |
| Coupons.CouponStatus | src/app/coupons/page.tsx:79-113 | upcoming exactly before the start; expired exactly when started and past the end |
| Coupons.StatusText | src/app/coupons/page.tsx:84-112 | `Sắp diễn ra` is shown exactly for upcoming coupons and `Đang hoạt động` exactly for active ones; no status text reads as used |
| Coupons.Available | src/app/coupons/page.tsx:44-50 | the query keeps a coupon exactly when it is active and the page would show it neither as upcoming nor as expired |
| Coupons.ActiveIff | src/app/coupons/page.tsx:79-113 | a coupon is active exactly inside its window, ends included, while not used up |
| Coupons.NoLimitNeverReached | src/app/coupons/page.tsx:100 | a coupon with a null or zero limit is never shown as used up |
| Coupons.AvailableCoupons | src/app/coupons/page.tsx:44-50 | exactly the active coupons whose window contains now |
| Coupons.AvailableInWindow | src/app/coupons/page.tsx:44-113 | what the query returns is never shown as upcoming or expired |
| Coupons.OnOffer | src/app/coupons/page.tsx:44-53 | a failed or empty query shows no coupons |
| Coupons.UserCouponLabel | src/app/coupons/page.tsx:207-214 | a used coupon shows `used`, and any other coupon shows its status text |
| Coupons.StatusTextInjective | src/app/coupons/page.tsx:84-112 | the status texts are pairwise different and differ from the `used` text |
| Notifications.MarkAsRead | src/app/notifications/page.tsx:50-68 | after a successful write exactly the entries with the id become read |
| Notifications.MarkAllAsRead | src/app/notifications/page.tsx:70-92 | without a user or on failure nothing changes; otherwise every entry becomes read |
| Notifications.UnreadCount | src/app/notifications/page.tsx:117 | the counter never exceeds the list |
| Notifications.UnreadZeroIff | src/app/notifications/page.tsx:117 | the counter is zero exactly when everything is read |
| Notifications.MarkAllClearsCounter | src/app/notifications/page.tsx:85-117 | after a successful mark-all the counter is 0 |
| Notifications.MarkAsReadCount | src/app/notifications/page.tsx:60-117 | marking one id read lowers the counter by the unread entries with it |
| Notifications.MarkAsReadIdempotent | src/app/notifications/page.tsx:60-64 | marking the same id twice is the same as marking it once |
| Wishlist.RemoveFromWishlist | src/components/WishlistSection.tsx:55-69 | after a successful delete exactly the entries of other products remain |
| Wishlist.RemoveMask | src/components/WishlistSection.tsx:55-69 | removal keeps exactly the entries flagged: all of them when the delete fails, else those of other products |
| Wishlist.RemoveFromWishlistIsSubSequence | src/components/WishlistSection.tsx:55-69 | the remaining entries are a sub-sequence of the list, in list order |
| Wishlist.RowsFor | src/components/WishlistSection.tsx:74-79 | exactly the user's cart rows for the product |
| Wishlist.Existing | src/components/WishlistSection.tsx:74-81 | a row is found exactly when the lookup succeeds and the user has one cart row for the product |
| Wishlist.SetQuantity | src/components/WishlistSection.tsx:83-86 | only the row with the id takes the quantity |
| Wishlist.CartWrite | src/components/WishlistSection.tsx:74-98 | a failed write leaves the cart unchanged; after a failed lookup a successful write inserts a new row even when one exists |
| Wishlist.AddToCart | src/components/WishlistSection.tsx:71-105 | the cart write happens, and the removal from the wishlist follows whatever the write did |
| Wishlist.FavoritesRemove | src/app/favorites/page.tsx:70-87 | without a session nothing happens; otherwise it is the wishlist removal |
| Wishlist.FavoritesAddToCart | src/app/favorites/page.tsx:89-125 | without a session nothing happens; otherwise it is the section's move to the cart |
| Wishlist.QuantityAppend | src/components/WishlistSection.tsx:89-97 | appending a row adds its quantity to its own user and product |
| Wishlist.Quantity | src/components/WishlistSection.tsx:74-98 | the tally of a user and product is never negative for non-negative quantities, and is zero when no row is theirs |
| Wishlist.QuantityBump | src/components/WishlistSection.tsx:83-86 | bumping a row with a unique id adds one to that row's tally |
| Wishlist.CartWriteAddsOne | src/components/WishlistSection.tsx:74-98 | a successful write raises the user's quantity of the product by exactly one, whether it bumped a row or inserted one, also after a failed lookup |
| Wishlist.AddToCartClearsWish | src/components/WishlistSection.tsx:100-101 | after a move to the cart the product is gone from the wishlist when the delete succeeds |
| StoreSettings.TextOr | src/app/admin/settings/page.tsx:111-116 | an empty or missing text takes the default, and any other text is kept |
| StoreSettings.NumberOr | src/app/admin/settings/page.tsx:117-119 | a zero, `NaN` or missing number takes the default, and any other number is kept |
| StoreSettings.ToSave | src/app/admin/settings/page.tsx:109-123 | every field of the saved record is present; the currency is never empty; the tax rate is never zero; each falsy field takes the default |
| StoreSettings.WithScalarDefaults | src/app/admin/settings/page.tsx:111-119 | every text and number field is present, the currency non-empty and the tax rate non-zero; filled texts are kept; the id and the three object fields are untouched |
| StoreSettings.ToSaveText | src/app/admin/settings/page.tsx:111-115 | each of the five free-text fields is sent as typed, or as `''` when empty or missing |
| StoreSettings.ToSaveObjects | src/app/admin/settings/page.tsx:120-121 | the social links and notification switches are sent as loaded, or as the page's defaults when missing |
| StoreSettings.ToSaveIdempotent | src/app/admin/settings/page.tsx:109-123 | saving twice sends the same record as saving once |
| StoreSettings.ToSaveKeepsTruthy | src/app/admin/settings/page.tsx:109-123 | a record whose every field is truthy is sent unchanged |
| StoreSettings.WithId | src/app/admin/settings/page.tsx:86 | exactly the rows with the id |
| StoreSettings.Upsert | src/app/admin/settings/page.tsx:127-132 | the record is in the table afterwards, every row is the record or an old row, and every row with another id stays |
| StoreSettings.UpsertWithId | src/app/admin/settings/page.tsx:127-132 | after an upsert into a table with at most one row per id, exactly one row has the record's id and it is the record |
| StoreSettings.Fetch | src/app/admin/settings/page.tsx:81-101 | a failed request or anything but exactly one row with id `default_settings` shows the defaults; otherwise the stored row with that id |
| StoreSettings.Save | src/app/admin/settings/page.tsx:103-148 | a failure keeps the table and shows the error; a success stores the defaulted record and shows the saved message |
| StoreSettings.SaveThenFetch | src/app/admin/settings/page.tsx:81-148 | reloading after a successful save shows the defaulted record |
| StoreSettings.SetText | src/app/admin/settings/page.tsx:157-162 | only the edited text field changes |
| StoreSettings.SetNumber | src/app/admin/settings/page.tsx:157-162 | only the edited number field changes |
| StoreSettings.ClearedTaxRateSavesTen | src/app/admin/settings/page.tsx:117-162 | clearing the tax rate (`Number('')` is 0) and saving stores 10 |
| StoreSettings.ChangeHours | src/app/admin/settings/page.tsx:164-175 | fails when the hours are null; otherwise only the edited field of that day changes, and a missing day gets just that field |
| StoreSettings.ChangeSocial | src/app/admin/settings/page.tsx:177-185 | only that platform changes, and a null map becomes a one-entry map |
| StoreSettings.ChangeNotification | src/app/admin/settings/page.tsx:187-195 | only that flag changes, and a null map becomes a one-entry map |
| StoreSettings.ChangeNotificationRestore | src/app/admin/settings/page.tsx:187-195 | setting a flag and then restoring its old value gives back the record |
| StoreSettings.ChangeHoursRestore | src/app/admin/settings/page.tsx:164-175 | editing a day's hours and typing the old value back restores them |
| UserSettings.FlagOf | src/app/settings/page.tsx:50-55 | a column is read into a switch exactly for the three notification columns |
| UserSettings.Column | src/app/settings/page.tsx:109-110 | a switch is written to one of the three notification columns, and that column reads back into the same switch |
| UserSettings.ColumnValue | src/app/settings/page.tsx:50-55 | a switch reads the column `Column` names for it: `order_updates`, `promotions` or `security_alerts` |
| UserSettings.ColumnRoundTrip | src/app/settings/page.tsx:50-55 | writing and reading use inverse mappings between switches and columns |
| UserSettings.Set | src/app/settings/page.tsx:116-119 | only the toggled switch changes |
| UserSettings.FlagsOf | src/app/settings/page.tsx:50-55 | each switch is read from its own column, with null shown as off |
| UserSettings.Fetch | src/app/settings/page.tsx:35-62 | no session, an error or a missing row keeps the switches; otherwise they show the row |
| UserSettings.UpsertColumn | src/app/settings/page.tsx:105-112 | the user's row gets the one column and the timestamp; other columns and other users are kept, and a new row has only those set |
| UserSettings.Toggle | src/app/settings/page.tsx:99-125 | without a session nothing happens; a failed write keeps the switches and shows the error; a success negates exactly that switch, writes it and shows success |
| UserSettings.ToggleThenFetch | src/app/settings/page.tsx:35-125 | when the page shows the stored row, a successful toggle keeps it so |
| UserSettings.FlagsExtensional | src/app/settings/page.tsx:13-17 | two switch states that agree on every switch are equal |
| UserSettings.ToggleTwice | src/app/settings/page.tsx:99-125 | clicking a switch twice, both writes succeeding, restores it |
| UserSettings.UpdatePassword | src/app/settings/page.tsx:69-97 | a mismatched confirmation is refused before the auth call; otherwise the auth error is shown or the password changes; success exactly when both checks pass |
| Account.WithEmail | src/app/account/page.tsx:76-80 | exactly the rows with the e-mail, and none for an undefined e-mail |
| Account.WithId | src/app/account/page.tsx:94-98 | exactly the rows with the id |
| Account.NewProfile | src/app/account/page.tsx:120-135 | the created profile has the auth id and e-mail, no points, role `customer`, empty phone and address, no avatar, and the metadata name when truthy |
| Account.ShownById | src/app/account/page.tsx:107-117 | the selected columns, with a falsy avatar shown as none and no password hash |
| Account.Fetch | src/app/account/page.tsx:58-148 | the table is unchanged, or exactly the shown profile has been appended |
| Account.FetchEmailErrorAborts | src/app/account/page.tsx:82-85 | an e-mail lookup error other than PGRST116 ends the chain with nothing shown and nothing written |
| Account.FetchFoundByEmail | src/app/account/page.tsx:87-91 | a single profile found by e-mail is shown as it is, with no further call |
| Account.FetchInsertsIff | src/app/account/page.tsx:93-144 | a profile is inserted exactly when the session is read, no row matches by e-mail or id, and no call fails; and it is the new profile |
| Account.FetchById | src/app/account/page.tsx:94-117 | without a single e-mail match, one row found by id is shown in the page's shape with nothing written; an id-lookup error or several id rows show nothing and write nothing |
| Account.FetchTwiceInsertsOnce | src/app/account/page.tsx:58-148 | loading the page again after it created the profile inserts nothing |
| Account.SavedAvatar | src/app/account/page.tsx:219 | the preview if truthy, else the existing avatar if truthy, else none; never the empty string |
| Account.UpdateWhere | src/app/account/page.tsx:213-224 | exactly the rows with the e-mail are rewritten, and none for an undefined e-mail |
| Account.Edited | src/app/account/page.tsx:215-240 | the form's name, phone and address and the saved avatar replace the old ones; identity, points and role are kept |
| Account.ErrorText | src/app/account/page.tsx:245 | a non-empty error message is shown as it is, else the fallback |
| Account.UpdateProfile | src/app/account/page.tsx:199-249 | an error keeps the profile and the table and shows the error text; success exactly when there is no error and one row has the e-mail, and then exactly that row and the shown profile take the form fields and the saved avatar |
| Account.UpdateKeepsInSync | src/app/account/page.tsx:213-240 | when the page shows the stored row, a successful save keeps it so |
| Account.DeleteAvatar | src/app/account/page.tsx:167-197 | acts only when the shown profile has an avatar; an error changes nothing; without an error it succeeds, shows the deleted message, clears the avatar of the shown profile and of exactly the e-mail's rows, leaves every other row alone and resets the preview |
| Account.DeleteThenSaveKeepsNoAvatar | src/app/account/page.tsx:167-240 | after the avatar is deleted, saving the form without choosing a new picture stores no avatar |

## Findings

| source | as written | input that shows it | evidently intended | confidence | as-written member | corrected member |
|---|---|---|---|---|---|---|
| src/app/admin/categories/page.tsx:144-149 | the draggable rows (lines 321-325) are numbered by their place in the searched list, but `handleDragEnd` splices the full `categories` list at those numbers | categories `x`, `y1`, `y2`, search `y`; drag the first shown row (`y1`) below `y2`: the full list's row 0, `x`, moves to position 1 | the dragged row moves to the target row's place in the full list | not executed | AdminCategories.DragEndShown, AdminCategories.DragEndShownMovesHiddenRow | AdminCategories.DragEndByRow, AdminCategories.DragEndByRowUnfiltered |

## Left out

- The keyed hash is not computed. HMAC-SHA512 and its hex rendering are a function parameter, and every signing property holds for every such function. `VNPayCallback.LibSignedAcceptedIffSafe` also assumes the function has no collisions.
- Sort order uses Unicode code points. JavaScript's default sort compares UTF-16 code units, and the two orders differ only for characters outside the Basic Multilingual Plane. String lengths are also counted in code points.
- Floating-point arithmetic is not modelled:
  - Amounts are integers. `Math.round(amount * 100)` and `amount * 100` are exact multiplication.
  - `parseFloat(...) / 100` reads a leading digit run as an exact rational, and no digit at all is `NaN` (`None`).
  - `Number(...)` on the settings page is an optional real, with `None` for `NaN`.
- Clocks (`new Date()`, `Date.now()`), the session and the request URL are inputs. Which timestamp a call actually reads is not modelled.
- Query-string decoding (`searchParams.entries()`) is not modelled: the handlers receive the already decoded pairs.
- Redirect URLs are kept as the string the handler builds. Their resolution against the request URL is not modelled.
- `VNPayCallback.Callback` models only the scheme test of the URL parser behind `NextResponse.redirect`: a string without a scheme makes the redirect throw, and the handler's `catch` answers 500 after the update. Host syntax and the other checks of a full URL parse are not modelled; a URL with a scheme is taken as valid.
- Database calls are pure functions over row lists. Latency, concurrency, triggers and the row order of an unordered select are not modelled.
  - `.eq(column, undefined)` matches no row.
  - `ilike` is modelled only as the query filter the page adds, not as its matching.
- `toLowerCase` folds only ASCII letters.
- The contact form's e-mail rule (`z.string().email()`) is a parameter predicate.
- JSON bodies of the wrong shape are reduced to a missing field or an unreadable body. The order route is the exception: an `items` value that is not an array, and a `null` element of `items`, are modelled.
- `AdminCategories.Add`, `AdminCategories.EditedRow` and `AdminCategories.Edit` model `handleAddCategory` and `handleEditCategory`, which the categories page never reaches. The page calls `setShowAddModal` and `setShowEditModal` only with `false`, binds no control to `handleAddCategory`, and so never renders the edit form. Every live add and edit goes through `handleSubmit` (src/app/admin/categories/page.tsx:182-230), which calls the category REST routes and then re-fetches the list. Those routes are not part of this model, so the live add and edit path is not modelled.
- The cart popup's fetch transform (`Array.isArray(item.product)`) is not modelled.
- File uploads, `FileReader` previews (`handleAvatarChange`) and storage URLs are not modelled. The image rows take the uploaded URLs as inputs.
- Rendering, loading flags, timers (`setTimeout`) and `alert` are not modelled.
- `AdminCategories.WithDefaultOrder`: a null `display_order` is treated as 0, which is falsy in the same way.
- `Entries.Set` and `Entries.FromEntries` keep insertion order for every key. JavaScript lists integer-like keys such as `"1"` first, in numeric order, and a `__proto__` key sets the prototype instead of adding a property. The same reading underlies `Entries.SortByKey` and `VNPay.CanonicalString`, whose sorted object is rebuilt by assignment. The handlers' own keys are fixed `vnp_` names, so this matters only for a query that carries an integer-like or `__proto__` parameter name.
- `Entries.FromEntriesDistinct` states its first-position, last-value rule under the same insertion-order reading; integer-like keys and `__proto__` are not covered.
- `CreatePayment.SignedOrderInfo` treats a JSON `null` order description like a missing one. In JavaScript a `null` value is kept by the parameter object, signed as `vnp_OrderInfo=null` in the canonical string, and written as an empty value in the URL (`value?.toString() || ''`).
- `OrdersCreate.Create`: a cart line that is a number, a string or an object without the item fields is not modelled. Reading `item.id` on such a line does not throw, so the outcome depends on how the database treats the missing values.
- `OrdersCreate.Header` treats a JSON `null` payment method like a missing one and stores `cod`. The destructuring default applies only to `undefined`, so in JavaScript a `null` payment method is inserted as null.
- `Account.UpdateProfile` relies on the database server rolling back a singular update (`.select().single()`) that touches no row or more than one; such a call fails and leaves the table unchanged.
- The `confirm()` dialog before a category is deleted is not modelled: the delete handler starts after the admin confirms.
- `Account.Edited`: the `updated_at` column the update writes is not modelled. The same holds for `Account.DeleteAvatar`.
- `UserSettings.UpsertColumn`: the upsert is assumed to conflict on `user_id`. Database defaults for the columns a new row does not set are kept as `None`.
- `UserSettings.FlagsOf`: a null column is held as `false`, which is how the page shows and toggles it.
- `Account.FetchTwiceInsertsOnce` is stated only for the case where the first load inserted a profile. When it did not, a second load may still insert one, for example once a failing call succeeds.
- `Wishlist.CartWrite` states the failed-write and failed-lookup cases in its own contract. The bump-or-insert case after a successful lookup is stated by `Wishlist.CartWriteAddsOne`.
- `CreatePayment.CreatePayment` does not model `Math.round` on fractional amounts.

=== FILE: access.dfy ===
/** The two admin gates: the request middleware, which compares the role
    exactly, and the client hook, which compares it ignoring case. */
module Access {
  import opened Wrappers
  import opened Strings

  /** A row of `users` as the gates read it; the role may be null. */
  datatype User = User(email: string, role: Option<string>)

  /** `.eq('email', email).single()`: the row when exactly one has the email;
      none when the email is undefined, when no row has it or when several do. */
  function SingleByEmail(users: seq<User>, email: Option<string>): (r: Option<User>)
    ensures r.Some? ==> email.Some? && r.value in users && r.value.email == email.value
    ensures r.Some? ==> forall i, j :: 0 <= i < j < |users| ==> !(users[i].email == email.value && users[j].email == email.value)
  {
    if email.None? then None
    else
      var rows := WithEmail(users, email.value);
      if |rows| == 1 then
        assert rows[0] in rows;
        SingleCount(users, email.value);
        Some(rows[0])
      else None
  }

  function WithEmail(users: seq<User>, email: string): (r: seq<User>)
    ensures forall u :: u in r <==> u in users && u.email == email
    ensures |r| <= |users|
  {
    if |users| == 0 then []
    else (if users[0].email == email then [users[0]] else []) + WithEmail(users[1..], email)
  }

  /** One matching row means no two positions hold the email. */
  lemma {:induction false} SingleCount(users: seq<User>, email: string)
    requires |WithEmail(users, email)| == 1
    ensures forall i, j :: 0 <= i < j < |users| ==> !(users[i].email == email && users[j].email == email)
  {
    if |users| > 0 {
      if users[0].email == email {
        assert |WithEmail(users[1..], email)| == 0;
        forall j | 0 < j < |users| ensures users[j].email != email {
          assert users[j] in users[1..];
        }
      } else {
        SingleCount(users[1..], email);
        forall i, j | 0 <= i < j < |users| ensures !(users[i].email == email && users[j].email == email) {
          if i > 0 { assert users[i] == users[1..][i - 1] && users[j] == users[1..][j - 1]; }
        }
      }
    }
  }

  /** The session as the gates see it: absent, or a user with a possibly
      undefined email. */
  datatype Session = NoSession | Session(email: Option<string>)

  datatype Decision = Pass | RedirectHome

  /** The `matcher: ['/admin/:path*']` of the middleware's config. */
  predicate Matched(path: string) {
    path == "/admin" || StartsWith(path, "/admin/")
  }

  /** `middleware`: an admin path needs a session and a user row whose role
      is exactly `admin`. `lookupFails` is an error of the users query: its
      `data` is then null, so the role test fails and the request is sent
      home. */
  function Middleware(path: string, session: Session, users: seq<User>, lookupFails: bool): (d: Decision)
    ensures !StartsWith(path, "/admin") ==> d == Pass
    ensures StartsWith(path, "/admin") && session.NoSession? ==> d == RedirectHome
    ensures StartsWith(path, "/admin") && lookupFails ==> d == RedirectHome
  {
    if !StartsWith(path, "/admin") then Pass
    else match session
      case NoSession => RedirectHome
      case Session(email) =>
        var row := if lookupFails then None else SingleByEmail(users, email);
        if row.Some? && row.value.role == Some("admin") then Pass else RedirectHome
  }

  /** What the request sees: the middleware runs only on matched paths. */
  function Gate(path: string, session: Session, users: seq<User>, lookupFails: bool): (d: Decision)
    ensures !Matched(path) ==> d == Pass
    ensures Matched(path) ==> d == Middleware(path, session, users, lookupFails)
  {
    if Matched(path) then Middleware(path, session, users, lookupFails) else Pass
  }

  /** Every matched path is one the middleware treats as an admin path. */
  lemma MatchedIsAdminPath(path: string)
    requires Matched(path)
    ensures StartsWith(path, "/admin")
  {
    if path != "/admin" {
      assert path[..6] == path[..7][..6];
    }
  }

  /** On a matched path the request passes exactly when the users query
      succeeds and the session's user row has the role `admin`, spelt
      exactly so. */
  lemma GateIff(path: string, session: Session, users: seq<User>, lookupFails: bool)
    requires Matched(path)
    ensures Gate(path, session, users, lookupFails) == Pass <==>
      session.Session? && !lookupFails && SingleByEmail(users, session.email).Some?
      && SingleByEmail(users, session.email).value.role == Some("admin")
  {
    MatchedIsAdminPath(path);
  }

  /** The hook's state after `checkAdminStatus`; `redirected` is the
      navigation to `/`. */
  datatype HookState = HookState(isAdmin: bool, isLoading: bool, redirected: bool)

  /** `checkAdminStatus`; `lookupFails` is the error of the users query. A
      null role makes `toLowerCase` throw, which the catch turns into a
      redirect. */
  function CheckAdmin(session: Session, users: seq<User>, lookupFails: bool): (h: HookState)
    ensures !h.isLoading
    ensures h.isAdmin <==> !h.redirected
    ensures session.NoSession? || lookupFails ==> !h.isAdmin
  {
    match session
    case NoSession => HookState(false, false, true)
    case Session(email) =>
      var row := SingleByEmail(users, email);
      if lookupFails || row.None? then HookState(false, false, true)
      else match row.value.role
        case None => HookState(false, false, true)
        case Some(role) =>
          if ToLower(role) != "admin" then HookState(false, false, true)
          else HookState(true, false, false)
  }

  /** The hook grants access exactly when the role, ignoring case, is `admin`. */
  lemma CheckAdminIff(session: Session, users: seq<User>, lookupFails: bool)
    ensures CheckAdmin(session, users, lookupFails).isAdmin <==>
      session.Session? && !lookupFails && SingleByEmail(users, session.email).Some?
      && SingleByEmail(users, session.email).value.role.Some?
      && ToLower(SingleByEmail(users, session.email).value.role.value) == "admin"
  {
  }

  /** Whoever the middleware lets through, the hook accepts too (when its
      own query succeeds). */
  lemma MiddlewareThenHook(path: string, session: Session, users: seq<User>, lookupFails: bool)
    requires Matched(path) && Gate(path, session, users, lookupFails) == Pass
    ensures CheckAdmin(session, users, false).isAdmin
  {
    MatchedIsAdminPath(path);
    assert ToLower("admin") == "admin";
  }

  /** The converse fails: a role spelt `ADMIN` satisfies the hook but is
      turned away by the middleware. */
  lemma UpperCaseRoleDisagrees()
    ensures var users := [User("a@b.c", Some("ADMIN"))];
      var session := Session(Some("a@b.c"));
      CheckAdmin(session, users, false).isAdmin && Gate("/admin", session, users, false) == RedirectHome
  {
    var users := [User("a@b.c", Some("ADMIN"))];
    assert WithEmail(users, "a@b.c") == users;
    assert ToLower("ADMIN") == "admin";
  }
}

=== FILE: account.dfy ===
/** The customer account page: finding or creating the signed-in user's
    profile in `users`, saving the profile form with its avatar, and deleting
    the avatar. Columns read as null are `None`. */
module Account {
  import opened Wrappers

  /** A row of `users` (the columns the page reads or writes, except the
      `updated_at` timestamp). */
  datatype Profile = Profile(
    id: string,
    fullName: Option<string>,
    email: Option<string>,
    phone: Option<string>,
    points: int,
    role: Option<string>,
    address: Option<string>,
    avatarUrl: Option<string>,
    passwordHash: Option<string>)

  /** What the auth session says about the signed-in user. */
  datatype AuthUser = AuthUser(id: string, email: Option<string>, metadataName: Option<string>, aud: Option<string>)

  datatype Message = Success(text: string) | Failure(text: string)

  const ProfileUpdated := "C\U{1EAD}p nh\U{1EAD}t th\U{00F4}ng tin th\U{00E0}nh c\U{00F4}ng!"
  const ProfileUpdateFailed := "C\U{00F3} l\U{1ED7}i x\U{1EA3}y ra khi c\U{1EAD}p nh\U{1EAD}t th\U{00F4}ng tin"
  const AvatarDeleted := "X\U{00F3}a \U{1EA3}nh \U{0111}\U{1EA1}i di\U{1EC7}n th\U{00E0}nh c\U{00F4}ng!"
  const AvatarDeleteFailed := "C\U{00F3} l\U{1ED7}i x\U{1EA3}y ra khi x\U{00F3}a \U{1EA3}nh \U{0111}\U{1EA1}i di\U{1EC7}n"

  /** The PostgREST error message of `.single()` when the number of rows is
      not one (error code PGRST116). */
  const NotOneRow := "JSON object requested, multiple (or no) rows returned"

  /** The rows a filter `.eq('email', email)` selects; an undefined email
      selects none. */
  function WithEmail(users: seq<Profile>, email: Option<string>): (r: seq<Profile>)
    ensures |r| <= |users|
    ensures forall p :: p in r <==> p in users && email.Some? && p.email == email
    ensures email.None? ==> |r| == 0
  {
    if |users| == 0 then []
    else
      var last := users[|users| - 1];
      WithEmail(users[..|users| - 1], email) + (if email.Some? && last.email == email then [last] else [])
  }

  /** The rows a filter `.eq('id', id)` selects. */
  function WithId(users: seq<Profile>, id: string): (r: seq<Profile>)
    ensures |r| <= |users|
    ensures forall p :: p in r <==> p in users && p.id == id
  {
    if |users| == 0 then []
    else
      var last := users[|users| - 1];
      WithId(users[..|users| - 1], id) + (if last.id == id then [last] else [])
  }

  /** The profile the page creates when none is found: no points, the
      `customer` role, empty phone and address. */
  function NewProfile(u: AuthUser): (p: Profile)
    ensures p.id == u.id && p.email == u.email
    ensures p.points == 0 && p.role == Some("customer")
    ensures p.phone == Some("") && p.address == Some("") && p.avatarUrl == None
    ensures p.fullName.Some? && (Truthy(u.metadataName) ==> p.fullName == u.metadataName)
  {
    Profile(
      u.id,
      Some(if Truthy(u.metadataName) then u.metadataName.value else ""),
      u.email, Some(""), 0, Some("customer"), Some(""), None,
      Some(if Truthy(u.aud) then u.aud.value else ""))
  }

  /** The profile shown for a row found by id: the selected columns, with an
      empty avatar URL shown as null. */
  function ShownById(p: Profile): (r: Profile)
    ensures r.id == p.id && r.email == p.email && r.points == p.points && r.role == p.role
    ensures r.avatarUrl == if Truthy(p.avatarUrl) then p.avatarUrl else None
    ensures r.passwordHash == None
  {
    p.(avatarUrl := if Truthy(p.avatarUrl) then p.avatarUrl else None, passwordHash := None)
  }

  /** The failures a `fetchUserProfile` call can meet: the session call
      fails, the by-email lookup fails with an error other than "no single
      row" (PGRST116), the by-id lookup fails, or the insert fails. */
  datatype FetchOutcomes = FetchOutcomes(sessionFails: bool, emailLookupFails: bool, idLookupFails: bool, insertFails: bool)

  /** The profile the page shows (`None`: none is set) and the table after. */
  datatype Fetched = Fetched(profile: Option<Profile>, users: seq<Profile>)

  /** `fetchUserProfile`: look the user up by e-mail with `.single()` (no
      match or several matches is PGRST116, which is tolerated), then by id
      with `.maybeSingle()` (several matches is an error), and create the
      profile when neither finds one. Any error ends the chain. */
  function Fetch(session: Option<AuthUser>, users: seq<Profile>, out: FetchOutcomes): (r: Fetched)
    ensures r.users == users || (r.profile.Some? && r.users == users + [r.profile.value])
  {
    if out.sessionFails || session.None? then Fetched(None, users)
    else
      var u := session.value;
      var byEmail := WithEmail(users, u.email);
      if out.emailLookupFails then Fetched(None, users)
      else if |byEmail| == 1 then Fetched(Some(byEmail[0]), users)
      else
        var byId := WithId(users, u.id);
        if out.idLookupFails || |byId| > 1 then Fetched(None, users)
        else if |byId| == 1 then Fetched(Some(ShownById(byId[0])), users)
        else if out.insertFails then Fetched(None, users)
        else Fetched(Some(NewProfile(u)), users + [NewProfile(u)])
  }

  /** An e-mail lookup error other than PGRST116 ends the chain: nothing is
      shown and nothing is inserted. */
  lemma FetchEmailErrorAborts(u: AuthUser, users: seq<Profile>, out: FetchOutcomes)
    requires !out.sessionFails && out.emailLookupFails
    ensures Fetch(Some(u), users, out) == Fetched(None, users)
  {
  }

  /** A single profile found by e-mail is shown as is, with no further
      lookup or insert. */
  lemma FetchFoundByEmail(u: AuthUser, users: seq<Profile>, out: FetchOutcomes, p: Profile)
    requires !out.sessionFails && !out.emailLookupFails
    requires WithEmail(users, u.email) == [p]
    ensures Fetch(Some(u), users, out) == Fetched(Some(p), users)
  {
  }

  /** Without a single e-mail match the page looks the user up by id: one
      row is shown with the selected columns; an error or several rows
      (`.maybeSingle()`) shows nothing and writes nothing. */
  lemma FetchById(u: AuthUser, users: seq<Profile>, out: FetchOutcomes)
    requires !out.sessionFails && !out.emailLookupFails && |WithEmail(users, u.email)| != 1
    ensures !out.idLookupFails && |WithId(users, u.id)| == 1 ==>
              Fetch(Some(u), users, out) == Fetched(Some(ShownById(WithId(users, u.id)[0])), users)
    ensures out.idLookupFails || |WithId(users, u.id)| > 1 ==>
              Fetch(Some(u), users, out) == Fetched(None, users)
  {
  }

  /** A profile is inserted exactly when the session is read, neither lookup
      fails or finds a profile, and the insert succeeds; the inserted row is
      `NewProfile` and it is what the page shows. */
  lemma FetchInsertsIff(u: AuthUser, users: seq<Profile>, out: FetchOutcomes)
    ensures var r := Fetch(Some(u), users, out);
            r.users != users <==>
              && !out.sessionFails && !out.emailLookupFails && !out.idLookupFails && !out.insertFails
              && |WithEmail(users, u.email)| != 1 && |WithId(users, u.id)| == 0
    ensures var r := Fetch(Some(u), users, out);
            r.users != users ==> r.users == users + [NewProfile(u)] && r.profile == Some(NewProfile(u))
  {
    var r := Fetch(Some(u), users, out);
    if r.users != users {
      assert |r.users| == |users| + 1;
    }
    assert |users + [NewProfile(u)]| == |users| + 1;
  }

  lemma WithIdAppend(users: seq<Profile>, p: Profile, id: string)
    ensures WithId(users + [p], id) == WithId(users, id) + (if p.id == id then [p] else [])
  {
    assert (users + [p])[..|users + [p]| - 1] == users;
  }

  /** Loading the page again after it created the profile inserts nothing:
      two loads create the profile at most once. */
  lemma FetchTwiceInsertsOnce(u: AuthUser, users: seq<Profile>, out1: FetchOutcomes, out2: FetchOutcomes)
    ensures var first := Fetch(Some(u), users, out1);
            first.users != users ==> Fetch(Some(u), first.users, out2).users == first.users
  {
    var first := Fetch(Some(u), users, out1);
    if first.users != users {
      FetchInsertsIff(u, users, out1);
      WithIdAppend(users, NewProfile(u), u.id);
      assert |WithId(first.users, u.id)| == 1;
      FetchInsertsIff(u, first.users, out2);
    }
  }

  /** The avatar saved with the profile: `avatarPreview || existing || null`. */
  function SavedAvatar(preview: Option<string>, existing: Option<string>): (r: Option<string>)
    ensures r.Some? ==> r.value != ""
    ensures Truthy(preview) ==> r == preview
    ensures !Truthy(preview) && Truthy(existing) ==> r == existing
    ensures r.None? <==> !Truthy(preview) && !Truthy(existing)
  {
    if Truthy(preview) then preview else if Truthy(existing) then existing else None
  }

  /** `.update(...).eq('email', email)`: every row with that e-mail is
      rewritten by `f`, the others stay. */
  function UpdateWhere(users: seq<Profile>, email: Option<string>, f: Profile -> Profile): (r: seq<Profile>)
    ensures |r| == |users|
    ensures forall i :: 0 <= i < |users| ==>
              r[i] == if email.Some? && users[i].email == email then f(users[i]) else users[i]
  {
    if |users| == 0 then []
    else [if email.Some? && users[0].email == email then f(users[0]) else users[0]]
         + UpdateWhere(users[1..], email, f)
  }

  /** The form fields of the profile form. */
  datatype Form = Form(fullName: string, phone: string, address: string)

  function Edited(p: Profile, form: Form, avatar: Option<string>): (r: Profile)
    ensures r.id == p.id && r.email == p.email && r.points == p.points && r.role == p.role
    ensures r.fullName == Some(form.fullName) && r.phone == Some(form.phone)
    ensures r.address == Some(form.address) && r.avatarUrl == avatar
  {
    p.(fullName := Some(form.fullName), phone := Some(form.phone), address := Some(form.address), avatarUrl := avatar)
  }

  /** `error.message || fallback`. */
  function ErrorText(m: string, fallback: string): (r: string)
    ensures r != "" || fallback == ""
    ensures m != "" ==> r == m
  {
    if m != "" then m else fallback
  }

  datatype Updated = Updated(profile: Option<Profile>, users: seq<Profile>, message: Message)

  /** `handleUpdateProfile`: the rows with the session's e-mail get the form
      fields and the saved avatar. With `.single()` the update is a singular
      request, which the database server rolls back unless it touches exactly
      one row; the page keeps its profile on any error. `requestError` is a
      request that fails before it is applied. */
  function UpdateProfile(profile: Option<Profile>, email: Option<string>, form: Form,
                         preview: Option<string>, users: seq<Profile>,
                         requestError: Option<string>): (r: Updated)
    ensures requestError.Some? ==>
              r == Updated(profile, users, Failure(ErrorText(requestError.value, ProfileUpdateFailed)))
    ensures r.message.Success? <==> requestError.None? && |WithEmail(users, email)| == 1
    ensures r.message.Failure? ==> r.profile == profile && r.users == users
    ensures r.message.Success? ==> r.message.text == ProfileUpdated
    ensures r.message.Success? ==>
              var avatar := SavedAvatar(preview, if profile.Some? then profile.value.avatarUrl else None);
              && |r.users| == |users|
              && (forall i :: 0 <= i < |users| ==>
                    r.users[i] == if users[i].email == email then Edited(users[i], form, avatar) else users[i])
              && r.profile == (if profile.Some? then Some(Edited(profile.value, form, avatar)) else None)
  {
    var avatar := SavedAvatar(preview, if profile.Some? then profile.value.avatarUrl else None);
    match requestError
    case Some(m) => Updated(profile, users, Failure(ErrorText(m, ProfileUpdateFailed)))
    case None =>
      var users' := UpdateWhere(users, email, (p: Profile) => Edited(p, form, avatar));
      if |WithEmail(users, email)| != 1 then Updated(profile, users, Failure(NotOneRow))
      else
        var shown := if profile.Some? then Some(Edited(profile.value, form, avatar)) else None;
        Updated(shown, users', Success(ProfileUpdated))
  }

  /** When the page shows the stored row, a successful save keeps it so: the
      profile the page shows afterwards is the row in the table. */
  lemma UpdateKeepsInSync(p: Profile, email: Option<string>, form: Form, preview: Option<string>,
                          users: seq<Profile>)
    requires p in users && email.Some? && p.email == email
    requires |WithEmail(users, email)| == 1
    ensures var r := UpdateProfile(Some(p), email, form, preview, users, None);
            r.profile.Some? && r.profile.value in r.users
  {
    var r := UpdateProfile(Some(p), email, form, preview, users, None);
    var avatar := SavedAvatar(preview, p.avatarUrl);
    var i :| 0 <= i < |users| && users[i] == p;
    assert r.users[i] == Edited(p, form, avatar);
  }

  datatype Deleted = Deleted(profile: Option<Profile>, preview: Option<string>, users: seq<Profile>, message: Option<Message>)

  /** `handleDeleteAvatar`: acts only when the shown profile has an avatar;
      then the avatar of every row with the session's e-mail becomes null,
      and the shown profile and the pending preview lose theirs. */
  function DeleteAvatar(profile: Option<Profile>, email: Option<string>, preview: Option<string>,
                        users: seq<Profile>, requestError: Option<string>): (r: Deleted)
    ensures |r.users| == |users|
    ensures !(profile.Some? && Truthy(profile.value.avatarUrl)) ==> r == Deleted(profile, preview, users, None)
    ensures profile.Some? && Truthy(profile.value.avatarUrl) && requestError.Some? ==>
              r == Deleted(profile, preview, users, Some(Failure(ErrorText(requestError.value, AvatarDeleteFailed))))
    ensures profile.Some? && Truthy(profile.value.avatarUrl) && requestError.None? ==>
              r.message == Some(Success(AvatarDeleted))
    ensures r.message == Some(Success(AvatarDeleted)) ==>
              && r.profile == Some(profile.value.(avatarUrl := None)) && r.preview == None
              && (forall i :: 0 <= i < |users| ==>
                    r.users[i] == if email.Some? && users[i].email == email then users[i].(avatarUrl := None) else users[i])
  {
    if !(profile.Some? && Truthy(profile.value.avatarUrl)) then Deleted(profile, preview, users, None)
    else match requestError
      case Some(m) => Deleted(profile, preview, users, Some(Failure(ErrorText(m, AvatarDeleteFailed))))
      case None =>
        Deleted(Some(profile.value.(avatarUrl := None)), None,
                UpdateWhere(users, email, (p: Profile) => p.(avatarUrl := None)), Some(Success(AvatarDeleted)))
  }

  /** After the avatar is deleted, saving the form without choosing a new
      picture stores no avatar. */
  lemma DeleteThenSaveKeepsNoAvatar(profile: Option<Profile>, email: Option<string>, preview: Option<string>,
                                    users: seq<Profile>, form: Form)
    requires profile.Some? && Truthy(profile.value.avatarUrl)
    ensures var d := DeleteAvatar(profile, email, preview, users, None);
            var s := UpdateProfile(d.profile, email, form, d.preview, d.users, None);
            forall i :: 0 <= i < |d.users| && email.Some? && d.users[i].email == email ==>
              s.users[i].avatarUrl == None
  {
  }
}

=== FILE: admin_categories.dfy ===
/** The admin categories page: the drag-and-drop reorder with renumbering,
    the defaulting applied on fetch, the slug fallback, the add, edit and
    delete list updates, and the search box. */
module AdminCategories {
  import opened Wrappers
  import opened Strings
  import opened Store
  import CategoryReorder
  import opened Seqs

  /** `xs` without the element at `i` (`splice(i, 1)`). */
  function RemoveAt<T>(xs: seq<T>, i: nat): (r: seq<T>)
    requires i < |xs|
    ensures |r| == |xs| - 1
    ensures forall k :: 0 <= k < i ==> r[k] == xs[k]
    ensures forall k :: i <= k < |r| ==> r[k] == xs[k + 1]
  {
    xs[..i] + xs[i + 1..]
  }

  /** `xs` with `x` inserted before position `i` (`splice(i, 0, x)`). */
  function InsertAt<T>(xs: seq<T>, i: nat, x: T): (r: seq<T>)
    requires i <= |xs|
    ensures |r| == |xs| + 1 && r[i] == x
    ensures forall k :: 0 <= k < i ==> r[k] == xs[k]
    ensures forall k :: i < k < |r| ==> r[k] == xs[k - 1]
  {
    xs[..i] + [x] + xs[i..]
  }

  /** Removing what was just inserted gives the list back. */
  lemma RemoveInsert<T>(xs: seq<T>, i: nat, x: T)
    requires i <= |xs|
    ensures RemoveAt(InsertAt(xs, i, x), i) == xs
  {
    var r := RemoveAt(InsertAt(xs, i, x), i);
    assert forall k :: 0 <= k < |xs| ==> r[k] == xs[k];
  }

  /** Inserting the removed element where it was gives the list back. */
  lemma InsertRemove<T>(xs: seq<T>, i: nat)
    requires i < |xs|
    ensures InsertAt(RemoveAt(xs, i), i, xs[i]) == xs
  {
    var r := InsertAt(RemoveAt(xs, i), i, xs[i]);
    assert forall k :: 0 <= k < |xs| ==> r[k] == xs[k];
  }

  /** The two splices of `handleDragEnd`: the element at `from` moves to
      `to`. The drag library only reports indices inside the list. */
  function Move<T>(xs: seq<T>, from: nat, to: nat): (r: seq<T>)
    requires from < |xs| && to < |xs|
    ensures |r| == |xs| && r[to] == xs[from]
    ensures RemoveAt(r, to) == RemoveAt(xs, from)
  {
    var r := InsertAt(RemoveAt(xs, from), to, xs[from]);
    RemoveInsert(RemoveAt(xs, from), to, xs[from]);
    r
  }

  lemma MultisetInsertAt<T>(xs: seq<T>, i: nat, x: T)
    requires i <= |xs|
    ensures multiset(InsertAt(xs, i, x)) == multiset(xs) + multiset{x}
  {
    assert InsertAt(xs, i, x) == xs[..i] + [x] + xs[i..];
    assert xs == xs[..i] + xs[i..];
  }

  lemma MultisetRemoveAt<T>(xs: seq<T>, i: nat)
    requires i < |xs|
    ensures multiset(RemoveAt(xs, i)) + multiset{xs[i]} == multiset(xs)
  {
    assert RemoveAt(xs, i) == xs[..i] + xs[i + 1..];
    assert xs == xs[..i] + [xs[i]] + xs[i + 1..];
  }

  /** A move is a permutation. */
  lemma MovePermutes<T>(xs: seq<T>, from: nat, to: nat)
    requires from < |xs| && to < |xs|
    ensures multiset(Move(xs, from, to)) == multiset(xs)
  {
    MultisetInsertAt(RemoveAt(xs, from), to, xs[from]);
    MultisetRemoveAt(xs, from);
  }

  /** Dragging back undoes a drag. */
  lemma MoveBack<T>(xs: seq<T>, from: nat, to: nat)
    requires from < |xs| && to < |xs|
    ensures Move(Move(xs, from, to), to, from) == xs
  {
    var ys := Move(xs, from, to);
    InsertRemove(xs, from);
  }

  /** `handleDragEnd`: no destination leaves the list alone and sends
      nothing; otherwise the moved list and its renumbering updates. */
  function DragEnd(cats: seq<Category>, from: nat, to: Option<nat>): (r: (seq<Category>, seq<CategoryReorder.Update>))
    requires from < |cats| && (to.Some? ==> to.value < |cats|)
    ensures to.None? ==> r == (cats, [])
    ensures |r.0| == |cats|
    ensures to.Some? ==> multiset(r.0) == multiset(cats) && r.0[to.value] == cats[from]
    ensures to.Some? ==> |r.1| == |cats| && forall i :: 0 <= i < |cats| ==> r.1[i] == CategoryReorder.Update(r.0[i].id, i + 1)
  {
    match to
    case None => (cats, [])
    case Some(t) =>
      var moved := Move(cats, from, t);
      MovePermutes(cats, from, t);
      (moved, CategoryReorder.Renumber(moved))
  }

  /** `handleDragEnd` as the page wires it: the rows the drag library numbers
      are those of the searched list, but the handler splices the full list at
      those numbers, so the row that moves is the full list's row at the
      source index, not the one dragged. */
  function DragEndShown(cats: seq<Category>, query: string, from: nat, to: Option<nat>): (r: (seq<Category>, seq<CategoryReorder.Update>))
    requires from < |Search(cats, query)| && (to.Some? ==> to.value < |Search(cats, query)|)
    ensures to.None? ==> r == (cats, [])
    ensures |r.0| == |cats|
    ensures to.Some? ==> r.0[to.value] == cats[from]
  {
    DragEnd(cats, from, to)
  }

  /** The three categories of the example below. */
  const DragExample := [Category("a", "x", "", "", "", 1), Category("b", "y1", "", "", "", 2),
                        Category("c", "y2", "", "", "", 3)]

  lemma MatchesY(c: Category)
    requires c.name == "y1" || c.name == "y2"
    ensures Matches(c, "y")
  {
    assert ToLower("y") == "y" && ToLower(c.name) == c.name;
    assert OccursAt(c.name, "y", 0);
  }

  lemma NotMatchesY(c: Category)
    requires c.name == "x" && c.description == ""
    ensures !Matches(c, "y")
  {
    assert ToLower("y") == "y" && ToLower("x") == "x" && ToLower("") == "";
    assert forall i :: !OccursAt("x", "y", i);
  }

  /** A search for `y` shows the last two of them. */
  lemma DragExampleSearch()
    ensures Search(DragExample, "y") == DragExample[1..]
  {
    var cats := DragExample;
    NotMatchesY(cats[0]);
    MatchesY(cats[1]);
    MatchesY(cats[2]);
    assert Search(cats[2..], "y") == [cats[2]] by {
      assert cats[2..][1..] == [];
    }
    assert Search(cats[1..], "y") == [cats[1]] + Search(cats[2..], "y") by {
      assert cats[1..][1..] == cats[2..];
    }
  }

  /** With a search active, dragging the first shown row below the second
      moves a hidden row instead: of `x`, `y1`, `y2` the search for `y` shows
      `y1`, `y2`, and the drag puts `x` where `y1` was meant to go. */
  lemma DragEndShownMovesHiddenRow()
    ensures Search(DragExample, "y") == [DragExample[1], DragExample[2]]
    ensures DragEndShown(DragExample, "y", 0, Some(1)).0[1] == DragExample[0]
    ensures DragEndShown(DragExample, "y", 0, Some(1)).0[1] != Search(DragExample, "y")[0]
  {
    DragExampleSearch();
    assert DragExample[1..] == [DragExample[1], DragExample[2]];
  }

  /** The drag as intended under a search: the shown indices are first mapped
      to the rows' positions in the full list. */
  function DragEndByRow(cats: seq<Category>, query: string, from: nat, to: Option<nat>): (r: (seq<Category>, seq<CategoryReorder.Update>))
    requires from < |Search(cats, query)| && (to.Some? ==> to.value < |Search(cats, query)|)
    ensures to.None? ==> r == (cats, [])
    ensures |r.0| == |cats|
    ensures to.Some? ==> multiset(r.0) == multiset(cats)
    ensures to.Some? ==>
      r.0[KeptPosition(cats, SearchMask(cats, query), to.value)] == Search(cats, query)[from]
  {
    var keep := SearchMask(cats, query);
    var src := KeptPosition(cats, keep, from);
    match to
    case None => (cats, [])
    case Some(t) => DragEnd(cats, src, Some(KeptPosition(cats, keep, t)))
  }

  /** Without a search the intended drag is the handler's own. */
  lemma DragEndByRowUnfiltered(cats: seq<Category>, from: nat, to: Option<nat>)
    requires from < |cats| && (to.Some? ==> to.value < |cats|)
    ensures Search(cats, "") == cats
    ensures DragEndByRow(cats, "", from, to) == DragEnd(cats, from, to)
  {
    SearchEmpty(cats);
    var keep := SearchMask(cats, "");
    forall i | 0 <= i < |cats| ensures keep[i] {
      ContainsEmpty(ToLower(cats[i].name));
    }
    KeptAllPosition(cats, keep, from);
    if to.Some? {
      KeptAllPosition(cats, keep, to.value);
    }
  }

  /** `data.map((c, i) => ({ ...c, display_order: c.display_order || i + 1 }))`. */
  function WithDefaultOrder(data: seq<Category>): (r: seq<Category>)
    ensures |r| == |data|
    ensures forall i :: 0 <= i < |data| ==> r[i].displayOrder != 0
    ensures forall i :: 0 <= i < |data| && data[i].displayOrder != 0 ==> r[i] == data[i]
    ensures forall i :: 0 <= i < |data| && data[i].displayOrder == 0 ==> r[i].displayOrder == i + 1
    ensures forall i :: 0 <= i < |data| ==> r[i].(displayOrder := data[i].displayOrder) == data[i]
  {
    seq(|data|, i requires 0 <= i < |data| =>
      data[i].(displayOrder := if data[i].displayOrder != 0 then data[i].displayOrder else i + 1))
  }

  /** Defaulting twice is defaulting once: a re-fetch of defaulted rows
      keeps them. */
  lemma WithDefaultOrderIdempotent(data: seq<Category>)
    ensures WithDefaultOrder(WithDefaultOrder(data)) == WithDefaultOrder(data)
  {
    var r := WithDefaultOrder(data);
    assert forall i :: 0 <= i < |r| ==> WithDefaultOrder(r)[i] == r[i];
  }

  /** `replace(/\s+/g, '-')`: every maximal run of whitespace becomes one
      `-`, so what is left is the whitespace-separated words of `s` joined
      by `-`, with a `-` for a leading and for a trailing run. */
  function DashSpaces(s: string): (r: string)
    ensures Outside(Whitespace, r) && |r| <= |s|
    ensures r == (if |s| > 0 && IsJsSpace(s[0]) then "-" else "")
      + Join(Words(Whitespace, s), "-") + (if TrailingRun(Whitespace, s) then "-" else "")
  {
    DashRunsChars(Whitespace, s);
    DashRunsWords(Whitespace, s);
    DashRuns(Whitespace, s)
  }

  /** A string without whitespace is left as it is. */
  lemma DashSpacesNoSpace(s: string)
    requires Outside(Whitespace, s)
    ensures DashSpaces(s) == s
  {
    DashRunsNone(Whitespace, s);
  }

  /** Hence the fallback is idempotent. */
  lemma DashSpacesIdempotent(s: string)
    ensures DashSpaces(DashSpaces(s)) == DashSpaces(s)
  {
    DashSpacesNoSpace(DashSpaces(s));
  }

  /** `slug || name.toLowerCase().replace(/\s+/g, '-')`. */
  function CategorySlug(slug: string, name: string): (r: string)
    ensures slug != "" ==> r == slug
    ensures slug == "" ==> Outside(Whitespace, r) && |r| <= |name|
    ensures slug == "" ==> var n := ToLower(name);
      r == (if |n| > 0 && IsJsSpace(n[0]) then "-" else "")
        + Join(Words(Whitespace, n), "-") + (if TrailingRun(Whitespace, n) then "-" else "")
  {
    if slug != "" then slug else DashSpaces(ToLower(name))
  }

  /** The add form. */
  datatype NewCategory = NewCategory(name: string, description: string, slug: string, imageUrl: string)

  /** `handleAddCategory`: the inserted row, with the database's id, is
      appended; a failed insert changes nothing. */
  function Add(cats: seq<Category>, form: NewCategory, id: string, fails: bool): (r: seq<Category>)
    ensures fails ==> r == cats
    ensures !fails ==> |r| == |cats| + 1 && r[..|cats|] == cats
    ensures !fails ==> (r[|cats|].displayOrder == |cats| + 1
      && r[|cats|].slug == CategorySlug(form.slug, form.name) && r[|cats|].id == id)
  {
    if fails then cats
    else cats + [Category(id, form.name, form.description, CategorySlug(form.slug, form.name), form.imageUrl, |cats| + 1)]
  }

  /** A list numbered 1..n stays numbered 1..n+1 after an add. */
  lemma AddKeepsNumbering(cats: seq<Category>, form: NewCategory, id: string)
    requires forall i :: 0 <= i < |cats| ==> cats[i].displayOrder == i + 1
    ensures var r := Add(cats, form, id, false);
      forall i :: 0 <= i < |r| ==> r[i].displayOrder == i + 1
  {
    var r := Add(cats, form, id, false);
    assert forall i :: 0 <= i < |cats| ==> r[i] == cats[i];
  }

  /** The row `handleEditCategory` writes: the slug falls back as on add. */
  function EditedRow(e: Category): (r: Category)
    ensures r.slug == CategorySlug(e.slug, e.name)
    ensures r.(slug := e.slug) == e
  {
    e.(slug := CategorySlug(e.slug, e.name))
  }

  /** `handleEditCategory`'s local update: the entry with the edited id is
      replaced by the edited record as typed (not by the written row). */
  function Edit(cats: seq<Category>, e: Category, fails: bool): (r: seq<Category>)
    ensures |r| == |cats|
    ensures forall i :: 0 <= i < |cats| ==> r[i] == (if !fails && cats[i].id == e.id then e else cats[i])
  {
    if fails then cats
    else seq(|cats|, i requires 0 <= i < |cats| => if cats[i].id == e.id then e else cats[i])
  }

  /** `handleDeleteCategory`'s local update: `filter(cat => cat.id !== id)`. */
  function Delete(cats: seq<Category>, id: string, fails: bool): (r: seq<Category>)
    ensures fails ==> r == cats
    ensures !fails ==> forall c :: c in r <==> c in cats && c.id != id
    ensures |r| <= |cats|
  {
    if fails || |cats| == 0 then cats
    else (if cats[0].id != id then [cats[0]] else []) + Delete(cats[1..], id, false)
  }

  /** The entries the delete keeps: all of them when the delete fails. */
  function DeleteMask(cats: seq<Category>, id: string, fails: bool): (keep: seq<bool>)
    ensures |keep| == |cats|
    ensures forall i :: 0 <= i < |cats| ==> keep[i] == (fails || cats[i].id != id)
    ensures Kept(cats, keep) == Delete(cats, id, fails)
  {
    if |cats| == 0 then []
    else
      var rest := DeleteMask(cats[1..], id, fails);
      assert fails ==> cats == [cats[0]] + cats[1..];
      [fails || cats[0].id != id] + rest
  }

  /** The delete keeps the order of the remaining categories, which the
      drag handler's index-based splice relies on. */
  lemma DeleteIsSubSequence(cats: seq<Category>, id: string, fails: bool)
    ensures SubSequence(Delete(cats, id, fails), cats)
  {
    var keep := DeleteMask(cats, id, fails);
  }

  /** Deleting an id that is not in the list changes nothing. */
  lemma {:induction false} DeleteAbsent(cats: seq<Category>, id: string)
    requires forall c :: c in cats ==> c.id != id
    ensures Delete(cats, id, false) == cats
  {
    if |cats| > 0 {
      assert cats[0] in cats;
      assert forall c :: c in cats[1..] ==> c in cats;
      DeleteAbsent(cats[1..], id);
    }
  }

  /** Editing a record and then deleting its id leaves the same list as
      deleting it directly. */
  lemma {:induction false} EditThenDelete(cats: seq<Category>, e: Category)
    ensures Delete(Edit(cats, e, false), e.id, false) == Delete(cats, e.id, false)
  {
    if |cats| > 0 {
      var edited := Edit(cats, e, false);
      assert edited[1..] == Edit(cats[1..], e, false);
      EditThenDelete(cats[1..], e);
    }
  }

  /** The search box: name or description contains the query, ignoring
      ASCII case. */
  predicate Matches(c: Category, query: string) {
    Contains(ToLower(c.name), ToLower(query)) || Contains(ToLower(c.description), ToLower(query))
  }

  function Search(cats: seq<Category>, query: string): (r: seq<Category>)
    ensures forall c :: c in r <==> c in cats && Matches(c, query)
    ensures |r| <= |cats|
  {
    if |cats| == 0 then []
    else (if Matches(cats[0], query) then [cats[0]] else []) + Search(cats[1..], query)
  }

  /** The categories the search keeps. */
  function SearchMask(cats: seq<Category>, query: string): (keep: seq<bool>)
    ensures |keep| == |cats|
    ensures forall i :: 0 <= i < |cats| ==> keep[i] == Matches(cats[i], query)
    ensures Kept(cats, keep) == Search(cats, query)
  {
    if |cats| == 0 then [] else [Matches(cats[0], query)] + SearchMask(cats[1..], query)
  }

  /** The search keeps the list order. */
  lemma SearchIsSubSequence(cats: seq<Category>, query: string)
    ensures SubSequence(Search(cats, query), cats)
  {
    var keep := SearchMask(cats, query);
  }

  /** An empty search keeps the whole list. */
  lemma {:induction false} SearchEmpty(cats: seq<Category>)
    ensures Search(cats, "") == cats
  {
    if |cats| > 0 {
      ContainsEmpty(ToLower(cats[0].name));
      SearchEmpty(cats[1..]);
      assert cats == [cats[0]] + cats[1..];
    }
  }
}

=== FILE: admin_products.dfy ===
/** The admin products page: the slug generated from a product name, the
    required-field checks, the image rows written for a product, the fetch
    transform, the search box and the removal of a pending extra image. */
module AdminProducts {
  import opened Wrappers
  import opened Strings
  import opened Seqs

  /** A character of `[a-z0-9]`. */
  predicate IsSlugChar(c: char) { IsAsciiLower(c) || IsDigit(c) }

  /** Slug characters and no `--`, ends not yet trimmed. */
  predicate Collapsed(s: string) {
    && (forall i :: 0 <= i < |s| ==> IsSlugChar(s[i]) || s[i] == '-')
    && (forall i :: 0 <= i < |s| - 1 ==> !(s[i] == '-' && s[i + 1] == '-'))
  }

  /** A slug character, or a `-` not followed by another, in front of a
      collapsed string. */
  lemma CollapsedCons(c: char, x: string)
    requires Collapsed(x)
    requires IsSlugChar(c) || (c == '-' && (|x| == 0 || x[0] != '-'))
    ensures Collapsed([c] + x)
  {
    var y := [c] + x;
    assert forall i :: 0 < i < |y| ==> y[i] == x[i - 1];
  }

  /** Replacing the runs outside `[a-z0-9]` leaves slug characters and
      single dashes. */
  lemma {:induction false} DashRunsCollapsed(s: string)
    ensures Collapsed(DashRuns(NotSlug, s))
    decreases |s|
  {
    if |s| > 0 {
      if In(NotSlug, s[0]) {
        var t := DropRun(NotSlug, s[1..]);
        DashRunsCollapsed(t);
        CollapsedCons('-', DashRuns(NotSlug, t));
      } else {
        DashRunsCollapsed(s[1..]);
        CollapsedCons(s[0], DashRuns(NotSlug, s[1..]));
      }
    }
  }

  /** `replace(/[^a-z0-9]+/g, '-')`: each maximal run outside `[a-z0-9]`
      becomes one `-`, so what is left is the `[a-z0-9]` words of `s`
      joined by `-`, with a `-` for a leading and for a trailing run. */
  function Collapse(s: string): (r: string)
    ensures Collapsed(r)
    ensures |s| > 0 && IsSlugChar(s[0]) ==> |r| > 0 && r[0] == s[0]
    ensures r == (if |s| > 0 && !IsSlugChar(s[0]) then "-" else "")
      + Join(Words(NotSlug, s), "-") + (if TrailingRun(NotSlug, s) then "-" else "")
  {
    DashRunsCollapsed(s);
    DashRunsWords(NotSlug, s);
    DashRuns(NotSlug, s)
  }

  /** `replace(/(^-|-$)/g, '')`: one leading and one trailing `-` removed. */
  function TrimDashes(s: string): (r: string)
    ensures |r| <= |s|
    ensures (|s| > 0 && s[0] == '-') || (|s| > 0 && s[|s| - 1] == '-') || r == s
  {
    var t := if |s| > 0 && s[0] == '-' then s[1..] else s;
    if |t| > 0 && t[|t| - 1] == '-' then t[..|t| - 1] else t
  }

  /** The shape of a generated slug. */
  predicate IsSlug(s: string) {
    Collapsed(s) && (|s| > 0 ==> s[0] != '-' && s[|s| - 1] != '-')
  }

  lemma CollapsedSlice(s: string, a: nat, b: nat)
    requires Collapsed(s) && a <= b <= |s|
    ensures Collapsed(s[a..b])
  {
    var t := s[a..b];
    assert forall i :: 0 <= i < |t| ==> t[i] == s[a + i];
  }

  /** Trimming the ends of a collapsed string gives a slug. */
  lemma TrimDashesSlug(s: string)
    requires Collapsed(s)
    ensures IsSlug(TrimDashes(s))
  {
    var t := if |s| > 0 && s[0] == '-' then s[1..] else s;
    CollapsedSlice(s, if |s| > 0 && s[0] == '-' then 1 else 0, |s|);
    if |t| > 0 && t[|t| - 1] == '-' {
      CollapsedSlice(t, 0, |t| - 1);
      if |t| > 1 { assert t[|t| - 2] != '-'; }
    }
    if |s| > 1 && s[0] == '-' { assert s[1] != '-'; }
  }

  /** Trimming a `-` off either end of words joined by `-` gives the join. */
  lemma TrimJoin(lead: string, j: string, trail: string)
    requires lead == "" || lead == "-"
    requires trail == "" || trail == "-"
    requires |j| > 0 ==> j[0] != '-' && j[|j| - 1] != '-'
    requires |j| == 0 ==> trail == ""
    ensures TrimDashes(lead + j + trail) == j
  {
    var s := lead + j + trail;
    var t := if |s| > 0 && s[0] == '-' then s[1..] else s;
    if lead == "-" {
      assert t == j + trail;
    } else if |j| > 0 {
      assert s[0] == j[0];
      assert t == j + trail;
    } else {
      assert s == "";
    }
    if trail == "-" {
      assert t[..|t| - 1] == j;
    }
  }

  /** The trimmed replacement is exactly the words joined by `-`. */
  lemma CollapseTrimmed(s: string)
    ensures TrimDashes(Collapse(s)) == Join(Words(NotSlug, s), "-")
  {
    var ws := Words(NotSlug, s);
    var j := Join(ws, "-");
    WordsShape(NotSlug, s);
    JoinEnds(ws, "-");
    if |ws| > 0 {
      var last := ws[|ws| - 1];
      assert !In(NotSlug, ws[0][0]) && !In(NotSlug, last[|last| - 1]);
    }
    TrimJoin(if |s| > 0 && !IsSlugChar(s[0]) then "-" else "", j,
      if TrailingRun(NotSlug, s) then "-" else "");
  }

  /** The slug of a product name: lower-case, then the `[a-z0-9]` words of
      the name joined by single dashes. */
  function Slugify(name: string): (r: string)
    ensures IsSlug(r)
    ensures r == Join(Words(NotSlug, ToLower(name)), "-")
  {
    var c := Collapse(ToLower(name));
    TrimDashesSlug(c);
    CollapseTrimmed(ToLower(name));
    TrimDashes(c)
  }

  /** Collapsing a string already in slug shape (apart from the ends)
      changes nothing. */
  lemma {:induction false} CollapseFixed(s: string)
    requires Collapsed(s)
    requires |s| > 0 ==> s[|s| - 1] != '-'
    ensures Collapse(s) == s
    decreases |s|
  {
    if |s| > 0 {
      CollapseFixed(s[1..]);
      if !IsSlugChar(s[0]) {
        assert IsSlugChar(s[1]);
      }
    }
  }

  lemma ToLowerFixed(s: string)
    requires forall i :: 0 <= i < |s| ==> !IsAsciiUpper(s[i])
    ensures ToLower(s) == s
  {
  }

  /** A slug is its own slug, so generating twice changes nothing. */
  lemma SlugifyIdempotent(name: string)
    ensures Slugify(Slugify(name)) == Slugify(name)
  {
    var s := Slugify(name);
    ToLowerFixed(s);
    CollapseFixed(s);
  }

  /** The required fields of the add form: everything the edit form asks
      for, and a chosen main image file. */
  predicate CanAdd(name: string, categoryId: string, price: int, hasMainImage: bool)
    ensures CanAdd(name, categoryId, price, hasMainImage) <==> CanUpdate(name, categoryId, price) && hasMainImage
  {
    name != "" && categoryId != "" && price != 0 && hasMainImage
  }

  /** The required fields of the edit form: the page alerts when the name,
      the category or the price is falsy. */
  predicate CanUpdate(name: string, categoryId: string, price: int)
    ensures CanUpdate(name, categoryId, price) <==> !(name == "" || categoryId == "" || price == 0)
  {
    name != "" && categoryId != "" && price != 0
  }

  /** A row of `product_images`. */
  datatype ImageRow = ImageRow(productId: string, imageUrl: string, isPrimary: bool, displayOrder: int)

  /** The rows of the extra images: the i-th at position i + 1. */
  function ExtraRows(productId: string, extras: seq<string>): (r: seq<ImageRow>)
    ensures |r| == |extras|
    ensures forall i :: 0 <= i < |extras| ==> r[i] == ImageRow(productId, extras[i], false, i + 1)
  {
    seq(|extras|, i requires 0 <= i < |extras| => ImageRow(productId, extras[i], false, i + 1))
  }

  /** The image rows written for a product: the main image, when its URL is
      non-empty, at position 0 and primary, then the extras. */
  function ImageRows(productId: string, mainUrl: string, extras: seq<string>): (r: seq<ImageRow>)
    ensures mainUrl == "" ==> r == ExtraRows(productId, extras)
    ensures mainUrl != "" ==> r == [ImageRow(productId, mainUrl, true, 0)] + ExtraRows(productId, extras)
  {
    (if mainUrl != "" then [ImageRow(productId, mainUrl, true, 0)] else []) + ExtraRows(productId, extras)
  }

  /** At most one written row is primary, and it is the main image. */
  lemma OnePrimary(productId: string, mainUrl: string, extras: seq<string>)
    ensures var r := ImageRows(productId, mainUrl, extras);
      forall i :: 0 <= i < |r| && r[i].isPrimary ==> i == 0 && r[i].imageUrl == mainUrl && r[i].displayOrder == 0
  {
  }

  /** A product as the list shows it. */
  datatype Product = Product(id: string, name: string, imageUrl: string, category: Option<string>)

  /** A `product_images` entry of the fetch. */
  datatype FetchedImage = FetchedImage(imageUrl: string, isPrimary: bool)

  /** `product_images?.find(img => img.is_primary)`. */
  function FirstPrimary(images: seq<FetchedImage>): (r: Option<FetchedImage>)
    ensures r.None? <==> forall i :: 0 <= i < |images| ==> !images[i].isPrimary
    ensures r.Some? ==> r.value.isPrimary && r.value in images
  {
    if |images| == 0 then None
    else if images[0].isPrimary then Some(images[0])
    else FirstPrimary(images[1..])
  }

  /** The fetch transform: the joined category name or `Uncategorized`, and
      the primary image's URL if it is non-empty, else the product's own. */
  function Transform(p: Product, categoryName: Option<string>, images: seq<FetchedImage>): (r: Product)
    ensures r.id == p.id && r.name == p.name
    ensures r.category == Some(if categoryName.Some? && categoryName.value != "" then categoryName.value else "Uncategorized")
    ensures FirstPrimary(images).None? ==> r.imageUrl == p.imageUrl
    ensures FirstPrimary(images).Some? && FirstPrimary(images).value.imageUrl != "" ==>
      r.imageUrl == FirstPrimary(images).value.imageUrl
    ensures FirstPrimary(images).Some? && FirstPrimary(images).value.imageUrl == "" ==> r.imageUrl == p.imageUrl
  {
    var primary := FirstPrimary(images);
    var url := if primary.Some? && primary.value.imageUrl != "" then primary.value.imageUrl else p.imageUrl;
    p.(category := Some(if categoryName.Some? && categoryName.value != "" then categoryName.value else "Uncategorized"),
       imageUrl := url)
  }

  /** The search: name or category (a missing one read as empty) contains
      the term, ignoring ASCII case. */
  predicate Matches(p: Product, term: string) {
    Contains(ToLower(p.name), ToLower(term)) || Contains(ToLower(p.category.GetOr("")), ToLower(term))
  }

  function Search(products: seq<Product>, term: string): (r: seq<Product>)
    ensures forall p :: p in r <==> p in products && Matches(p, term)
    ensures |r| <= |products|
  {
    if |products| == 0 then []
    else (if Matches(products[0], term) then [products[0]] else []) + Search(products[1..], term)
  }

  /** The products the search keeps. */
  function SearchMask(products: seq<Product>, term: string): (keep: seq<bool>)
    ensures |keep| == |products|
    ensures forall i :: 0 <= i < |products| ==> keep[i] == Matches(products[i], term)
    ensures Kept(products, keep) == Search(products, term)
  {
    if |products| == 0 then [] else [Matches(products[0], term)] + SearchMask(products[1..], term)
  }

  /** The search keeps the list order. */
  lemma SearchIsSubSequence(products: seq<Product>, term: string)
    ensures SubSequence(Search(products, term), products)
  {
    var keep := SearchMask(products, term);
  }

  /** An empty term keeps every product, in order. */
  lemma {:induction false} SearchEmpty(products: seq<Product>)
    ensures Search(products, "") == products
  {
    if |products| > 0 {
      ContainsEmpty(ToLower(products[0].name));
      SearchEmpty(products[1..]);
      assert products == [products[0]] + products[1..];
    }
  }

  /** `filter((_, i) => i !== index)`: an index outside the list removes nothing. */
  function WithoutIndex<T>(xs: seq<T>, index: int): (r: seq<T>)
    ensures 0 <= index < |xs| ==> r == xs[..index] + xs[index + 1..]
    ensures !(0 <= index < |xs|) ==> r == xs
  {
    if 0 <= index < |xs| then xs[..index] + xs[index + 1..] else xs
  }

  /** The pending extra images of the add form. */
  datatype Pending = Pending(files: seq<string>, previews: seq<string>, imageUrl: string)

  /** `removeAdditionalImage`: the same index is dropped from the files, the
      previews and the comma-separated `image_url`. */
  function RemoveAdditionalImage(p: Pending, index: int): (r: Pending)
    ensures r.files == WithoutIndex(p.files, index) && r.previews == WithoutIndex(p.previews, index)
  {
    var parts := WithoutIndex(Split(p.imageUrl, ','), index);
    Pending(WithoutIndex(p.files, index), WithoutIndex(p.previews, index), Join(parts, ","))
  }

  /** Reading the new `image_url` back gives the old pieces without the
      removed one, as long as one piece remains. */
  lemma RemoveAdditionalImageUrl(p: Pending, index: int)
    requires |WithoutIndex(Split(p.imageUrl, ','), index)| >= 1
    ensures Split(RemoveAdditionalImage(p, index).imageUrl, ',') == WithoutIndex(Split(p.imageUrl, ','), index)
  {
    var parts := Split(p.imageUrl, ',');
    var kept := WithoutIndex(parts, index);
    assert forall i :: 0 <= i < |kept| ==> kept[i] in parts;
    SplitJoin(kept, ',');
  }

  /** An index outside the pieces leaves `image_url` as it was. */
  lemma RemoveAdditionalImageOutside(p: Pending, index: int)
    requires !(0 <= index < |Split(p.imageUrl, ',')|)
    ensures RemoveAdditionalImage(p, index).imageUrl == p.imageUrl
  {
    JoinSplit(p.imageUrl, ',');
  }
}

=== FILE: admin_users.dfy ===
/** The admin users page: the search-and-role filter and the role update. */
module AdminUsers {
  import opened Wrappers
  import opened Strings
  import opened Seqs

  /** A row of `users`; name, email and phone may be null. */
  datatype User = User(id: string, fullName: Option<string>, email: Option<string>, phone: Option<string>, role: string)

  /** `user.x?.toLowerCase().includes(term.toLowerCase())`: false for a null field. */
  predicate FoldedHas(v: Option<string>, term: string) {
    v.Some? && Contains(ToLower(v.value), ToLower(term))
  }

  /** The search part: name or email ignoring case, or phone as typed. */
  predicate MatchesSearch(u: User, term: string) {
    FoldedHas(u.fullName, term) || FoldedHas(u.email, term) || (u.phone.Some? && Contains(u.phone.value, term))
  }

  predicate MatchesRole(u: User, roleFilter: string) {
    roleFilter == "all" || u.role == roleFilter
  }

  /** `filteredUsers`: an order-preserving sub-list. */
  function FilterUsers(users: seq<User>, term: string, roleFilter: string): (r: seq<User>)
    ensures forall u :: u in r <==> u in users && MatchesSearch(u, term) && MatchesRole(u, roleFilter)
    ensures |r| <= |users|
  {
    if |users| == 0 then []
    else (if MatchesSearch(users[0], term) && MatchesRole(users[0], roleFilter) then [users[0]] else [])
         + FilterUsers(users[1..], term, roleFilter)
  }

  /** The mask of the users a filter keeps. */
  function Mask(users: seq<User>, term: string, roleFilter: string): (keep: seq<bool>)
    ensures |keep| == |users|
    ensures forall i :: 0 <= i < |users| ==> keep[i] == (MatchesSearch(users[i], term) && MatchesRole(users[i], roleFilter))
    ensures Kept(users, keep) == FilterUsers(users, term, roleFilter)
  {
    if |users| == 0 then []
    else [MatchesSearch(users[0], term) && MatchesRole(users[0], roleFilter)] + Mask(users[1..], term, roleFilter)
  }

  /** The filter keeps order: its result is a sub-sequence of the list. */
  lemma FilterIsSubSequence(users: seq<User>, term: string, roleFilter: string)
    ensures SubSequence(FilterUsers(users, term, roleFilter), users)
  {
    var keep := Mask(users, term, roleFilter);
  }

  /** With the role filter at `all` and an empty term, exactly the users
      with some non-null name, email or phone are listed. */
  lemma EmptyTermAll(u: User)
    ensures MatchesSearch(u, "") && MatchesRole(u, "all") <==> u.fullName.Some? || u.email.Some? || u.phone.Some?
  {
    if u.fullName.Some? { ContainsEmpty(ToLower(u.fullName.value)); }
    if u.email.Some? { ContainsEmpty(ToLower(u.email.value)); }
    if u.phone.Some? { ContainsEmpty(u.phone.value); }
  }

  /** `handleUpdateRole`: only the role of the user with the id is written. */
  function UpdateRole(users: seq<User>, id: string, role: string, fails: bool): (r: seq<User>)
    ensures |r| == |users|
    ensures forall i :: 0 <= i < |users| ==> r[i] == (if !fails && users[i].id == id then users[i].(role := role) else users[i])
  {
    if fails then users
    else seq(|users|, i requires 0 <= i < |users| => if users[i].id == id then users[i].(role := role) else users[i])
  }

  /** After a role change the user is listed under that role's filter
      whenever the search matches. */
  lemma UpdateRoleFilter(users: seq<User>, id: string, role: string, term: string, i: nat)
    requires i < |users| && users[i].id == id && MatchesSearch(users[i], term)
    ensures UpdateRole(users, id, role, false)[i] in FilterUsers(UpdateRole(users, id, role, false), term, role)
  {
    var r := UpdateRole(users, id, role, false);
    assert r[i] in r;
  }
}

=== FILE: cart.dfy ===
/** The cart popup: the client-side cart store, the quantity buttons with
    their clamp at 1, removal, and the two totals. */
module Cart {
  import opened Wrappers
  import opened Seqs

  datatype Product = Product(id: string, name: string, price: int, imageUrl: string)

  /** A row of `cart_items` joined with its product. */
  datatype CartItem = CartItem(id: string, productId: string, quantity: int, product: Product)

  /** `addItem`: appended, with no merging of equal ids. */
  function AddItem(items: seq<CartItem>, item: CartItem): (r: seq<CartItem>)
    ensures |r| == |items| + 1 && r[..|items|] == items && r[|items|] == item
  {
    items + [item]
  }

  /** `removeItem`: `filter(item => item.id !== id)`. */
  function RemoveItem(items: seq<CartItem>, id: string): (r: seq<CartItem>)
    ensures forall x :: x in r <==> x in items && x.id != id
    ensures |r| <= |items|
  {
    if |items| == 0 then []
    else (if items[0].id != id then [items[0]] else []) + RemoveItem(items[1..], id)
  }

  /** The items `removeItem` keeps. */
  function RemoveMask(items: seq<CartItem>, id: string): (keep: seq<bool>)
    ensures |keep| == |items|
    ensures forall i :: 0 <= i < |items| ==> keep[i] == (items[i].id != id)
    ensures Kept(items, keep) == RemoveItem(items, id)
  {
    if |items| == 0 then [] else [items[0].id != id] + RemoveMask(items[1..], id)
  }

  /** Removal keeps the order of the other items. */
  lemma RemoveItemIsSubSequence(items: seq<CartItem>, id: string)
    ensures SubSequence(RemoveItem(items, id), items)
  {
    var keep := RemoveMask(items, id);
  }

  /** `updateItemQuantity`: every item with the id takes the quantity;
      nothing else changes. */
  function UpdateItemQuantity(items: seq<CartItem>, id: string, quantity: int): (r: seq<CartItem>)
    ensures |r| == |items|
    ensures forall i :: 0 <= i < |items| ==>
      r[i] == (if items[i].id == id then items[i].(quantity := quantity) else items[i])
  {
    seq(|items|, i requires 0 <= i < |items| =>
      if items[i].id == id then items[i].(quantity := quantity) else items[i])
  }

  /** `clearCart`. */
  function ClearCart(items: seq<CartItem>): (r: seq<CartItem>)
    ensures |r| == 0
  {
    []
  }

  /** `items.find(item => item.id === id)`. */
  function Find(items: seq<CartItem>, id: string): (r: Option<CartItem>)
    ensures r.None? <==> forall x :: x in items ==> x.id != id
    ensures r.Some? ==> r.value in items && r.value.id == id
  {
    if |items| == 0 then None
    else if items[0].id == id then Some(items[0])
    else Find(items[1..], id)
  }

  /** `Math.max(1, q + change)`. */
  function Clamp(q: int, change: int): (r: int)
    ensures r >= 1 && r >= q + change
    ensures r == 1 || r == q + change
  {
    if q + change > 1 then q + change else 1
  }

  /** `handleQuantityChange`: an unknown id does nothing; otherwise the
      clamped quantity is written, and the store follows only when the write
      succeeds. */
  function QuantityChange(items: seq<CartItem>, id: string, change: int, writeFails: bool): (r: seq<CartItem>)
    ensures |r| == |items|
    ensures Find(items, id).None? || writeFails ==> r == items
    ensures Find(items, id).Some? && !writeFails ==>
      r == UpdateItemQuantity(items, id, Clamp(Find(items, id).value.quantity, change))
  {
    match Find(items, id)
    case None => items
    case Some(item) =>
      if writeFails then items else UpdateItemQuantity(items, id, Clamp(item.quantity, change))
  }

  predicate AllPositive(items: seq<CartItem>) {
    forall i :: 0 <= i < |items| ==> items[i].quantity >= 1
  }

  /** The buttons never take a quantity below 1, and keep a cart whose
      quantities are all at least 1 that way. */
  lemma QuantityChangeKeepsPositive(items: seq<CartItem>, id: string, change: int, writeFails: bool)
    requires AllPositive(items)
    ensures AllPositive(QuantityChange(items, id, change, writeFails))
  {
  }

  /** `handleRemoveItem`: the store follows only a successful delete. */
  function HandleRemove(items: seq<CartItem>, id: string, deleteFails: bool): (r: seq<CartItem>)
    ensures deleteFails ==> r == items
    ensures !deleteFails ==> r == RemoveItem(items, id)
  {
    if deleteFails then items else RemoveItem(items, id)
  }

  /** `totalItems`: the sum of the quantities. */
  function TotalItems(items: seq<CartItem>): (n: int)
    ensures (forall i :: 0 <= i < |items| ==> items[i].quantity >= 0) ==> n >= 0
    ensures (forall i :: 0 <= i < |items| ==> items[i].quantity >= 1) ==> n >= |items|
  {
    if |items| == 0 then 0 else items[0].quantity + TotalItems(items[1..])
  }

  /** `totalPrice`: the sum of price times quantity. */
  function TotalPrice(items: seq<CartItem>): (t: int)
    ensures (forall i :: 0 <= i < |items| ==> items[i].quantity >= 0 && items[i].product.price >= 0) ==> t >= 0
  {
    if |items| == 0 then 0 else items[0].product.price * items[0].quantity + TotalPrice(items[1..])
  }

  /** The total quantity of the items with a given id. */
  function QuantityOf(items: seq<CartItem>, id: string): int {
    if |items| == 0 then 0
    else (if items[0].id == id then items[0].quantity else 0) + QuantityOf(items[1..], id)
  }

  lemma {:induction false} TotalsConcat(a: seq<CartItem>, b: seq<CartItem>)
    ensures TotalItems(a + b) == TotalItems(a) + TotalItems(b)
    ensures TotalPrice(a + b) == TotalPrice(a) + TotalPrice(b)
  {
    if |a| == 0 {
      assert a + b == b;
    } else {
      assert (a + b)[1..] == a[1..] + b;
      TotalsConcat(a[1..], b);
    }
  }

  /** Adding an item adds its quantity and its line price. */
  lemma AddItemTotals(items: seq<CartItem>, item: CartItem)
    ensures TotalItems(AddItem(items, item)) == TotalItems(items) + item.quantity
    ensures TotalPrice(AddItem(items, item)) == TotalPrice(items) + item.product.price * item.quantity
  {
    TotalsConcat(items, [item]);
  }

  /** Removing an id takes away exactly the quantity held under it. */
  lemma {:induction false} RemoveItemTotal(items: seq<CartItem>, id: string)
    ensures TotalItems(RemoveItem(items, id)) == TotalItems(items) - QuantityOf(items, id)
  {
    if |items| > 0 {
      RemoveItemTotal(items[1..], id);
      var head := if items[0].id != id then [items[0]] else [];
      TotalsConcat(head, RemoveItem(items[1..], id));
    }
  }

  /** Setting a quantity and then removing the id is the same as removing it. */
  lemma {:induction false} UpdateThenRemove(items: seq<CartItem>, id: string, q: int)
    ensures RemoveItem(UpdateItemQuantity(items, id, q), id) == RemoveItem(items, id)
  {
    if |items| > 0 {
      assert UpdateItemQuantity(items, id, q)[1..] == UpdateItemQuantity(items[1..], id, q);
      UpdateThenRemove(items[1..], id, q);
    }
  }

  /** Adding an item and removing its id undoes the add. */
  lemma {:induction false} AddThenRemove(items: seq<CartItem>, item: CartItem)
    ensures RemoveItem(AddItem(items, item), item.id) == RemoveItem(items, item.id)
  {
    if |items| == 0 {
      assert AddItem(items, item) == [item];
    } else {
      assert AddItem(items, item)[1..] == AddItem(items[1..], item);
      AddThenRemove(items[1..], item);
    }
  }
}

=== FILE: category_reorder.dfy ===
/** `POST /api/categories/reorder`: one `display_order` update per entry of
    `updates`, in request order, stopping at the first failing call; then the
    categories are read back sorted by `display_order`. */
module CategoryReorder {
  import opened Wrappers
  import opened Store

  /** One `{ id, display_order }` entry of the request. */
  datatype Update = Update(id: string, displayOrder: int)

  /** `.update({ display_order }).eq('id', u.id)` on a list of categories. */
  function SetOrder(cats: seq<Category>, u: Update): (r: seq<Category>)
    ensures |r| == |cats|
    ensures forall i :: 0 <= i < |cats| ==>
      r[i] == (if cats[i].id == u.id then cats[i].(displayOrder := u.displayOrder) else cats[i])
  {
    if |cats| == 0 then []
    else [if cats[0].id == u.id then cats[0].(displayOrder := u.displayOrder) else cats[0]]
         + SetOrder(cats[1..], u)
  }

  /** The reference meaning of a run of updates: each applied after the ones
      before it. */
  function ApplyAll(cats: seq<Category>, ups: seq<Update>): (r: seq<Category>)
    ensures |r| == |cats|
    ensures forall i :: 0 <= i < |cats| ==> r[i].(displayOrder := cats[i].displayOrder) == cats[i]
  {
    if |ups| == 0 then cats else SetOrder(ApplyAll(cats, ups[..|ups| - 1]), ups[|ups| - 1])
  }

  /** The position of the first update whose call fails, if any. */
  function FirstFailure(ups: seq<Update>, failing: set<nat>, from: nat): (r: Option<nat>)
    requires from <= |ups|
    ensures r.None? <==> forall k :: from <= k < |ups| ==> k !in failing
    ensures r.Some? ==> from <= r.value < |ups| && r.value in failing
    ensures r.Some? ==> forall k :: from <= k < r.value ==> k !in failing
    decreases |ups| - from
  {
    if from == |ups| then None
    else if from in failing then Some(from)
    else FirstFailure(ups, failing, from + 1)
  }

  /** The loop of the handler. `failing` holds the positions whose update
      call returns an error. */
  method ApplyUpdates(cats: seq<Category>, ups: seq<Update>, failing: set<nat>)
    returns (ok: bool, r: seq<Category>)
    ensures ok <==> forall k :: 0 <= k < |ups| ==> k !in failing
    ensures ok ==> r == ApplyAll(cats, ups)
    ensures !ok ==> exists k :: (0 <= k < |ups| && k in failing
      && (forall j :: 0 <= j < k ==> j !in failing) && r == ApplyAll(cats, ups[..k]))
  {
    r := cats;
    var i := 0;
    while i < |ups|
      invariant 0 <= i <= |ups|
      invariant forall j :: 0 <= j < i ==> j !in failing
      invariant r == ApplyAll(cats, ups[..i])
    {
      if i in failing {
        return false, r;
      }
      assert ups[..i + 1][..i] == ups[..i];
      r := SetOrder(r, ups[i]);
      i := i + 1;
    }
    assert ups[..i] == ups;
    ok := true;
  }

  /** `a` comes no later than `b` in ascending `display_order`. */
  predicate SortedByOrder(cs: seq<Category>) {
    forall i, j :: 0 <= i < j < |cs| ==> cs[i].displayOrder <= cs[j].displayOrder
  }

  function InsertByOrder(c: Category, sorted: seq<Category>): (r: seq<Category>)
    ensures multiset(r) == multiset(sorted) + multiset{c}
    ensures |r| == |sorted| + 1
  {
    if |sorted| == 0 || c.displayOrder <= sorted[0].displayOrder then [c] + sorted
    else
      assert sorted == [sorted[0]] + sorted[1..];
      [sorted[0]] + InsertByOrder(c, sorted[1..])
  }

  lemma {:induction false} InsertByOrderSorted(c: Category, sorted: seq<Category>)
    requires SortedByOrder(sorted)
    ensures SortedByOrder(InsertByOrder(c, sorted))
    ensures |sorted| > 0 ==> InsertByOrder(c, sorted)[0] == c || InsertByOrder(c, sorted)[0] == sorted[0]
  {
    if |sorted| == 0 || c.displayOrder <= sorted[0].displayOrder {
    } else {
      var rest := InsertByOrder(c, sorted[1..]);
      InsertByOrderSorted(c, sorted[1..]);
      assert sorted[0].displayOrder <= rest[0].displayOrder;
      var r := [sorted[0]] + rest;
      forall i, j | 0 <= i < j < |r| ensures r[i].displayOrder <= r[j].displayOrder {
        if i == 0 && j > 1 { assert rest[0].displayOrder <= rest[j - 1].displayOrder; }
      }
    }
  }

  /** `.order('display_order', { ascending: true })`. */
  function SortByOrder(cs: seq<Category>): (r: seq<Category>)
    ensures multiset(r) == multiset(cs)
    ensures |r| == |cs|
  {
    if |cs| == 0 then []
    else
      assert cs == [cs[0]] + cs[1..];
      InsertByOrder(cs[0], SortByOrder(cs[1..]))
  }

  lemma {:induction false} SortByOrderSorted(cs: seq<Category>)
    ensures SortedByOrder(SortByOrder(cs))
  {
    if |cs| > 0 {
      SortByOrderSorted(cs[1..]);
      InsertByOrderSorted(cs[0], SortByOrder(cs[1..]));
    }
  }

  /** The handler. `updates` is `None` when the body is not JSON or its
      `updates` field is not iterable; `fetchFails` is the outcome of the
      final read. */
  function Reorder(updates: Option<seq<Update>>, failing: set<nat>, fetchFails: bool, db: Db): (s: Step)
    ensures updates.None? ==> s == Step(Json(500, Error("Failed to update category order")), db)
    ensures updates.Some? ==> s.db == db.(categories := s.db.categories)
    ensures updates.Some? && (forall k :: 0 <= k < |updates.value| ==> k !in failing) ==>
      s.db.categories == ApplyAll(db.categories, updates.value)
    ensures updates.Some? ==> var f := FirstFailure(updates.value, failing, 0);
      f.Some? ==> s == Step(Json(500, Error("Failed to update category order")),
                            db.(categories := ApplyAll(db.categories, updates.value[..f.value])))
    ensures s.response.Json? && s.response.body.CategoryList? ==>
      multiset(s.response.body.data) == multiset(s.db.categories)
    ensures updates.Some? && FirstFailure(updates.value, failing, 0).None? ==>
      s.db == db.(categories := ApplyAll(db.categories, updates.value))
    ensures updates.Some? && FirstFailure(updates.value, failing, 0).None? && fetchFails ==>
      s.response == Json(500, Error("Failed to update category order"))
    ensures updates.Some? && FirstFailure(updates.value, failing, 0).None? && !fetchFails ==>
      && s.response == Json(200, CategoryList(SortByOrder(s.db.categories)))
      && SortedByOrder(s.response.body.data)
      && multiset(s.response.body.data) == multiset(s.db.categories)
  {
    match updates
    case None => Step(Json(500, Error("Failed to update category order")), db)
    case Some(ups) =>
      match FirstFailure(ups, failing, 0)
      case Some(k) =>
        Step(Json(500, Error("Failed to update category order")),
             db.(categories := ApplyAll(db.categories, ups[..k])))
      case None =>
        assert ups[..|ups|] == ups;
        var db1 := db.(categories := ApplyAll(db.categories, ups));
        if fetchFails then Step(Json(500, Error("Failed to update category order")), db1)
        else
          SortByOrderSorted(db1.categories);
          Step(Json(200, CategoryList(SortByOrder(db1.categories))), db1)
  }

  /** The list a successful reorder returns is sorted by `display_order`. */
  lemma ReorderListSorted(updates: Option<seq<Update>>, failing: set<nat>, fetchFails: bool, db: Db)
    ensures var s := Reorder(updates, failing, fetchFails, db);
      s.response.Json? && s.response.body.CategoryList? ==> SortedByOrder(s.response.body.data)
  {
    var s := Reorder(updates, failing, fetchFails, db);
    if s.response.Json? && s.response.body.CategoryList? {
      SortByOrderSorted(s.db.categories);
    }
  }

  /** The updates the admin page sends after a drag: position `i` gets
      `display_order` `i + 1`. */
  function Renumber(items: seq<Category>): (ups: seq<Update>)
    ensures |ups| == |items|
    ensures forall i :: 0 <= i < |items| ==> ups[i] == Update(items[i].id, i + 1)
  {
    seq(|items|, i requires 0 <= i < |items| => Update(items[i].id, i + 1))
  }

  predicate DistinctIds(cs: seq<Category>) {
    forall i, j :: 0 <= i < j < |cs| ==> cs[i].id != cs[j].id
  }

  lemma {:induction false} RenumberPrefix(items: seq<Category>, k: nat)
    requires DistinctIds(items) && k <= |items|
    ensures var r := ApplyAll(items, Renumber(items)[..k]);
      forall i :: 0 <= i < |items| ==> r[i].displayOrder == (if i < k then i + 1 else items[i].displayOrder)
  {
    if k > 0 {
      var ups := Renumber(items)[..k];
      assert ups[..k - 1] == Renumber(items)[..k - 1];
      RenumberPrefix(items, k - 1);
      var prev := ApplyAll(items, ups[..k - 1]);
      var r := ApplyAll(items, ups);
      assert r == SetOrder(prev, Update(items[k - 1].id, k));
      forall i | 0 <= i < |items|
        ensures r[i].displayOrder == (if i < k then i + 1 else items[i].displayOrder)
      {
        assert prev[i].id == items[i].id;
        if i != k - 1 { assert items[i].id != items[k - 1].id; }
      }
    }
  }

  /** Applying the page's updates to the list they came from numbers it
      1..n in list order. */
  lemma RenumberApplied(items: seq<Category>)
    requires DistinctIds(items)
    ensures var r := ApplyAll(items, Renumber(items));
      forall i :: 0 <= i < |items| ==> r[i].displayOrder == i + 1
  {
    RenumberPrefix(items, |items|);
    assert Renumber(items)[..|items|] == Renumber(items);
  }
}

=== FILE: contact.dfy ===
/** The contact page: the form schema and what a submission does. The
    email rule of the schema library is a parameter. */
module Contact {
  import opened Strings

  datatype Form = Form(name: string, email: string, phone: string, subject: string, message: string)

  datatype Field = Name | Email | Phone | Subject | Message

  /** The rule of the schema for one field is broken. */
  predicate Fails(f: Form, isEmail: string -> bool, field: Field) {
    match field
    case Name => |f.name| < 2
    case Email => !isEmail(f.email)
    case Phone => !TenDigits(f.phone)
    case Subject => |f.subject| < 1
    case Message => |f.message| < 10
  }

  /** The fields of `fields` whose rule is broken, in order. */
  function Failing(f: Form, isEmail: string -> bool, fields: seq<Field>): (r: seq<Field>)
    ensures forall g :: g in r <==> g in fields && Fails(f, isEmail, g)
  {
    if |fields| == 0 then []
    else (if Fails(f, isEmail, fields[0]) then [fields[0]] else []) + Failing(f, isEmail, fields[1..])
  }

  /** The fields that fail the schema, in schema order. */
  function Errors(f: Form, isEmail: string -> bool): (r: seq<Field>)
    ensures Name in r <==> |f.name| < 2
    ensures Email in r <==> !isEmail(f.email)
    ensures Phone in r <==> !TenDigits(f.phone)
    ensures Subject in r <==> |f.subject| < 1
    ensures Message in r <==> |f.message| < 10
  {
    Failing(f, isEmail, [Name, Email, Phone, Subject, Message])
  }

  /** A form passes exactly when every rule holds. */
  predicate Valid(f: Form, isEmail: string -> bool)
    ensures Valid(f, isEmail) <==>
      |f.name| >= 2 && isEmail(f.email) && TenDigits(f.phone) && |f.subject| >= 1 && |f.message| >= 10
  {
    var e := Errors(f, isEmail);
    assert |e| > 0 ==> e[0] in e;
    |e| == 0
  }

  /** A row of `contact_messages`. */
  datatype Message = ContactMessage(name: string, email: string, phone: string, subject: string, message: string, status: string)

  datatype SubmitStatus = NotSubmitted | Succeeded | Failed

  datatype Page = Page(form: Form, status: SubmitStatus, messages: seq<Message>)

  const EmptyForm := Form("", "", "", "", "")

  /** Submitting: an invalid form never reaches `onSubmit`; a valid one
      inserts one pending message, then resets the form on success or
      reports the error. */
  function Submit(p: Page, isEmail: string -> bool, insertFails: bool): (r: Page)
    ensures !Valid(p.form, isEmail) ==> r == p
    ensures Valid(p.form, isEmail) && insertFails ==> r == p.(status := Failed)
    ensures Valid(p.form, isEmail) && !insertFails ==>
      && r.status == Succeeded && r.form == EmptyForm
      && r.messages == p.messages + [ContactMessage(p.form.name, p.form.email, p.form.phone, p.form.subject, p.form.message, "pending")]
  {
    if !Valid(p.form, isEmail) then p
    else if insertFails then p.(status := Failed)
    else
      var f := p.form;
      Page(EmptyForm, Succeeded, p.messages + [ContactMessage(f.name, f.email, f.phone, f.subject, f.message, "pending")])
  }

  /** Every stored message satisfied the schema when it was sent. */
  predicate AllValid(ms: seq<Message>, isEmail: string -> bool) {
    forall i :: 0 <= i < |ms| ==>
      Valid(Form(ms[i].name, ms[i].email, ms[i].phone, ms[i].subject, ms[i].message), isEmail)
  }

  lemma SubmitKeepsValid(p: Page, isEmail: string -> bool, insertFails: bool)
    requires AllValid(p.messages, isEmail)
    ensures AllValid(Submit(p, isEmail, insertFails).messages, isEmail)
  {
    var r := Submit(p, isEmail, insertFails);
    if Valid(p.form, isEmail) && !insertFails {
      assert r.messages[|p.messages|].name == p.form.name;
      assert Form(p.form.name, p.form.email, p.form.phone, p.form.subject, p.form.message) == p.form;
    }
  }
}

=== FILE: coupons.dfy ===
/** The coupons page: the status a coupon is shown with, the query for the
    coupons on offer, and the label of a coupon the user holds. Times are
    milliseconds since the epoch. */
module Coupons {
  import opened Wrappers

  datatype Coupon = Coupon(
    id: string,
    startDate: int,
    endDate: int,
    usageLimit: Option<int>,
    usedCount: int,
    isActive: bool)

  datatype Status = Upcoming | Expired | LimitReached | Active

  /** `coupon.usage_limit && …`: null and 0 are both falsy. */
  predicate HasLimit(c: Coupon) { c.usageLimit.Some? && c.usageLimit.value != 0 }

  /** `getCouponStatus`: the tests in the order the page makes them. */
  function CouponStatus(c: Coupon, now: int): (s: Status)
    ensures s == Upcoming <==> now < c.startDate
    ensures s == Expired <==> c.startDate <= now && now > c.endDate
  {
    if now < c.startDate then Upcoming
    else if now > c.endDate then Expired
    else if HasLimit(c) && c.usedCount >= c.usageLimit.value then LimitReached
    else Active
  }

  /** A coupon is active exactly inside its window (both ends included) while
      it has uses left. */
  lemma ActiveIff(c: Coupon, now: int)
    ensures CouponStatus(c, now) == Active <==>
      c.startDate <= now <= c.endDate && !(HasLimit(c) && c.usedCount >= c.usageLimit.value)
  {
  }

  /** A coupon without a (truthy) usage limit is never shown as used up. */
  lemma NoLimitNeverReached(c: Coupon, now: int)
    requires !HasLimit(c)
    ensures CouponStatus(c, now) != LimitReached
  {
  }

  /** The filter of the available-coupons query: active, started and not ended. */
  predicate Available(c: Coupon, now: int)
    ensures Available(c, now) <==>
      c.isActive && CouponStatus(c, now) != Upcoming && CouponStatus(c, now) != Expired
  {
    c.isActive && c.endDate >= now && c.startDate <= now
  }

  function AvailableCoupons(coupons: seq<Coupon>, now: int): (r: seq<Coupon>)
    ensures forall c :: c in r <==> c in coupons && Available(c, now)
    ensures |r| <= |coupons|
  {
    if |coupons| == 0 then []
    else (if Available(coupons[0], now) then [coupons[0]] else []) + AvailableCoupons(coupons[1..], now)
  }

  /** What the query returns is never upcoming or expired. */
  lemma AvailableInWindow(coupons: seq<Coupon>, now: int)
    ensures forall c :: c in AvailableCoupons(coupons, now) ==>
      CouponStatus(c, now) == Active || CouponStatus(c, now) == LimitReached
  {
  }

  /** `couponsData || []`. `queryFails` covers both a failed coupons query
      and a `getUser` error, which is thrown before the query is made; either
      way the list stays empty. */
  function OnOffer(data: Option<seq<Coupon>>, queryFails: bool): (r: seq<Coupon>)
    ensures queryFails || data.None? ==> r == []
    ensures !queryFails && data.Some? ==> r == data.value
  {
    if queryFails then [] else data.GetOr([])
  }

  /** The badge text of a status; each text names one status only, and none
      reads as "used". */
  function StatusText(s: Status): (t: string)
    ensures t == "S\U{1EAF}p di\U{1EC5}n ra" <==> s == Upcoming
    ensures t == "\U{0110}ang ho\U{1EA1}t \U{0111}\U{1ED9}ng" <==> s == Active
    ensures t != UsedText
  {
    match s
    case Upcoming => "S\U{1EAF}p di\U{1EC5}n ra"
    case Expired => "\U{0110}\U{00E3} h\U{1EBF}t h\U{1EA1}n"
    case LimitReached => "\U{0110}\U{00E3} h\U{1EBF}t l\U{01B0}\U{1EE3}t s\U{1EED} d\U{1EE5}ng"
    case Active => "\U{0110}ang ho\U{1EA1}t \U{0111}\U{1ED9}ng"
  }

  const UsedText := "\U{0110}\U{00E3} s\U{1EED} d\U{1EE5}ng"

  /** The badge of a coupon the user holds. */
  function UserCouponLabel(c: Coupon, isUsed: bool, now: int): (badge: string)
    ensures isUsed ==> badge == UsedText
    ensures !isUsed ==> badge == StatusText(CouponStatus(c, now))
  {
    if isUsed then UsedText else StatusText(CouponStatus(c, now))
  }

  /** The status texts are pairwise different, so the badge identifies the
      status, and none reads as "used". */
  lemma StatusTextInjective(s: Status, t: Status)
    ensures StatusText(s) == StatusText(t) <==> s == t
    ensures StatusText(s) != UsedText
  {
  }
}

=== FILE: create_payment.dfy ===
/** The `create-payment` route: builds a VNPay payment URL with an inline copy
    of the signing code. Unlike the library, it signs the raw values (no
    URL-encoding), skips undefined values, and lists the URL parameters in
    the object's property order rather than sorted. */
module CreatePayment {
  import opened Wrappers
  import opened Strings
  import opened Entries
  import opened UriEncode
  import VNPay
  import opened Store

  const SandboxUrl := "https://sandbox.vnpayment.vn/paymentv2/vpcpay.html"

  /** Environment variables, each possibly unset. */
  datatype Env = Env(tmnCode: Option<string>, hashSecret: Option<string>, vnpUrl: Option<string>, siteUrl: Option<string>)

  /** The request body: the amount in major units and the order description,
      either of which may be missing. */
  datatype Request = Request(amount: Option<int>, orderInfo: Option<string>)

  /** The two clock reads: `new Date().toISOString()` and `Date.now()`. */
  datatype Clock = Clock(iso: string, epochMs: nat)

  /** `s.replace(/[-:]/g, '')`. */
  function StripSeparators(s: string): (r: string)
    ensures |r| <= |s|
  {
    if |s| == 0 then ""
    else (if s[0] == '-' || s[0] == ':' then "" else [s[0]]) + StripSeparators(s[1..])
  }

  /** Exactly the separators are dropped. */
  lemma {:induction false} StripSeparatorsMembers(s: string)
    ensures forall c :: c in StripSeparators(s) <==> c in s && c != '-' && c != ':'
  {
    if |s| > 0 {
      StripSeparatorsMembers(s[1..]);
      assert s == [s[0]] + s[1..];
    }
  }

  lemma {:induction false} StripSeparatorsConcat(a: string, b: string)
    ensures StripSeparators(a + b) == StripSeparators(a) + StripSeparators(b)
  {
    if |a| > 0 {
      assert (a + b)[0] == a[0];
      assert (a + b)[1..] == a[1..] + b;
      StripSeparatorsConcat(a[1..], b);
      var h: string := if a[0] == '-' || a[0] == ':' then "" else [a[0]];
      assert StripSeparators(a + b) == h + StripSeparators(a[1..] + b);
      assert StripSeparators(a) == h + StripSeparators(a[1..]);
    } else {
      assert a + b == b;
    }
  }

  /** A single character is dropped exactly when it is a separator. */
  lemma StripOne(k: char)
    ensures StripSeparators([k]) == if k == '-' || k == ':' then "" else [k]
  {
    assert [k][0] == k && [k][1..] == "";
    assert StripSeparators([k][1..]) == "";
  }

  /** `iso.replace(/[-:]/g, '').split('.')[0] + 'Z'`. */
  function CreateDate(iso: string): (r: string)
    ensures '-' !in r && ':' !in r
    ensures |r| >= 1 && r[|r| - 1] == 'Z'
    ensures '.' !in r[..|r| - 1]
    ensures StartsWith(StripSeparators(iso), r[..|r| - 1])
    ensures var t := StripSeparators(iso); |r| - 1 == |t| || t[|r| - 1] == '.'
  {
    var body := Before(StripSeparators(iso), '.');
    StripSeparatorsMembers(iso);
    assert forall c :: c in body ==> c in StripSeparators(iso) by {
      forall c | c in body ensures c in StripSeparators(iso) {
        var i :| 0 <= i < |body| && body[i] == c;
        assert StripSeparators(iso)[i] == c;
      }
    }
    var r := body + "Z";
    assert r[..|r| - 1] == body;
    r
  }

  /** The shape `Date.prototype.toISOString` produces for years 0 to 9999:
      `YYYY-MM-DDTHH:mm:ss.sssZ`. */
  predicate IsoShape(s: string) {
    && |s| == 24
    && s[4] == '-' && s[7] == '-' && s[10] == 'T' && s[13] == ':' && s[16] == ':'
    && s[19] == '.' && s[23] == 'Z'
    && AllDigits(s[0..4]) && AllDigits(s[5..7]) && AllDigits(s[8..10])
    && AllDigits(s[11..13]) && AllDigits(s[14..16]) && AllDigits(s[17..19]) && AllDigits(s[20..23])
  }

  lemma {:induction false} StripDigits(s: string)
    requires AllDigits(s)
    ensures StripSeparators(s) == s
  {
    if |s| > 0 {
      assert AllDigits(s[1..]);
      StripDigits(s[1..]);
    }
  }

  /** On a timestamp of that shape the creation date is
      `YYYYMMDDTHHmmssZ`: the separators and the milliseconds are dropped
      and the `T` is kept. */
  lemma CreateDateOfIso(s: string)
    requires IsoShape(s)
    ensures CreateDate(s) == s[0..4] + s[5..7] + s[8..10] + "T" + s[11..13] + s[14..16] + s[17..19] + "Z"
  {
    var a, b, c, d, e, f, g := s[0..4], s[5..7], s[8..10], s[11..13], s[14..16], s[17..19], s[20..23];
    var date := a + ['-'] + b + ['-'] + c;
    var time := d + [':'] + e + [':'] + f;
    assert s == date + ['T'] + (time + ['.'] + (g + ['Z']));
    StripPair(a, '-', b, c);
    StripPair(d, ':', e, f);
    StripDigits(g);
    StripKeep(g, 'Z', "");
    assert g + ['Z'] + "" == g + ['Z'];
    StripKeep(time, '.', g + ['Z']);
    StripKeep(date, 'T', time + ['.'] + (g + ['Z']));
    var head := a + b + c + "T" + d + e + f;
    assert StripSeparators(s) == (a + b + c) + ['T'] + ((d + e + f) + ['.'] + (g + ['Z']));
    assert StripSeparators(s) == head + "." + (g + "Z");
    DigitsNoDot(a); DigitsNoDot(b); DigitsNoDot(c);
    DigitsNoDot(d); DigitsNoDot(e); DigitsNoDot(f);
    assert '.' !in head;
    BeforeSeparator(head, '.', g + "Z");
  }

  lemma DigitsNoDot(x: string)
    requires AllDigits(x)
    ensures '.' !in x
  {
    forall i | 0 <= i < |x| ensures x[i] != '.' {
      assert IsDigit(x[i]);
    }
  }

  /** A character other than a separator survives in place. */
  lemma StripKeep(x: string, k: char, y: string)
    requires k != '-' && k != ':'
    ensures StripSeparators(x + [k] + y) == StripSeparators(x) + [k] + StripSeparators(y)
  {
    StripSeparatorsConcat(x + [k], y);
    StripSeparatorsConcat(x, [k]);
    StripOne(k);
  }

  /** A separator disappears. */
  lemma StripDrop(x: string, k: char, y: string)
    requires k == '-' || k == ':'
    ensures StripSeparators(x + [k] + y) == StripSeparators(x) + StripSeparators(y)
  {
    StripSeparatorsConcat(x + [k], y);
    StripSeparatorsConcat(x, [k]);
    StripOne(k);
  }

  /** Three digit groups with two separators between them lose the separators. */
  lemma StripPair(a: string, k: char, b: string, c: string)
    requires k == '-' || k == ':'
    requires AllDigits(a) && AllDigits(b) && AllDigits(c)
    ensures StripSeparators(a + [k] + b + [k] + c) == a + b + c
  {
    StripDigits(a); StripDigits(b); StripDigits(c);
    StripDrop(a + [k] + b, k, c);
    StripDrop(a, k, b);
  }

  /** The names of the `vnpParams` object's properties, in order. */
  const ParamNames: seq<string> := [
    "vnp_Version", "vnp_Command", "vnp_TmnCode", "vnp_Locale", "vnp_CurrCode", "vnp_TxnRef",
    "vnp_OrderInfo", "vnp_OrderType", "vnp_Amount", "vnp_ReturnUrl", "vnp_CreateDate" ]

  /** The property values, in the same order; the order description may be
      `undefined`. */
  function ParamValues(env: Env, req: Request, clock: Clock): (vs: seq<Option<string>>)
    ensures |vs| == 11 && vs[6] == req.orderInfo
    ensures forall i :: 0 <= i < 11 && i != 6 ==> vs[i].Some?
    ensures vs[0] == Some("2.1.0") && vs[1] == Some("pay") && vs[3] == Some("vn") && vs[4] == Some("VND")
    ensures vs[5] == Some("ORDER_" + NatToString(clock.epochMs)) && vs[7] == Some("billpayment")
    ensures vs[8] == Some(VNPay.AmountString(req.amount)) && vs[10] == Some(CreateDate(clock.iso))
    ensures vs[2] == Some(OrDefault(env.tmnCode, "")) && vs[9] == Some(Render(env.siteUrl) + "/payment-result")
  {
    [ Some("2.1.0"), Some("pay"), Some(OrDefault(env.tmnCode, "")), Some("vn"), Some("VND"),
      Some("ORDER_" + NatToString(clock.epochMs)), req.orderInfo, Some("billpayment"),
      Some(VNPay.AmountString(req.amount)), Some(Render(env.siteUrl) + "/payment-result"),
      Some(CreateDate(clock.iso)) ]
  }

  /** The `vnpParams` object, in its property order. */
  function PaymentParams(env: Env, req: Request, clock: Clock): (ps: seq<(string, Option<string>)>)
    ensures |ps| == 11
    ensures forall i :: 0 <= i < 11 ==> ps[i].0 == ParamNames[i] && ps[i].1 == ParamValues(env, req, clock)[i]
  {
    Zip(ParamNames, ParamValues(env, req, clock))
  }

  /** The entries whose value is not `undefined`. */
  function Defined(ps: seq<(string, Option<string>)>): (r: seq<Entry>)
    ensures |r| <= |ps|
  {
    if |ps| == 0 then []
    else if ps[0].1.Some? then [(ps[0].0, ps[0].1.value)] + Defined(ps[1..])
    else Defined(ps[1..])
  }

  /** Exactly the defined properties are kept. */
  lemma {:induction false} DefinedMembers(ps: seq<(string, Option<string>)>)
    ensures forall k, v :: (k, v) in Defined(ps) <==> (k, Some(v)) in ps
  {
    if |ps| > 0 {
      DefinedMembers(ps[1..]);
      assert ps == [ps[0]] + ps[1..];
    }
  }

  predicate DistinctNames(ps: seq<(string, Option<string>)>) {
    forall i, j :: 0 <= i < j < |ps| ==> ps[i].0 != ps[j].0
  }

  lemma {:induction false} DefinedDistinct(ps: seq<(string, Option<string>)>)
    requires DistinctNames(ps)
    ensures DistinctKeys(Defined(ps))
  {
    if |ps| > 0 {
      DefinedDistinct(ps[1..]);
      DefinedMembers(ps[1..]);
      var t := Defined(ps[1..]);
      forall j | 0 <= j < |t| ensures t[j].0 != ps[0].0 {
        assert (t[j].0, Some(t[j].1)) in ps[1..];
      }
    }
  }

  /** The string that is signed: sorted keys, undefined values skipped, raw
      `key=value` pairs joined by `&`. */
  function SignData(env: Env, req: Request, clock: Clock): (r: string)
    ensures var d := Defined(PaymentParams(env, req, clock));
      r == VNPay.CanonicalString(d, true) <==> VNPay.ValuesSafe(d)
  {
    VNPay.CanonicalEncodedIffRaw(Defined(PaymentParams(env, req, clock)));
    VNPay.CanonicalString(Defined(PaymentParams(env, req, clock)), false)
  }

  /** The URL's parameters: the object's properties in order, then the
      signature, assigned after signing. */
  function SignedParams(env: Env, hmac: VNPay.Hmac, req: Request, clock: Clock): (ps: seq<(string, Option<string>)>)
    ensures |ps| == 12
    ensures ps[..11] == PaymentParams(env, req, clock)
    ensures ps[11] == (VNPay.SecureHash, Some(hmac(OrDefault(env.hashSecret, ""), SignData(env, req, clock))))
  {
    PaymentParams(env, req, clock) + [(VNPay.SecureHash, Some(hmac(OrDefault(env.hashSecret, ""), SignData(env, req, clock))))]
  }

  /** `key=encodeURIComponent(value?.toString() || '')` joined by `&`. */
  function UrlQuery(ps: seq<(string, Option<string>)>): (q: string)
    ensures |ps| > 0 && (forall i :: 0 <= i < |ps| ==> '&' !in ps[i].0) ==> Split(q, '&') == UrlFields(ps)
  {
    if |ps| > 0 && (forall i :: 0 <= i < |ps| ==> '&' !in ps[i].0) then
      UrlFieldsNoAmp(ps);
      SplitJoin(UrlFields(ps), '&');
      Join(UrlFields(ps), "&")
    else Join(UrlFields(ps), "&")
  }

  function UrlFields(ps: seq<(string, Option<string>)>): (r: seq<string>)
    ensures |r| == |ps|
    ensures forall i :: 0 <= i < |ps| ==> r[i] == ps[i].0 + "=" + EncodeURIComponent(ps[i].1.GetOr(""))
  {
    if |ps| == 0 then [] else [ps[0].0 + "=" + EncodeURIComponent(ps[0].1.GetOr(""))] + UrlFields(ps[1..])
  }

  /** No URL field contains `&`: the names are fixed `vnp_` names and the
      values are URL-encoded. */
  lemma UrlFieldsNoAmp(ps: seq<(string, Option<string>)>)
    requires forall i :: 0 <= i < |ps| ==> '&' !in ps[i].0
    ensures forall i :: 0 <= i < |ps| ==> '&' !in UrlFields(ps)[i]
  {
    forall i | 0 <= i < |ps| ensures '&' !in UrlFields(ps)[i] {
      EncodeURIComponentNoAmp(ps[i].1.GetOr(""));
    }
  }

  lemma ParamNamesNoAmp()
    ensures forall i :: 0 <= i < |ParamNames| ==> '&' !in ParamNames[i]
  {
    assert '&' !in ParamNames[0];
    assert '&' !in ParamNames[1];
    assert '&' !in ParamNames[2];
    assert '&' !in ParamNames[3];
    assert '&' !in ParamNames[4];
    assert '&' !in ParamNames[5];
    assert '&' !in ParamNames[6];
    assert '&' !in ParamNames[7];
    assert '&' !in ParamNames[8];
    assert '&' !in ParamNames[9];
    assert '&' !in ParamNames[10];
  }

  /** The twelve URL parameter names: the object's names and then
      `vnp_SecureHash`. None of them contains `&`. */
  lemma SignedNamesNoAmp(ps: seq<(string, Option<string>)>)
    requires |ps| == 12 && ps[11].0 == VNPay.SecureHash
    requires forall i :: 0 <= i < 11 ==> ps[i].0 == ParamNames[i]
    ensures forall i :: 0 <= i < 12 ==> '&' !in ps[i].0
  {
    ParamNamesNoAmp();
    assert '&' !in VNPay.SecureHash;
  }

  /** `POST /api/create-payment`: replies with the payment URL; an
      unreadable body gives 500. The text after the `?` splits on `&` into
      exactly the URL fields: the properties and then the signature. */
  function CreatePayment(env: Env, hmac: VNPay.Hmac, body: Option<Request>, clock: Clock): (r: Response)
    ensures body.None? <==> r == Json(500, Error("Failed to create payment"))
    ensures body.Some? ==> r.Json? && r.status == 200 && r.body.PaymentUrl?
    ensures body.Some? ==> StartsWith(r.body.url, OrDefault(env.vnpUrl, SandboxUrl) + "?")
    ensures body.Some? ==>
      Split(r.body.url[|OrDefault(env.vnpUrl, SandboxUrl)| + 1..], '&') == UrlFields(SignedParams(env, hmac, body.value, clock))
  {
    match body
    case None => Json(500, Error("Failed to create payment"))
    case Some(req) =>
      var base := OrDefault(env.vnpUrl, SandboxUrl);
      var ps := SignedParams(env, hmac, req, clock);
      forall i | 0 <= i < 11 ensures ps[i].0 == ParamNames[i] {
        assert ps[i] == ps[..11][i];
      }
      SignedNamesNoAmp(ps);
      UrlFieldsNoAmp(ps);
      SplitJoin(UrlFields(ps), '&');
      var url := base + "?" + UrlQuery(ps);
      assert url[|base| + 1..] == UrlQuery(ps);
      Json(200, PaymentUrl(url))
  }

  /** The URL's query lists the object's properties in their order, each
      value URL-encoded (undefined as empty), and the signature last. */
  lemma CreatePaymentQuery(env: Env, hmac: VNPay.Hmac, req: Request, clock: Clock)
    ensures var fields := UrlFields(SignedParams(env, hmac, req, clock));
      && |fields| == 12
      && (forall i :: 0 <= i < 11 ==>
            fields[i] == ParamNames[i] + "=" + EncodeURIComponent(ParamValues(env, req, clock)[i].GetOr("")))
      && fields[11] == VNPay.SecureHash + "=" + EncodeURIComponent(hmac(OrDefault(env.hashSecret, ""), SignData(env, req, clock)))
  {
    var ps := SignedParams(env, hmac, req, clock);
    forall i | 0 <= i < 11 ensures ps[i] == (ParamNames[i], ParamValues(env, req, clock)[i]) {
      assert ps[i] == ps[..11][i];
    }
  }

  lemma ParamNamesDistinct()
    ensures forall i, j :: 0 <= i < j < |ParamNames| ==> ParamNames[i] != ParamNames[j]
  {
  }

  /** The parameter names are distinct, so the object is a proper map. */
  lemma PaymentParamsDistinct(env: Env, req: Request, clock: Clock)
    ensures DistinctNames(PaymentParams(env, req, clock))
    ensures DistinctKeys(Defined(PaymentParams(env, req, clock)))
  {
    ParamNamesDistinct();
    DefinedDistinct(PaymentParams(env, req, clock));
  }

  /** A defined property of the object is what the signed entries hold
      under its name. */
  lemma SignedLookup(env: Env, req: Request, clock: Clock, i: nat)
    requires i < |ParamNames| && ParamValues(env, req, clock)[i].Some?
    ensures Lookup(Defined(PaymentParams(env, req, clock)), ParamNames[i]) == ParamValues(env, req, clock)[i]
  {
    var ps := PaymentParams(env, req, clock);
    PaymentParamsDistinct(env, req, clock);
    assert ps[i] == (ParamNames[i], ParamValues(env, req, clock)[i]);
    DefinedMembers(ps);
    LookupDistinct(Defined(ps), ParamNames[i], ParamValues(env, req, clock)[i].value);
  }

  /** What is signed: the amount scaled by 100, the `ORDER_` reference from
      the clock and the creation date. */
  lemma SignedFields(env: Env, req: Request, clock: Clock)
    ensures var d := Defined(PaymentParams(env, req, clock));
      && Lookup(d, "vnp_Amount") == Some(VNPay.AmountString(req.amount))
      && Lookup(d, "vnp_TxnRef") == Some("ORDER_" + NatToString(clock.epochMs))
      && Lookup(d, "vnp_CreateDate") == Some(CreateDate(clock.iso))
  {
    var vs := ParamValues(env, req, clock);
    assert ParamNames[8] == "vnp_Amount" && vs[8] == Some(VNPay.AmountString(req.amount));
    SignedLookup(env, req, clock, 8);
    assert ParamNames[5] == "vnp_TxnRef" && vs[5] == Some("ORDER_" + NatToString(clock.epochMs));
    SignedLookup(env, req, clock, 5);
    assert ParamNames[10] == "vnp_CreateDate" && vs[10] == Some(CreateDate(clock.iso));
    SignedLookup(env, req, clock, 10);
  }

  /** The fixed protocol constants are signed. */
  lemma SignedConstants(env: Env, req: Request, clock: Clock)
    ensures var d := Defined(PaymentParams(env, req, clock));
      && Lookup(d, "vnp_Version") == Some("2.1.0")
      && Lookup(d, "vnp_Command") == Some("pay")
      && Lookup(d, "vnp_Locale") == Some("vn")
  {
    var vs := ParamValues(env, req, clock);
    assert ParamNames[0] == "vnp_Version" && vs[0] == Some("2.1.0");
    SignedLookup(env, req, clock, 0);
    assert ParamNames[1] == "vnp_Command" && vs[1] == Some("pay");
    SignedLookup(env, req, clock, 1);
    assert ParamNames[3] == "vnp_Locale" && vs[3] == Some("vn");
    SignedLookup(env, req, clock, 3);
  }

  /** The currency and the order type are signed. */
  lemma SignedKinds(env: Env, req: Request, clock: Clock)
    ensures var d := Defined(PaymentParams(env, req, clock));
      && Lookup(d, "vnp_CurrCode") == Some("VND")
      && Lookup(d, "vnp_OrderType") == Some("billpayment")
  {
    var vs := ParamValues(env, req, clock);
    assert ParamNames[4] == "vnp_CurrCode" && vs[4] == Some("VND");
    SignedLookup(env, req, clock, 4);
    assert ParamNames[7] == "vnp_OrderType" && vs[7] == Some("billpayment");
    SignedLookup(env, req, clock, 7);
  }

  /** A name reaches the signed entries exactly when the object holds it
      with a defined value. */
  lemma {:induction false} DefinedHasKey(ps: seq<(string, Option<string>)>, k: string)
    ensures HasKey(Defined(ps), k) <==> exists i :: 0 <= i < |ps| && ps[i].0 == k && ps[i].1.Some?
  {
    if |ps| > 0 {
      var rest := ps[1..];
      DefinedHasKey(rest, k);
      if ps[0].1.Some? {
        HasKeyCons((ps[0].0, ps[0].1.value), Defined(rest), k);
      }
      if exists i :: 0 <= i < |rest| && rest[i].0 == k && rest[i].1.Some? {
        var i :| 0 <= i < |rest| && rest[i].0 == k && rest[i].1.Some?;
        assert ps[i + 1] == rest[i];
      }
      if exists i :: 0 <= i < |ps| && ps[i].0 == k && ps[i].1.Some? {
        var i :| 0 <= i < |ps| && ps[i].0 == k && ps[i].1.Some?;
        if i > 0 {
          assert rest[i - 1] == ps[i];
        }
      }
    }
  }

  /** The order description is signed exactly when it is defined. */
  lemma SignedOrderInfo(env: Env, req: Request, clock: Clock)
    ensures HasKey(Defined(PaymentParams(env, req, clock)), "vnp_OrderInfo") <==> req.orderInfo.Some?
  {
    var ps := PaymentParams(env, req, clock);
    DefinedHasKey(ps, "vnp_OrderInfo");
    assert ps[6] == ("vnp_OrderInfo", req.orderInfo);
    if req.orderInfo.None? {
      OrderInfoOnce();
      forall i | 0 <= i < |ps| && ps[i].0 == "vnp_OrderInfo" ensures ps[i].1.None? {
        assert ParamNames[i] == "vnp_OrderInfo";
      }
    }
  }

  lemma OrderInfoOnce()
    ensures forall i :: 0 <= i < |ParamNames| && ParamNames[i] == "vnp_OrderInfo" ==> i == 6
  {
  }

  lemma HashNotAParam()
    ensures VNPay.SecureHash !in ParamNames
  {
  }

  /** The signature never signs itself. */
  lemma SignedWithoutHash(env: Env, req: Request, clock: Clock)
    ensures !HasKey(Defined(PaymentParams(env, req, clock)), VNPay.SecureHash)
  {
    DefinedHasKey(PaymentParams(env, req, clock), VNPay.SecureHash);
    HashNotAParam();
  }
}

=== FILE: entries.dfy ===
/** JavaScript plain objects with string values, as lists of (key, value)
    entries in insertion order, and the default `Array.prototype.sort` order
    on their keys. */
module Entries {
  import opened Wrappers

  type Entry = (string, string)

  /** Keys of an object are distinct. */
  predicate DistinctKeys(e: seq<Entry>) {
    forall i, j :: 0 <= i < j < |e| ==> e[i].0 != e[j].0
  }

  function Keys(e: seq<Entry>): (r: seq<string>)
    ensures |r| == |e|
    ensures forall i :: 0 <= i < |e| ==> r[i] == e[i].0
  {
    if |e| == 0 then [] else [e[0].0] + Keys(e[1..])
  }

  predicate HasKey(e: seq<Entry>, k: string) {
    exists i :: 0 <= i < |e| && e[i].0 == k
  }

  lemma HasKeyCons(x: Entry, e: seq<Entry>, k: string)
    ensures HasKey([x] + e, k) <==> x.0 == k || HasKey(e, k)
  {
    if x.0 == k {
      assert ([x] + e)[0].0 == k;
    }
    if HasKey(e, k) {
      var i :| 0 <= i < |e| && e[i].0 == k;
      assert ([x] + e)[i + 1] == e[i];
    }
    if HasKey([x] + e, k) && x.0 != k {
      var i :| 0 <= i < |[x] + e| && ([x] + e)[i].0 == k;
      assert e[i - 1] == ([x] + e)[i];
    }
  }

  /** `obj[k]`: the value of the first entry with key `k`. */
  function Lookup(e: seq<Entry>, k: string): (r: Option<string>)
    ensures r.None? <==> !HasKey(e, k)
    ensures r.Some? ==> (k, r.value) in e
  {
    if |e| == 0 then None
    else if e[0].0 == k then Some(e[0].1)
    else
      var r := Lookup(e[1..], k);
      assert HasKey(e, k) <==> HasKey(e[1..], k) by {
        if HasKey(e, k) {
          var i :| 0 <= i < |e| && e[i].0 == k;
          assert e[1..][i - 1].0 == k;
        }
        if HasKey(e[1..], k) {
          var i :| 0 <= i < |e[1..]| && e[1..][i].0 == k;
          assert e[i + 1].0 == k;
        }
      }
      r
  }

  /** With distinct keys the value stored under a key is the one `Lookup`
      returns. */
  lemma {:induction false} LookupDistinct(e: seq<Entry>, k: string, v: string)
    requires DistinctKeys(e)
    ensures Lookup(e, k) == Some(v) <==> (k, v) in e
  {
    if |e| > 0 {
      assert DistinctKeys(e[1..]);
      LookupDistinct(e[1..], k, v);
    }
  }

  /** An object literal: keys paired with values, in order. */
  function Zip<V>(keys: seq<string>, values: seq<V>): (e: seq<(string, V)>)
    requires |keys| == |values|
    ensures |e| == |keys|
    ensures forall i :: 0 <= i < |e| ==> e[i] == (keys[i], values[i])
  {
    if |keys| == 0 then [] else [(keys[0], values[0])] + Zip(keys[1..], values[1..])
  }

  /** Distinct literal keys give an object with distinct keys, holding
      exactly those keys. */
  lemma ZipKeys(keys: seq<string>, values: seq<string>, k: string)
    requires |keys| == |values|
    requires forall i, j :: 0 <= i < j < |keys| ==> keys[i] != keys[j]
    ensures DistinctKeys(Zip(keys, values))
    ensures HasKey(Zip(keys, values), k) <==> k in keys
  {
    var e := Zip(keys, values);
    if k in keys {
      var i :| 0 <= i < |keys| && keys[i] == k;
      assert e[i].0 == k;
    }
  }

  /** `delete obj[k]`: every entry with key `k` disappears, the others keep
      their order. */
  function Remove(e: seq<Entry>, k: string): (r: seq<Entry>)
    ensures forall x :: x in r <==> x in e && x.0 != k
    ensures |r| <= |e|
  {
    if |e| == 0 then []
    else if e[0].0 == k then Remove(e[1..], k)
    else [e[0]] + Remove(e[1..], k)
  }

  lemma RemoveNoKey(e: seq<Entry>, k: string)
    ensures !HasKey(Remove(e, k), k)
  {
  }

  /** Removal distributes over concatenation. */
  lemma {:induction false} RemoveConcat(a: seq<Entry>, b: seq<Entry>, k: string)
    ensures Remove(a + b, k) == Remove(a, k) + Remove(b, k)
  {
    if |a| > 0 {
      assert (a + b)[0] == a[0];
      assert (a + b)[1..] == a[1..] + b;
      RemoveConcat(a[1..], b, k);
      if a[0].0 == k {
        assert Remove(a + b, k) == Remove(a[1..] + b, k);
        assert Remove(a, k) == Remove(a[1..], k);
      } else {
        assert Remove(a + b, k) == [a[0]] + Remove(a[1..] + b, k);
        assert Remove(a, k) == [a[0]] + Remove(a[1..], k);
      }
    } else {
      assert a + b == b;
    }
  }

  /** Removing a key that is not there changes nothing. */
  lemma {:induction false} RemoveAbsent(e: seq<Entry>, k: string)
    requires !HasKey(e, k)
    ensures Remove(e, k) == e
  {
    if |e| > 0 {
      assert e[0].0 != k;
      RemoveAbsent(e[1..], k);
    }
  }

  /** Removing a key keeps the remaining keys distinct. */
  lemma {:induction false} RemoveDistinct(e: seq<Entry>, k: string)
    requires DistinctKeys(e)
    ensures DistinctKeys(Remove(e, k))
  {
    if |e| > 0 {
      assert DistinctKeys(e[1..]);
      RemoveDistinct(e[1..], k);
      if e[0].0 != k {
        var r := Remove(e, k);
        HeadKeyFresh(e);
        forall j | 0 < j < |r| ensures r[0].0 != r[j].0 {
          assert r[j] in Remove(e[1..], k);
        }
      }
    }
  }

  /** Removing a key from two reorderings of one object leaves reorderings of
      one object. */
  lemma {:induction false} RemovePermutation(a: seq<Entry>, b: seq<Entry>, k: string)
    requires multiset(a) == multiset(b)
    ensures multiset(Remove(a, k)) == multiset(Remove(b, k))
  {
    RemoveMultiset(a, k);
    RemoveMultiset(b, k);
  }

  /** The multiset of `Remove(e, k)` is that of `e` with every key-`k` entry
      removed. */
  lemma {:induction false} RemoveMultiset(e: seq<Entry>, k: string)
    ensures forall x :: multiset(Remove(e, k))[x] == if x.0 == k then 0 else multiset(e)[x]
  {
    if |e| > 0 {
      RemoveMultiset(e[1..], k);
      assert e == [e[0]] + e[1..];
    }
  }

  /** `obj[k] = v`: an existing key keeps its position and takes the new
      value; a new key is appended. */
  function Set(e: seq<Entry>, k: string, v: string): (r: seq<Entry>)
    ensures Lookup(r, k) == Some(v)
    ensures HasKey(e, k) ==> |r| == |e|
    ensures !HasKey(e, k) ==> r == e + [(k, v)]
    ensures forall x :: x in e && x.0 != k ==> x in r
  {
    if |e| == 0 then [(k, v)]
    else if e[0].0 == k then [(k, v)] + e[1..]
    else
      assert e == [e[0]] + e[1..];
      HasKeyCons(e[0], e[1..], k);
      [e[0]] + Set(e[1..], k, v)
  }

  /** Setting a key leaves every existing key in its place. */
  lemma {:induction false} SetKeysInPlace(e: seq<Entry>, k: string, v: string)
    ensures |Set(e, k, v)| >= |e|
    ensures forall i :: 0 <= i < |e| ==> Set(e, k, v)[i].0 == e[i].0
  {
    if |e| > 0 {
      var r := Set(e, k, v);
      if e[0].0 == k {
        assert r == [(k, v)] + e[1..];
        forall i | 0 <= i < |e| ensures r[i].0 == e[i].0 {
          if i > 0 {
            assert r[i] == e[1..][i - 1];
          }
        }
      } else {
        var rest := Set(e[1..], k, v);
        SetKeysInPlace(e[1..], k, v);
        assert r == [e[0]] + rest;
        forall i | 0 <= i < |e| ensures r[i].0 == e[i].0 {
          if i > 0 {
            assert r[i] == rest[i - 1] && e[i] == e[1..][i - 1];
          }
        }
      }
    }
  }

  /** Setting a key keeps the keys distinct. */
  lemma SetDistinct(e: seq<Entry>, k: string, v: string)
    requires DistinctKeys(e)
    ensures DistinctKeys(Set(e, k, v))
  {
    SetKeysInPlace(e, k, v);
    var r := Set(e, k, v);
    if HasKey(e, k) {
      forall i, j | 0 <= i < j < |r| ensures r[i].0 != r[j].0 {
        assert r[i].0 == e[i].0 && r[j].0 == e[j].0;
      }
    } else {
      forall i, j | 0 <= i < j < |r| ensures r[i].0 != r[j].0 {
        if j == |e| {
          assert r[j].0 == k && r[i].0 == e[i].0;
        } else {
          assert r[i].0 == e[i].0 && r[j].0 == e[j].0;
        }
      }
    }
  }

  /** `Object.fromEntries(pairs)`: each pair is set in turn, so a repeated
      key keeps its first position and takes its last value. */
  function FromEntries(pairs: seq<Entry>): (r: seq<Entry>)
    ensures DistinctKeys(r)
  {
    if |pairs| == 0 then []
    else
      var init := FromEntries(pairs[..|pairs| - 1]);
      SetDistinct(init, pairs[|pairs| - 1].0, pairs[|pairs| - 1].1);
      Set(init, pairs[|pairs| - 1].0, pairs[|pairs| - 1].1)
  }

  /** `Object.fromEntries` of a non-empty list sets the last pair on the
      object built from the others. */
  lemma FromEntriesSnoc(pairs: seq<Entry>)
    requires |pairs| > 0
    ensures var n := |pairs| - 1;
      FromEntries(pairs) == Set(FromEntries(pairs[..n]), pairs[n].0, pairs[n].1)
  {
  }

  /** In a list with distinct keys the last key does not occur before it. */
  lemma LastKeyFresh(pairs: seq<Entry>)
    requires DistinctKeys(pairs) && |pairs| > 0
    ensures var n := |pairs| - 1;
      DistinctKeys(pairs[..n]) && !HasKey(pairs[..n], pairs[n].0)
  {
    var n := |pairs| - 1;
    forall i | 0 <= i < n ensures pairs[..n][i].0 != pairs[n].0 {
      assert pairs[..n][i] == pairs[i];
    }
  }

  /** If `Object.fromEntries` reads the first pairs back unchanged and the
      last key is new, it reads the whole list back unchanged. */
  lemma FromEntriesFreshLast(pairs: seq<Entry>)
    requires |pairs| > 0
    requires FromEntries(pairs[..|pairs| - 1]) == pairs[..|pairs| - 1]
    requires !HasKey(pairs[..|pairs| - 1], pairs[|pairs| - 1].0)
    ensures FromEntries(pairs) == pairs
  {
    FromEntriesSnoc(pairs);
    SplitLast(pairs);
  }

  /** A non-empty list is its first pairs followed by its last pair. */
  lemma SplitLast(pairs: seq<Entry>)
    requires |pairs| > 0
    ensures var n := |pairs| - 1;
      pairs == pairs[..n] + [(pairs[n].0, pairs[n].1)]
  {
    var n := |pairs| - 1;
    assert pairs[n] == (pairs[n].0, pairs[n].1);
    assert pairs == pairs[..n] + [pairs[n]];
  }

  /** Pairs with distinct keys are read back as they are. */
  lemma {:induction false} FromEntriesDistinct(pairs: seq<Entry>)
    requires DistinctKeys(pairs)
    ensures FromEntries(pairs) == pairs
  {
    if |pairs| > 0 {
      LastKeyFresh(pairs);
      FromEntriesDistinct(pairs[..|pairs| - 1]);
      FromEntriesFreshLast(pairs);
    }
  }

  /** The value of the last pair with key `k`, if any. */
  function LastValue(pairs: seq<Entry>, k: string): (r: Option<string>)
    ensures r.None? <==> !HasKey(pairs, k)
  {
    if |pairs| == 0 then None
    else
      var n := |pairs| - 1;
      assert pairs == pairs[..n] + [pairs[n]];
      HasKeyAppend(pairs[..n], pairs[n], k);
      if pairs[n].0 == k then Some(pairs[n].1) else LastValue(pairs[..n], k)
  }

  /** Reading a key from `Object.fromEntries(pairs)` gives the value of the
      last pair with that key, and nothing when no pair has it. */
  lemma {:induction false} FromEntriesLookup(pairs: seq<Entry>, k: string)
    ensures Lookup(FromEntries(pairs), k) == LastValue(pairs, k)
  {
    if |pairs| > 0 {
      var n := |pairs| - 1;
      FromEntriesLookup(pairs[..n], k);
      if pairs[n].0 != k {
        SetLookupOther(FromEntries(pairs[..n]), pairs[n].0, pairs[n].1, k);
      }
    }
  }

  /** Setting one key leaves the lookup of every other key unchanged. */
  lemma {:induction false} SetLookupOther(e: seq<Entry>, k: string, v: string, other: string)
    requires other != k
    ensures Lookup(Set(e, k, v), other) == Lookup(e, other)
  {
    if |e| > 0 && e[0].0 != k {
      SetLookupOther(e[1..], k, v, other);
    } else if |e| == 0 {
      assert Lookup([(k, v)][1..], other) == None;
    } else {
      assert ([(k, v)] + e[1..])[1..] == e[1..];
    }
  }

  lemma HasKeyAppend(e: seq<Entry>, x: Entry, k: string)
    ensures HasKey(e + [x], k) <==> HasKey(e, k) || x.0 == k
  {
    if HasKey(e, k) {
      var i :| 0 <= i < |e| && e[i].0 == k;
      assert (e + [x])[i].0 == k;
    }
    if x.0 == k {
      assert (e + [x])[|e|].0 == k;
    }
    if HasKey(e + [x], k) && x.0 != k {
      var i :| 0 <= i < |e + [x]| && (e + [x])[i].0 == k;
      assert e[i].0 == k;
    }
  }

  /** Appending an entry with a fresh key keeps the keys distinct. */
  lemma AppendDistinct(e: seq<Entry>, x: Entry)
    requires DistinctKeys(e) && !HasKey(e, x.0)
    ensures DistinctKeys(e + [x])
  {
    var r := e + [x];
    forall i, j | 0 <= i < j < |r| ensures r[i].0 != r[j].0 {
      if j == |e| {
        assert r[i] == e[i];
      } else {
        assert r[i] == e[i] && r[j] == e[j];
      }
    }
  }

  // ---------------------------------------------------------------------
  // Key order

  /** The default sort order on strings: lexicographic by character code. */
  predicate Less(a: string, b: string) {
    if |a| == 0 then |b| > 0
    else if |b| == 0 then false
    else if a[0] != b[0] then a[0] < b[0]
    else Less(a[1..], b[1..])
  }

  lemma {:induction false} LessIrreflexive(a: string)
    ensures !Less(a, a)
  {
    if |a| > 0 {
      LessIrreflexive(a[1..]);
    }
  }

  lemma {:induction false} LessAsymmetric(a: string, b: string)
    ensures Less(a, b) ==> !Less(b, a)
  {
    if |a| > 0 && |b| > 0 && a[0] == b[0] {
      LessAsymmetric(a[1..], b[1..]);
    }
  }

  lemma {:induction false} LessTransitive(a: string, b: string, c: string)
    ensures Less(a, b) && Less(b, c) ==> Less(a, c)
  {
    if |a| > 0 && |b| > 0 && |c| > 0 && a[0] == b[0] && b[0] == c[0] {
      LessTransitive(a[1..], b[1..], c[1..]);
    }
  }

  lemma {:induction false} LessTotal(a: string, b: string)
    ensures a != b ==> Less(a, b) || Less(b, a)
  {
    if |a| > 0 && |b| > 0 && a[0] == b[0] {
      LessTotal(a[1..], b[1..]);
      assert a == [a[0]] + a[1..];
      assert b == [b[0]] + b[1..];
    }
  }

  /** Keys strictly ascending. */
  predicate SortedByKey(e: seq<Entry>) {
    forall i, j :: 0 <= i < j < |e| ==> Less(e[i].0, e[j].0)
  }

  /** Inserts `x` before the first entry whose key is greater. */
  function Insert(x: Entry, s: seq<Entry>): (r: seq<Entry>)
    ensures multiset(r) == multiset(s) + multiset{x}
  {
    if |s| == 0 then [x]
    else if Less(x.0, s[0].0) then [x] + s
    else
      assert s == [s[0]] + s[1..];
      [s[0]] + Insert(x, s[1..])
  }

  /** Inserting an entry with a fresh key into a key-sorted list keeps it
      sorted. */
  lemma {:induction false} InsertSorted(x: Entry, s: seq<Entry>)
    requires SortedByKey(s)
    requires forall y :: y in s ==> y.0 != x.0
    ensures SortedByKey(Insert(x, s))
  {
    if |s| == 0 {
    } else if Less(x.0, s[0].0) {
      var r := [x] + s;
      forall j | 0 < j < |r| ensures Less(x.0, r[j].0) {
        if j > 1 { LessTransitive(x.0, s[0].0, r[j].0); }
      }
    } else {
      var t := Insert(x, s[1..]);
      var r := [s[0]] + t;
      assert SortedByKey(s[1..]);
      InsertSorted(x, s[1..]);
      LessTotal(x.0, s[0].0);
      forall j | 0 < j < |r| ensures Less(s[0].0, r[j].0) {
        assert r[j] in multiset(t);
        assert r[j] == x || r[j] in s[1..];
      }
    }
  }

  /** `Object.keys(obj).sort()` applied to the entries: insertion sort by key. */
  function SortByKey(e: seq<Entry>): (r: seq<Entry>)
    ensures multiset(r) == multiset(e)
    ensures |r| == |e|
  {
    if |e| == 0 then []
    else
      assert e == [e[0]] + e[1..];
      Insert(e[0], SortByKey(e[1..]))
  }

  /** With distinct keys the sorted list is strictly ascending. */
  lemma {:induction false} SortByKeySorted(e: seq<Entry>)
    requires DistinctKeys(e)
    ensures SortedByKey(SortByKey(e))
  {
    if |e| > 0 {
      var t := SortByKey(e[1..]);
      assert e == [e[0]] + e[1..];
      assert DistinctKeys(e[1..]);
      SortByKeySorted(e[1..]);
      HeadKeyFresh(e);
      assert forall y :: y in t ==> y in multiset(e[1..]);
      InsertSorted(e[0], t);
    }
  }

  /** In a list with distinct keys no later entry shares the first key. */
  lemma HeadKeyFresh(e: seq<Entry>)
    requires DistinctKeys(e)
    requires |e| > 0
    ensures forall y :: y in e[1..] ==> y.0 != e[0].0
  {
    forall y | y in e[1..] ensures y.0 != e[0].0 {
      var j :| 0 <= j < |e[1..]| && e[1..][j] == y;
      assert e[j + 1] == y;
    }
  }

  /** Two non-empty key-sorted lists holding the same entries start with the
      same entry. */
  lemma SortedSameHead(a: seq<Entry>, b: seq<Entry>)
    requires SortedByKey(a) && SortedByKey(b)
    requires multiset(a) == multiset(b) && |a| > 0
    ensures |b| > 0 && a[0] == b[0]
  {
    assert |b| == |multiset(b)| == |multiset(a)| == |a|;
    assert a[0] in multiset(b);
    assert b[0] in multiset(a);
    var i :| 0 <= i < |b| && b[i] == a[0];
    var j :| 0 <= j < |a| && a[j] == b[0];
    if i > 0 {
      assert Less(b[0].0, a[0].0);
      if j > 0 {
        assert Less(a[0].0, b[0].0);
        LessAsymmetric(a[0].0, b[0].0);
        assert false;
      } else {
        assert a[0] == b[0];
        LessIrreflexive(a[0].0);
        assert false;
      }
    } else if j > 0 {
      assert Less(a[0].0, b[0].0) && a[0] == b[0];
      LessIrreflexive(a[0].0);
      assert false;
    }
  }

  /** Two key-sorted lists holding the same entries are equal. */
  lemma {:induction false} SortedUnique(a: seq<Entry>, b: seq<Entry>)
    requires SortedByKey(a) && SortedByKey(b)
    requires multiset(a) == multiset(b)
    ensures a == b
  {
    if |a| == 0 {
      assert |b| == |multiset(b)| == 0;
    } else {
      SortedSameHead(a, b);
      assert a == [a[0]] + a[1..];
      assert b == [b[0]] + b[1..];
      assert multiset(a[1..]) == multiset(b[1..]) by {
        assert multiset(a) - multiset{a[0]} == multiset(a[1..]);
        assert multiset(b) - multiset{b[0]} == multiset(b[1..]);
      }
      SortedUnique(a[1..], b[1..]);
    }
  }

  /** Sorting does not depend on insertion order: two objects with the same
      entries in any order sort to the same list. */
  lemma SortInsertionOrderIndependent(a: seq<Entry>, b: seq<Entry>)
    requires DistinctKeys(a) && DistinctKeys(b)
    requires multiset(a) == multiset(b)
    ensures SortByKey(a) == SortByKey(b)
  {
    SortByKeySorted(a);
    SortByKeySorted(b);
    SortedUnique(SortByKey(a), SortByKey(b));
  }

  /** Sorting an already sorted list changes nothing. */
  lemma SortSorted(e: seq<Entry>)
    requires SortedByKey(e)
    ensures SortByKey(e) == e
  {
    SortedDistinct(e);
    SortByKeySorted(e);
    SortedUnique(SortByKey(e), e);
  }

  lemma SortedDistinct(e: seq<Entry>)
    requires SortedByKey(e)
    ensures DistinctKeys(e)
  {
    forall i, j | 0 <= i < j < |e| ensures e[i].0 != e[j].0 {
      if e[i].0 == e[j].0 { LessIrreflexive(e[i].0); }
    }
  }

  /** A list with distinct keys stays distinct under any reordering. */
  lemma {:induction false} PermutationDistinct(a: seq<Entry>, b: seq<Entry>)
    requires DistinctKeys(a)
    requires multiset(a) == multiset(b)
    ensures DistinctKeys(b)
  {
    forall i, j | 0 <= i < j < |b| ensures b[i].0 != b[j].0 {
      if b[i].0 == b[j].0 {
        assert b[i] in multiset(a) && b[j] in multiset(a);
        var p :| 0 <= p < |a| && a[p] == b[i];
        var q :| 0 <= q < |a| && a[q] == b[j];
        if p == q {
          assert b[i] == b[j];
          assert multiset(b)[b[i]] >= 2 by {
            assert b == b[..i] + [b[i]] + b[i + 1..j] + [b[j]] + b[j + 1..];
          }
          CountDistinct(a, p);
          assert false;
        }
      }
    }
  }

  /** In a list with distinct keys each entry occurs once. */
  lemma {:induction false} CountDistinct(a: seq<Entry>, p: nat)
    requires DistinctKeys(a)
    requires p < |a|
    ensures multiset(a)[a[p]] == 1
  {
    if p == 0 {
      assert a == [a[0]] + a[1..];
      HeadKeyFresh(a);
    } else {
      assert a == [a[0]] + a[1..];
      assert DistinctKeys(a[1..]);
      CountDistinct(a[1..], p - 1);
      assert a[1..][p - 1] == a[p];
    }
  }
}

=== FILE: notifications.dfy ===
/** The notifications page: marking one or all notifications read, and the
    unread counter. The local list changes only after the write succeeds. */
module Notifications {

  datatype Notification = Notification(id: string, title: string, content: string, isRead: bool)

  /** `markAsRead`: the entries with the id become read. */
  function MarkAsRead(ns: seq<Notification>, id: string, writeFails: bool): (r: seq<Notification>)
    ensures |r| == |ns|
    ensures forall i :: 0 <= i < |ns| ==>
      r[i] == (if !writeFails && ns[i].id == id then ns[i].(isRead := true) else ns[i])
  {
    if writeFails then ns
    else seq(|ns|, i requires 0 <= i < |ns| => if ns[i].id == id then ns[i].(isRead := true) else ns[i])
  }

  /** `markAllAsRead`: nothing happens without a signed-in user or when a
      call fails; otherwise every entry becomes read. */
  function MarkAllAsRead(ns: seq<Notification>, hasUser: bool, callFails: bool): (r: seq<Notification>)
    ensures !hasUser || callFails ==> r == ns
    ensures hasUser && !callFails ==> |r| == |ns| && forall i :: 0 <= i < |ns| ==> r[i] == ns[i].(isRead := true)
  {
    if !hasUser || callFails then ns
    else seq(|ns|, i requires 0 <= i < |ns| => ns[i].(isRead := true))
  }

  /** `notifications.filter(n => !n.is_read).length`. */
  function UnreadCount(ns: seq<Notification>): (n: nat)
    ensures n <= |ns|
  {
    if |ns| == 0 then 0 else (if ns[0].isRead then 0 else 1) + UnreadCount(ns[1..])
  }

  /** The number of unread entries carrying the id. */
  function UnreadWithId(ns: seq<Notification>, id: string): nat {
    if |ns| == 0 then 0 else (if !ns[0].isRead && ns[0].id == id then 1 else 0) + UnreadWithId(ns[1..], id)
  }

  /** The counter is zero exactly when everything is read. */
  lemma {:induction false} UnreadZeroIff(ns: seq<Notification>)
    ensures UnreadCount(ns) == 0 <==> forall i :: 0 <= i < |ns| ==> ns[i].isRead
  {
    if |ns| > 0 {
      UnreadZeroIff(ns[1..]);
      assert forall i :: 1 <= i < |ns| ==> ns[i] == ns[1..][i - 1];
    }
  }

  /** After a successful mark-all the counter shows 0. */
  lemma MarkAllClearsCounter(ns: seq<Notification>)
    ensures UnreadCount(MarkAllAsRead(ns, true, false)) == 0
  {
    UnreadZeroIff(MarkAllAsRead(ns, true, false));
  }

  /** Marking one id read lowers the counter by the unread entries with it. */
  lemma {:induction false} MarkAsReadCount(ns: seq<Notification>, id: string)
    ensures UnreadCount(MarkAsRead(ns, id, false)) == UnreadCount(ns) - UnreadWithId(ns, id)
  {
    if |ns| > 0 {
      var r := MarkAsRead(ns, id, false);
      assert r[1..] == MarkAsRead(ns[1..], id, false);
      MarkAsReadCount(ns[1..], id);
    }
  }

  /** Marking the same id twice is the same as once. */
  lemma MarkAsReadIdempotent(ns: seq<Notification>, id: string)
    ensures MarkAsRead(MarkAsRead(ns, id, false), id, false) == MarkAsRead(ns, id, false)
  {
  }
}

=== FILE: orders_create.dfy ===
/** `POST /api/orders/create`: a chain of validations, then the order header
    insert, then the item rows, with a compensating delete of the header
    when the items cannot be written. */
module OrdersCreate {
  import opened Wrappers
  import opened Strings
  import opened Store

  /** One element of the `items` array: a cart line as the client sends
      it, or `null`/`undefined`, on which reading `item.id` throws. */
  datatype ItemIn = ItemIn(id: string, quantity: int, price: int) | NullItem

  /** Every element of the array is an object the row mapping can read. */
  predicate AllObjects(lines: seq<ItemIn>) {
    forall i :: 0 <= i < |lines| ==> lines[i].ItemIn?
  }

  /** The `items` field: absent (or null), present but not an array, or an array. */
  datatype ItemsField = NoItems | NotAnArray | Items(lines: seq<ItemIn>)

  /** The JSON body; absent fields are `None`. */
  datatype Request = Request(
    name: Option<string>,
    email: Option<string>,
    phone: Option<string>,
    address: Option<string>,
    items: ItemsField,
    total: Option<int>,
    paymentMethod: Option<string>,
    notes: Option<string>)

  /** What the database decides when the header is inserted: the generated
      id and order number. */
  datatype Fresh = Fresh(id: string, orderNumber: string)

  /** Outcomes of the three database calls. */
  datatype Outcomes = Outcomes(headerFails: bool, itemsFail: bool, deleteFails: bool)

  /** JavaScript truthiness of the fields the first check reads. */
  predicate TruthyNumber(v: Option<int>) { v.Some? && v.value != 0 }
  predicate TruthyItems(f: ItemsField) { !f.NoItems? }

  /** A character of the class `[^\s@]`. */
  predicate Plain(c: char) { !IsJsSpace(c) && c != '@' }

  predicate AllPlain(s: string) { forall i :: 0 <= i < |s| ==> Plain(s[i]) }

  /** The strings `^[^\s@]+@[^\s@]+\.[^\s@]+$` matches, stated as the split
      the pattern describes. */
  ghost predicate EmailShape(s: string) {
    exists i, j :: SplitAt(s, i, j)
  }

  /** `s` is `a@b.c` with `a`, `b`, `c` non-empty and plain, the `@` at `i`
      and the `.` at `j`. */
  predicate SplitAt(s: string, i: int, j: int) {
    0 < i && i + 1 < j && j + 1 < |s| && s[i] == '@' && s[j] == '.'
    && AllPlain(s[..i]) && AllPlain(s[i + 1..j]) && AllPlain(s[j + 1..])
  }

  /** The check the handler runs: a non-empty local part up to the first `@`,
      then a domain with no `@` or space holding a `.` that is neither its
      first nor its last character. */
  predicate EmailOk(s: string)
    ensures EmailOk(s) ==> |s| >= 5 && forall i :: 0 <= i < |s| ==> !IsJsSpace(s[i])
  {
    var local := Before(s, '@');
    assert |local| < |s| ==> forall i :: 0 <= i < |local| ==> s[i] == local[i];
    0 < |local| < |s| && AllPlain(local) && DomainOk(s[|local| + 1..])
  }

  /** No `@` or space, and a `.` strictly inside. */
  predicate DomainOk(domain: string) {
    AllPlain(domain) && |domain| >= 3 && '.' in domain[1..|domain| - 1]
  }

  lemma EmailOkShape(s: string)
    requires EmailOk(s)
    ensures EmailShape(s)
  {
    var i := |Before(s, '@')|;
    var domain := s[i + 1..];
    var inner := domain[1..|domain| - 1];
    var k :| 0 <= k < |inner| && inner[k] == '.';
    var j := i + 2 + k;
    assert s[j] == '.';
    assert SplitAt(s, i, j) by {
      assert s[..i] == Before(s, '@');
      assert forall m :: i + 1 <= m < j ==> s[m] == domain[m - i - 1];
      assert forall m :: j + 1 <= m < |s| ==> s[m] == domain[m - i - 1];
    }
  }

  /** `Before` stops at the first occurrence of the separator. */
  lemma BeforeFirst(s: string, c: char, i: nat)
    requires i < |s| && s[i] == c && c !in s[..i]
    ensures |Before(s, c)| == i
  {
  }

  /** The domain after the `@` is plain apart from the chosen `.`. */
  lemma DomainPlain(s: string, i: nat, j: nat)
    requires i + 1 < j && j + 1 < |s| && s[j] == '.'
    requires AllPlain(s[i + 1..j]) && AllPlain(s[j + 1..])
    ensures AllPlain(s[i + 1..])
  {
    var domain := s[i + 1..];
    forall m | 0 <= m < |domain|
      ensures Plain(domain[m])
    {
      if m < j - i - 1 { assert domain[m] == s[i + 1..j][m]; }
      else if m > j - i - 1 { assert domain[m] == s[j + 1..][m - (j - i)]; }
    }
  }

  lemma SplitAtOk(s: string, i: nat, j: nat)
    requires SplitAt(s, i, j)
    ensures EmailOk(s)
  {
    assert '@' !in s[..i] by {
      forall m | 0 <= m < i ensures s[..i][m] != '@' { assert Plain(s[..i][m]); }
    }
    BeforeFirst(s, '@', i);
    DomainPlain(s, i, j);
    var domain := s[i + 1..];
    assert domain[1..|domain| - 1][j - i - 2] == '.';
    assert DomainOk(domain);
    assert Before(s, '@') == s[..i];
  }

  lemma EmailShapeOk(s: string)
    requires EmailShape(s)
    ensures EmailOk(s)
  {
    var i, j :| SplitAt(s, i, j);
    SplitAtOk(s, i, j);
  }

  /** The executable check and the pattern accept the same strings. */
  lemma EmailOkIffShape(s: string)
    ensures EmailOk(s) <==> EmailShape(s)
  {
    if EmailOk(s) { EmailOkShape(s); }
    if EmailShape(s) { EmailShapeOk(s); }
  }

  /** The first failing validation, if any, with its message. */
  function Validate(req: Request): (r: Option<string>)
    ensures r.None? <==>
      && Truthy(req.name) && Truthy(req.phone) && Truthy(req.address)
      && TruthyItems(req.items) && TruthyNumber(req.total)
      && (Truthy(req.email) ==> EmailOk(req.email.value))
      && TenDigits(req.phone.value)
      && req.items.Items? && |req.items.lines| > 0
      && req.total.value > 0
    ensures !(Truthy(req.name) && Truthy(req.phone) && Truthy(req.address)
              && TruthyItems(req.items) && TruthyNumber(req.total))
            ==> r == Some("Vui l\U{00F2}ng \U{0111}i\U{1EC1}n \U{0111}\U{1EA7}y \U{0111}\U{1EE7} th\U{00F4}ng tin")
  {
    if !(Truthy(req.name) && Truthy(req.phone) && Truthy(req.address)
         && TruthyItems(req.items) && TruthyNumber(req.total)) then
      Some("Vui l\U{00F2}ng \U{0111}i\U{1EC1}n \U{0111}\U{1EA7}y \U{0111}\U{1EE7} th\U{00F4}ng tin")
    else if Truthy(req.email) && !EmailOk(req.email.value) then
      Some("Email kh\U{00F4}ng h\U{1EE3}p l\U{1EC7}")
    else if !TenDigits(req.phone.value) then
      Some("S\U{1ED1} \U{0111}i\U{1EC7}n tho\U{1EA1}i kh\U{00F4}ng h\U{1EE3}p l\U{1EC7}")
    else if !req.items.Items? || |req.items.lines| == 0 then
      Some("Gi\U{1ECF} h\U{00E0}ng tr\U{1ED1}ng")
    else if req.total.value <= 0 then
      Some("T\U{1ED5}ng ti\U{1EC1}n kh\U{00F4}ng h\U{1EE3}p l\U{1EC7}")
    else None
  }

  /** The header row the insert writes. */
  function Header(req: Request, gen: Fresh): (o: Order)
    requires Validate(req).None?
    ensures o.status == "pending" && o.paymentStatus == "pending"
    ensures o.paymentMethod == (if req.paymentMethod.None? then "cod" else req.paymentMethod.value)
    ensures o.customerName == req.name.value && o.customerPhone == req.phone.value
    ensures o.totalAmount == req.total.value
    ensures o.customerEmail == req.email && o.shippingAddress == req.address.value && o.notes == req.notes
    ensures o.orderNumber == gen.orderNumber && o.paymentDetails.None?
  {
    var pm := req.paymentMethod.GetOr("cod");
    Order(gen.orderNumber, req.name.value, req.email, req.phone.value, req.address.value,
          req.total.value, pm, if pm == "cod" then "pending" else "pending", "pending",
          req.notes, None, None)
  }

  /** `items.map(...)`: one row per line, in order. */
  function ItemRows(orderId: string, lines: seq<ItemIn>): (r: seq<OrderItem>)
    requires AllObjects(lines)
    ensures |r| == |lines|
    ensures forall i :: 0 <= i < |lines| ==>
      r[i] == OrderItem(orderId, lines[i].id, lines[i].quantity, lines[i].price)
  {
    if |lines| == 0 then [] else [OrderItem(orderId, lines[0].id, lines[0].quantity, lines[0].price)] + ItemRows(orderId, lines[1..])
  }

  /** An error reply that leaves the tables as they are. */
  function ErrorStep(status: int, message: string, db: Db): (s: Step)
    ensures s.db == db && s.response.Json? && s.response.status == status
    ensures s.response.body == Error(message)
  {
    Step(Json(status, Error(message)), db)
  }

  /** The handler. `body` is `None` when the request body is not JSON. The
      header insert also fails when the generated id is already taken. A
      `null` element in `items` passes the validation; the row mapping then
      throws after the header is written, and the `catch` answers 500 with
      the header left in place. */
  function Create(body: Option<Request>, gen: Fresh, db: Db, out: Outcomes): (s: Step)
    ensures body.None? ==> s == ErrorStep(500, "L\U{1ED7}i server", db)
    ensures body.Some? && Validate(body.value).Some? ==> s == ErrorStep(400, Validate(body.value).value, db)
    ensures body.Some? && Validate(body.value).None? && (out.headerFails || gen.id in db.orders) ==>
      s == ErrorStep(500, "L\U{1ED7}i khi t\U{1EA1}o \U{0111}\U{01A1}n h\U{00E0}ng", db)
    ensures body.Some? && Validate(body.value).None? && !out.headerFails && gen.id !in db.orders
            && !AllObjects(body.value.items.lines) ==>
      s == ErrorStep(500, "L\U{1ED7}i server", db.(orders := db.orders[gen.id := Header(body.value, gen)]))
    ensures s.db.txns == db.txns && s.db.history == db.history && s.db.categories == db.categories
  {
    match body
    case None => ErrorStep(500, "L\U{1ED7}i server", db)
    case Some(req) =>
      match Validate(req)
      case Some(message) => ErrorStep(400, message, db)
      case None =>
        if out.headerFails || gen.id in db.orders then
          ErrorStep(500, "L\U{1ED7}i khi t\U{1EA1}o \U{0111}\U{01A1}n h\U{00E0}ng", db)
        else
          var order := Header(req, gen);
          var db1 := db.(orders := db.orders[gen.id := order]);
          if !AllObjects(req.items.lines) then ErrorStep(500, "L\U{1ED7}i server", db1)
          else if out.itemsFail then
            var db2 := if out.deleteFails then db1 else db1.(orders := db1.orders - {gen.id});
            ErrorStep(500, "L\U{1ED7}i khi t\U{1EA1}o chi ti\U{1EBF}t \U{0111}\U{01A1}n h\U{00E0}ng", db2)
          else
            Step(Json(200, OrderCreated(gen.id, order, "/order-success?orderId=" + gen.id)),
                 db1.(orderItems := db1.orderItems + ItemRows(gen.id, req.items.lines)))
  }

  /** A successful creation adds exactly the new header, pending and with the
      defaulted payment method, and one item row per cart line. */
  lemma CreateSucceeds(req: Request, gen: Fresh, db: Db, out: Outcomes)
    requires Validate(req).None? && !out.headerFails && gen.id !in db.orders && !out.itemsFail
    requires AllObjects(req.items.lines)
    ensures var s := Create(Some(req), gen, db, out);
      && s.response == Json(200, OrderCreated(gen.id, Header(req, gen), "/order-success?orderId=" + gen.id))
      && s.db.orders == db.orders[gen.id := Header(req, gen)]
      && s.db.orders[gen.id].status == "pending" && s.db.orders[gen.id].paymentStatus == "pending"
      && |s.db.orderItems| == |db.orderItems| + |req.items.lines|
      && s.db.orderItems[..|db.orderItems|] == db.orderItems
      && forall i :: 0 <= i < |req.items.lines| ==>
           s.db.orderItems[|db.orderItems| + i] ==
             OrderItem(gen.id, req.items.lines[i].id, req.items.lines[i].quantity, req.items.lines[i].price)
  {
    var s := Create(Some(req), gen, db, out);
    var rows := ItemRows(gen.id, req.items.lines);
    assert s.db.orderItems == db.orderItems + rows;
  }

  /** When the item rows cannot be written and the compensating delete goes
      through, the store is exactly as before; when the delete fails too, a
      header without items remains. */
  lemma CreateRollsBack(req: Request, gen: Fresh, db: Db, out: Outcomes)
    requires Validate(req).None? && !out.headerFails && gen.id !in db.orders && out.itemsFail
    requires AllObjects(req.items.lines)
    ensures var s := Create(Some(req), gen, db, out);
      && s.response == Json(500, Error("L\U{1ED7}i khi t\U{1EA1}o chi ti\U{1EBF}t \U{0111}\U{01A1}n h\U{00E0}ng"))
      && s.db.orderItems == db.orderItems
      && (!out.deleteFails ==> s.db == db)
      && (out.deleteFails ==> s.db.orders == db.orders[gen.id := Header(req, gen)])
  {
    var s := Create(Some(req), gen, db, out);
    if !out.deleteFails {
      assert s.db.orders == db.orders;
    }
  }

  /** A `null` cart line leaves the header without items and answers the
      generic server error, whatever the item insert would have done. */
  lemma CreateNullItemKeepsHeader(req: Request, gen: Fresh, db: Db, out: Outcomes, k: nat)
    requires Validate(req).None? && !out.headerFails && gen.id !in db.orders
    requires k < |req.items.lines| && req.items.lines[k].NullItem?
    ensures var s := Create(Some(req), gen, db, out);
      && s.response == Json(500, Error("L\U{1ED7}i server"))
      && gen.id in s.db.orders && s.db.orders[gen.id] == Header(req, gen)
      && s.db.orderItems == db.orderItems
  {
  }

  /** A rejected request writes nothing. */
  lemma CreateRejectsUnchanged(body: Option<Request>, gen: Fresh, db: Db, out: Outcomes)
    requires body.None? || Validate(body.value).Some?
    ensures var s := Create(body, gen, db, out);
      s.db == db && s.response.Json? && s.response.status in {400, 500}
  {
  }
}

=== FILE: orders_update.dfy ===
/** `POST /api/orders/update-status`: writes the new order status and derives
    the payment status, from the order status for cash-on-delivery orders
    and from the request otherwise. */
module OrdersUpdate {
  import opened Wrappers
  import opened Store

  datatype Request = Request(orderId: Option<string>, status: Option<string>, paymentStatus: Option<string>)

  /** Outcomes of the fetch and of the update. */
  datatype Outcomes = Outcomes(fetchFails: bool, updateFails: bool)

  /** The payment status written for an order paid by `paymentMethod`. */
  function DerivedPaymentStatus(paymentMethod: string, status: string, requested: Option<string>): (r: string)
    ensures paymentMethod == "cod" ==> (r == "paid" <==> status == "completed")
    ensures paymentMethod == "cod" ==> (r == "failed" <==> status == "cancelled")
    ensures paymentMethod == "cod" ==> r in {"paid", "failed", "pending"}
    ensures paymentMethod != "cod" ==> r == OrDefault(requested, "pending")
  {
    if paymentMethod == "cod" then
      if status == "completed" then "paid"
      else if status == "cancelled" then "failed"
      else "pending"
    else OrDefault(requested, "pending")
  }

  /** The row update: status as supplied, derived payment status, timestamp. */
  function Apply(o: Order, status: string, requested: Option<string>, now: string): (r: Order)
    ensures r.status == status && r.updatedAt == Some(now)
    ensures r.paymentStatus == DerivedPaymentStatus(o.paymentMethod, status, requested)
    ensures r.(status := o.status, paymentStatus := o.paymentStatus, updatedAt := o.updatedAt) == o
  {
    o.(status := status, paymentStatus := DerivedPaymentStatus(o.paymentMethod, status, requested), updatedAt := Some(now))
  }

  /** The handler; `body` is `None` when the body is not JSON and `now` is
      the ISO timestamp of the call. */
  function UpdateStatus(body: Option<Request>, now: string, db: Db, out: Outcomes): (s: Step)
    ensures body.None? ==> s == Step(Json(500, Error("Internal server error")), db)
    ensures body.Some? && !(Truthy(body.value.orderId) && Truthy(body.value.status)) ==>
      s == Step(Json(400, Error("Missing required fields")), db)
    ensures (body.Some? && Truthy(body.value.orderId) && Truthy(body.value.status)
             && (out.fetchFails || body.value.orderId.value !in db.orders)) ==>
      s == Step(Json(500, Error("Failed to fetch order")), db)
    ensures (body.Some? && Truthy(body.value.orderId) && Truthy(body.value.status)
             && !out.fetchFails && body.value.orderId.value in db.orders && out.updateFails) ==>
      s == Step(Json(500, Error("Failed to update order")), db)
    ensures (body.Some? && Truthy(body.value.orderId) && Truthy(body.value.status)
             && !out.fetchFails && body.value.orderId.value in db.orders && !out.updateFails) ==>
      var id := body.value.orderId.value;
      var o := Apply(db.orders[id], body.value.status.value, body.value.paymentStatus, now);
      s == Step(Json(200, OrderUpdated(o)), db.(orders := db.orders[id := o]))
    ensures s.response.Json? && s.response.body.OrderUpdated? ==>
      && body.Some? && body.value.orderId.Some? && body.value.status.Some?
      && var id := body.value.orderId.value;
         && id in db.orders && s.db.orders.Keys == db.orders.Keys
         && s.db.orders[id] == Apply(db.orders[id], body.value.status.value, body.value.paymentStatus, now)
         && s.response.body.order == s.db.orders[id]
         && forall k :: k in db.orders && k != id ==> s.db.orders[k] == db.orders[k]
    ensures s.db.orderItems == db.orderItems && s.db.txns == db.txns && s.db.history == db.history
  {
    match body
    case None => Step(Json(500, Error("Internal server error")), db)
    case Some(req) =>
      if !(Truthy(req.orderId) && Truthy(req.status)) then
        Step(Json(400, Error("Missing required fields")), db)
      else
        var id := req.orderId.value;
        if out.fetchFails || id !in db.orders then Step(Json(500, Error("Failed to fetch order")), db)
        else if out.updateFails then Step(Json(500, Error("Failed to update order")), db)
        else
          var o := Apply(db.orders[id], req.status.value, req.paymentStatus, now);
          Step(Json(200, OrderUpdated(o)), db.(orders := db.orders[id := o]))
  }

  /** For a cash-on-delivery order the client's payment status has no effect. */
  lemma CodIgnoresRequested(status: string, p: Option<string>, q: Option<string>)
    ensures DerivedPaymentStatus("cod", status, p) == DerivedPaymentStatus("cod", status, q)
  {
  }

  /** Any order reaches `paid` only when it is cash on delivery and completed,
      or when the client asks for `paid`. */
  lemma PaidOnlyWhen(paymentMethod: string, status: string, requested: Option<string>)
    ensures DerivedPaymentStatus(paymentMethod, status, requested) == "paid" <==>
      (paymentMethod == "cod" && status == "completed")
      || (paymentMethod != "cod" && requested == Some("paid"))
  {
  }

  /** The handler answers with the updated order exactly when the body has an
      id and a status, the order exists, and neither call fails. */
  lemma UpdateSucceedsIff(body: Option<Request>, now: string, db: Db, out: Outcomes)
    ensures var s := UpdateStatus(body, now, db, out);
      (s.response.Json? && s.response.body.OrderUpdated?) <==>
        && body.Some? && Truthy(body.value.orderId) && Truthy(body.value.status)
        && body.value.orderId.value in db.orders && !out.fetchFails && !out.updateFails
  {
  }

  /** Every path other than success leaves the store as it was. */
  lemma UpdateFailsUnchanged(body: Option<Request>, now: string, db: Db, out: Outcomes)
    ensures var s := UpdateStatus(body, now, db, out);
      !(s.response.Json? && s.response.body.OrderUpdated?) ==> s.db == db
  {
  }
}

=== FILE: payment_route.dfy ===
/** `POST /api/payment/vnpay`: looks the order up, builds the VNPay
    parameters, signs them with the library, records a pending transaction
    and returns the payment URL. */
module PaymentRoute {
  import opened Wrappers
  import opened Strings
  import opened Entries
  import VNPay
  import opened Store

  const DefaultReturnUrl := "http://localhost:3000/payment/vnpay-return"
  const SandboxUrl := "https://sandbox.vnpayment.vn/paymentv2/vpcpay.html"

  /** The four `VNPAY_*` environment variables, each possibly unset. */
  datatype Env = Env(tmnCode: Option<string>, hashSecret: Option<string>, url: Option<string>, returnUrl: Option<string>)

  /** The library's configuration, read with `|| ''` for every variable. */
  function LibConfig(env: Env): (cfg: VNPay.Config)
    ensures cfg.hashSecret == OrDefault(env.hashSecret, "") && cfg.url == OrDefault(env.url, "")
  {
    VNPay.Config(OrDefault(env.tmnCode, ""), OrDefault(env.hashSecret, ""), OrDefault(env.url, ""), OrDefault(env.returnUrl, ""))
  }

  /** The request body; both fields may be missing. */
  datatype PayRequest = PayRequest(orderId: Option<string>, amount: Option<int>)

  /** The names of the `vnpParams` object, in order. */
  const ParamNames: seq<string> := [
    "vnp_Version", "vnp_Command", "vnp_TmnCode", "vnp_Locale", "vnp_CurrCode", "vnp_TxnRef",
    "vnp_OrderInfo", "vnp_OrderType", "vnp_Amount", "vnp_ReturnUrl", "vnp_CreateDate", "vnp_IpAddr" ]

  /** The order description: a fixed Vietnamese prefix, then the order number. */
  function OrderInfo(order: Order): (r: string)
    ensures |r| == 20 + |order.orderNumber|
    ensures r[..20] == "Thanh toan don hang " && r[20..] == order.orderNumber
  {
    "Thanh toan don hang " + order.orderNumber
  }

  function ParamValues(env: Env, orderId: string, order: Order, amount: Option<int>, epochMs: nat): (vs: seq<string>)
    ensures |vs| == 12
    ensures vs[0] == "2.1.0" && vs[1] == "pay" && vs[3] == "vn" && vs[4] == "VND" && vs[7] == "other"
    ensures vs[5] == orderId && vs[6] == OrderInfo(order) && vs[8] == VNPay.AmountString(amount)
    ensures vs[9] == OrDefault(env.returnUrl, DefaultReturnUrl) && vs[10] == NatToString(epochMs)
    ensures vs[11] == "127.0.0.1"
  {
    [ "2.1.0", "pay", OrDefault(env.tmnCode, ""), "vn", "VND", orderId, OrderInfo(order), "other",
      VNPay.AmountString(amount), OrDefault(env.returnUrl, DefaultReturnUrl), NatToString(epochMs), "127.0.0.1" ]
  }

  /** The `vnpParams` object handed to `createVNPayUrl`. */
  function Params(env: Env, orderId: string, order: Order, amount: Option<int>, epochMs: nat): (ps: seq<Entry>)
    ensures |ps| == 12 && DistinctKeys(ps)
    ensures forall i :: 0 <= i < 12 ==> ps[i] == (ParamNames[i], ParamValues(env, orderId, order, amount, epochMs)[i])
  {
    ParamNamesDistinct();
    ZipKeys(ParamNames, ParamValues(env, orderId, order, amount, epochMs), "");
    Zip(ParamNames, ParamValues(env, orderId, order, amount, epochMs))
  }

  /** The pending transaction row recorded before the URL is returned. */
  function PendingTxn(env: Env, orderId: string, order: Order, amount: Option<int>, epochMs: nat): (t: Txn)
    ensures t.orderId == orderId && t.txnRef == orderId && t.amount == amount && t.status == "pending"
    ensures t.createDate == NatToString(epochMs) && t.orderInfo == OrderInfo(order)
    ensures t.responseCode.None? && t.responseMessage.None?
  {
    Txn(orderId, orderId, amount, "pay", NatToString(epochMs), "VND", "127.0.0.1", "vn",
        OrderInfo(order), "other", OrDefault(env.returnUrl, DefaultReturnUrl), OrDefault(env.tmnCode, ""), "2.1.0",
        OrDefault(env.hashSecret, ""), OrDefault(env.url, SandboxUrl), "pending", None, None)
  }

  /** The handler. `body` is `None` when the request body is not JSON;
      `lookupFails` and `insertFails` are the outcomes of the two database
      calls. */
  function PayVNPay(env: Env, hmac: VNPay.Hmac, body: Option<PayRequest>, epochMs: nat, db: Db,
                    lookupFails: bool, insertFails: bool): (s: Step)
    ensures body.None? ==> s == Step(Json(500, Error("Internal server error")), db)
    ensures body.Some? && (lookupFails || FindOrder(db, body.value.orderId).None?) ==>
      s == Step(Json(404, Error("Order not found")), db)
    ensures body.Some? && !lookupFails && FindOrder(db, body.value.orderId).Some? ==>
      var id := body.value.orderId.value;
      var amount := body.value.amount;
      var order := db.orders[id];
      && (insertFails ==> s == Step(Json(500, Error("Failed to create transaction")), db))
      && (!insertFails ==>
            s == Step(Json(200, PaymentUrl(VNPay.CreateVNPayUrl(LibConfig(env), hmac, Params(env, id, order, amount, epochMs)))),
                      db.(txns := db.txns + [PendingTxn(env, id, order, amount, epochMs)])))
  {
    match body
    case None => Step(Json(500, Error("Internal server error")), db)
    case Some(req) =>
      var found := FindOrder(db, req.orderId);
      if lookupFails || found.None? then Step(Json(404, Error("Order not found")), db)
      else
        var id := req.orderId.value;
        var url := VNPay.CreateVNPayUrl(LibConfig(env), hmac, Params(env, id, found.value, req.amount, epochMs));
        if insertFails then Step(Json(500, Error("Failed to create transaction")), db)
        else Step(Json(200, PaymentUrl(url)), db.(txns := db.txns + [PendingTxn(env, id, found.value, req.amount, epochMs)]))
  }

  lemma ParamNamesDistinct()
    ensures forall i, j :: 0 <= i < j < |ParamNames| ==> ParamNames[i] != ParamNames[j]
  {
  }

  lemma HashNamesFresh()
    ensures VNPay.SecureHash !in ParamNames && VNPay.SecureHashType !in ParamNames
  {
  }

  /** A reply of 200 carries a URL whose query, handed back unchanged,
      passes the library's verification: the handler's parameters have
      distinct keys and neither hash field. */
  lemma PaymentUrlVerifies(env: Env, orderId: string, order: Order, amount: Option<int>, epochMs: nat, hmac: VNPay.Hmac)
    ensures var ps := Params(env, orderId, order, amount, epochMs);
      VNPay.VerifyVNPayResponse(LibConfig(env), hmac, VNPay.SignedQuery(LibConfig(env), hmac, ps)).valid
  {
    var vs := ParamValues(env, orderId, order, amount, epochMs);
    ParamNamesDistinct();
    HashNamesFresh();
    ZipKeys(ParamNames, vs, VNPay.SecureHash);
    ZipKeys(ParamNames, vs, VNPay.SecureHashType);
    VNPay.SignVerifyRoundTrip(LibConfig(env), hmac, Params(env, orderId, order, amount, epochMs));
  }

  /** The signed parameters carry the order id as transaction reference, the
      amount scaled by 100, and the clock in milliseconds as creation date. */
  lemma SignedParamValues(env: Env, orderId: string, order: Order, amount: Option<int>, epochMs: nat)
    ensures var ps := Params(env, orderId, order, amount, epochMs);
      && Lookup(ps, "vnp_TxnRef") == Some(orderId)
      && Lookup(ps, "vnp_Amount") == Some(VNPay.AmountString(amount))
      && Lookup(ps, "vnp_CreateDate") == Some(NatToString(epochMs))
  {
    var vs := ParamValues(env, orderId, order, amount, epochMs);
    var ps := Params(env, orderId, order, amount, epochMs);
    ParamNamesDistinct();
    ZipKeys(ParamNames, vs, "");
    LookupDistinct(ps, ParamNames[5], vs[5]);
    LookupDistinct(ps, ParamNames[8], vs[8]);
    LookupDistinct(ps, ParamNames[10], vs[10]);
  }
}

=== FILE: product_listing.dfy ===
/** The product listing page: the category check-boxes, the query the
    filters build, and the reset button. */
module ProductListing {

  /** `handleCategoryChange`: an id already selected is removed (every copy),
      otherwise it is appended. */
  function Toggle(selected: seq<string>, id: string): (r: seq<string>)
    ensures id in selected ==> id !in r && forall x :: x != id ==> (x in r <==> x in selected)
    ensures id !in selected ==> r == selected + [id]
  {
    if id in selected then Without(selected, id) else selected + [id]
  }

  /** `filter(x => x !== id)`. */
  function Without(xs: seq<string>, id: string): (r: seq<string>)
    ensures forall x :: x in r <==> x in xs && x != id
    ensures |r| <= |xs|
  {
    if |xs| == 0 then []
    else (if xs[0] != id then [xs[0]] else []) + Without(xs[1..], id)
  }

  /** Toggling twice restores the selected set; an id that was not selected
      leaves the very same list. */
  lemma ToggleTwice(selected: seq<string>, id: string)
    ensures forall x :: x in Toggle(Toggle(selected, id), id) <==> x in selected
    ensures id !in selected ==> Toggle(Toggle(selected, id), id) == selected
  {
    if id !in selected {
      WithoutAbsent(selected, id);
      WithoutAppended(selected, id);
    }
  }

  lemma {:induction false} WithoutAbsent(xs: seq<string>, id: string)
    requires id !in xs
    ensures Without(xs, id) == xs
  {
    if |xs| > 0 {
      assert xs == [xs[0]] + xs[1..];
      WithoutAbsent(xs[1..], id);
    }
  }

  lemma {:induction false} WithoutAppended(xs: seq<string>, id: string)
    ensures Without(xs + [id], id) == Without(xs, id)
  {
    if |xs| == 0 {
      assert xs + [id] == [id];
    } else {
      assert (xs + [id])[1..] == xs[1..] + [id];
      WithoutAppended(xs[1..], id);
    }
  }

  /** The filters the page can put on the products query. */
  datatype Filter =
    | CategoryIn(ids: seq<string>)
    | NameLike(pattern: string)
    | PriceBetween(low: int, high: int)

  datatype Ordering = Ordering(column: string, ascending: bool)

  datatype Query = Query(filters: seq<Filter>, ordering: Ordering)

  /** The page's filter state; the price range is in slider units. */
  datatype FilterState = FilterState(selected: seq<string>, priceLow: int, priceHigh: int, term: string, sortBy: string)

  /** `fetchProducts`: each filter is added only when it narrows anything. */
  function BuildQuery(st: FilterState): (q: Query)
    ensures CategoryIn(st.selected) in q.filters <==> |st.selected| > 0
    ensures NameLike("%" + st.term + "%") in q.filters <==> st.term != ""
    ensures (PriceBetween(st.priceLow * 10000, st.priceHigh * 10000) in q.filters) <==>
              (st.priceLow != 0 || st.priceHigh != 1000)
    ensures forall f :: f in q.filters && f.PriceBetween? ==> f == PriceBetween(st.priceLow * 10000, st.priceHigh * 10000)
    ensures forall f :: f in q.filters && f.CategoryIn? ==> f == CategoryIn(st.selected)
    ensures forall f :: f in q.filters && f.NameLike? ==> f == NameLike("%" + st.term + "%")
    ensures q.ordering == SortOrder(st.sortBy)
  {
    var cat := if |st.selected| > 0 then [CategoryIn(st.selected)] else [];
    var name := if st.term != "" then [NameLike("%" + st.term + "%")] else [];
    var price := if st.priceLow != 0 || st.priceHigh != 1000
      then [PriceBetween(st.priceLow * 10000, st.priceHigh * 10000)] else [];
    var fs := cat + name + price;
    assert forall f :: f in fs <==> f in cat || f in name || f in price;
    Query(fs, SortOrder(st.sortBy))
  }

  /** The `switch (sortBy)`. */
  function SortOrder(sortBy: string): (o: Ordering)
    ensures o.column == "price" <==> sortBy == "price-asc" || sortBy == "price-desc"
    ensures o.column == (if sortBy == "price-asc" || sortBy == "price-desc" then "price" else "created_at")
    ensures o.ascending <==> sortBy == "price-asc"
  {
    if sortBy == "price-asc" then Ordering("price", true)
    else if sortBy == "price-desc" then Ordering("price", false)
    else Ordering("created_at", false)
  }

  /** `resetFilters`. */
  const Reset := FilterState([], 0, 1000, "", "featured")

  /** After a reset the query has no filter and lists the newest first. */
  lemma ResetQuery()
    ensures BuildQuery(Reset) == Query([], Ordering("created_at", false))
  {
  }
}

=== FILE: seqs.dfy ===
/** Order-preserving sub-lists: what every `filter` on the pages returns. */
module Seqs {

  /** The entries of `xs` whose flag in `keep` is set, in their order. */
  function Kept<T>(xs: seq<T>, keep: seq<bool>): (r: seq<T>)
    requires |keep| == |xs|
    ensures |r| <= |xs|
  {
    if |xs| == 0 then [] else (if keep[0] then [xs[0]] else []) + Kept(xs[1..], keep[1..])
  }

  /** Where the `j`-th kept entry sits in `xs`. */
  function KeptPosition<T>(xs: seq<T>, keep: seq<bool>, j: nat): (p: nat)
    requires |keep| == |xs| && j < |Kept(xs, keep)|
    ensures p < |xs| && keep[p] && xs[p] == Kept(xs, keep)[j]
    decreases |xs|
  {
    if keep[0] then
      if j == 0 then 0 else 1 + KeptPosition(xs[1..], keep[1..], j - 1)
    else 1 + KeptPosition(xs[1..], keep[1..], j)
  }

  /** With every flag set, the `j`-th kept entry is the `j`-th entry. */
  lemma {:induction false} KeptAllPosition<T>(xs: seq<T>, keep: seq<bool>, j: nat)
    requires |keep| == |xs| && forall i :: 0 <= i < |keep| ==> keep[i]
    requires j < |Kept(xs, keep)|
    ensures KeptPosition(xs, keep, j) == j
    decreases |xs|
  {
    if j > 0 {
      KeptAllPosition(xs[1..], keep[1..], j - 1);
    }
  }

  /** `r` is `xs` with some entries left out, the rest in order. */
  ghost predicate SubSequence<T>(r: seq<T>, xs: seq<T>) {
    exists keep: seq<bool> :: |keep| == |xs| && r == Kept(xs, keep)
  }
}

=== FILE: store.dfy ===
/** The hosted database as the route handlers see it, and the HTTP responses
    they return. Each database call a handler makes is modelled by the change
    it makes to this record, plus a per-call failure flag supplied by the
    caller. */
module Store {
  import opened Wrappers

  /** The `payment_details` JSON column; an undefined transaction number is
      dropped when the object is serialised. */
  datatype PaymentDetails = PaymentDetails(transactionNo: Option<string>, paymentDate: string)

  /** A row of `orders`. Columns a handler leaves undefined are `None`. */
  datatype Order = Order(
    orderNumber: string,
    customerName: string,
    customerEmail: Option<string>,
    customerPhone: string,
    shippingAddress: string,
    totalAmount: int,
    paymentMethod: string,
    paymentStatus: string,
    status: string,
    notes: Option<string>,
    paymentDetails: Option<PaymentDetails>,
    updatedAt: Option<string>)

  /** A row of `order_items`. */
  datatype OrderItem = OrderItem(orderId: string, productId: string, quantity: int, price: int)

  /** A row of `vnpay_transactions`. */
  datatype Txn = Txn(
    orderId: string,
    txnRef: string,
    amount: Option<int>,
    command: string,
    createDate: string,
    currCode: string,
    ipAddr: string,
    locale: string,
    orderInfo: string,
    orderType: string,
    returnUrl: string,
    tmnCode: string,
    version: string,
    hashSecret: string,
    vnpUrl: string,
    status: string,
    responseCode: Option<string>,
    responseMessage: Option<string>)

  /** A row of `payment_history`; `amount` is `None` when the parsed amount is
      not a number (stored as null). */
  datatype HistoryRow = HistoryRow(
    orderId: Option<string>,
    paymentMethodId: Option<string>,
    amount: Option<real>,
    status: string,
    transactionId: Option<string>,
    details: seq<(string, string)>)

  /** A row of `payment_methods`. */
  datatype PaymentMethod = PaymentMethod(id: string, code: string)

  /** A row of `categories`. */
  datatype Category = Category(
    id: string, name: string, description: string, slug: string, imageUrl: string, displayOrder: int)

  datatype Db = Db(
    orders: map<string, Order>,
    orderItems: seq<OrderItem>,
    txns: seq<Txn>,
    history: seq<HistoryRow>,
    paymentMethods: seq<PaymentMethod>,
    categories: seq<Category>)

  datatype Body =
    | PaymentUrl(url: string)
    | Error(message: string)
    | OrderCreated(orderId: string, order: Order, redirect: string)
    | OrderUpdated(order: Order)
    | CategoryList(data: seq<Category>)

  datatype Response = Json(status: int, body: Body) | Redirect(location: string)

  /** A handler's reply together with the database it leaves behind. */
  datatype Step = Step(response: Response, db: Db)

  /** `.update(...).eq('id', id)` on `orders`: the row with that id, if any,
      is rewritten by `f`; a missing id matches no row. */
  function UpdateOrder(db: Db, id: Option<string>, f: Order -> Order): (r: Db)
    ensures r.orderItems == db.orderItems && r.txns == db.txns && r.history == db.history
    ensures r.paymentMethods == db.paymentMethods && r.categories == db.categories
    ensures r.orders.Keys == db.orders.Keys
    ensures forall k :: k in db.orders && Some(k) != id ==> r.orders[k] == db.orders[k]
    ensures id.Some? && id.value in db.orders ==> r.orders[id.value] == f(db.orders[id.value])
  {
    if id.Some? && id.value in db.orders then db.(orders := db.orders[id.value := f(db.orders[id.value])])
    else db
  }

  /** The order a filter on `id` finds with `.single()`: none when the id is
      missing or no row has it. */
  function FindOrder(db: Db, id: Option<string>): (r: Option<Order>)
    ensures r.Some? <==> id.Some? && id.value in db.orders
    ensures r.Some? ==> r.value == db.orders[id.value]
  {
    if id.Some? && id.value in db.orders then Some(db.orders[id.value]) else None
  }

  /** `v || d` for a possibly undefined string, such as `process.env.X || d`:
      an unset or empty value gives the default. */
  function OrDefault(v: Option<string>, d: string): (r: string)
    ensures v.Some? && v.value != "" ==> r == v.value
    ensures v.None? || v.value == "" ==> r == d
  {
    if v.Some? && v.value != "" then v.value else d
  }

  /** JavaScript template rendering of a possibly undefined string. */
  function Render(v: Option<string>): (r: string)
    ensures v.Some? ==> r == v.value
    ensures v.None? ==> r == "undefined"
  {
    match v
    case Some(s) => s
    case None => "undefined"
  }
}

=== FILE: store_settings.dfy ===
/** The admin store-settings page: the single `store_settings` row with id
    `default_settings`, the per-field edit helpers, and the defaulting applied
    when the row is saved. A text field that the database returned as null is
    `None`; a number field is `None` when it is null or when `Number(...)` of
    the input was not a number (NaN), both of which are falsy. */
module StoreSettings {
  import opened Wrappers

  datatype Hours = Hours(open: Option<string>, close: Option<string>)

  datatype Settings = Settings(
    id: string,
    storeName: Option<string>,
    storeDescription: Option<string>,
    contactEmail: Option<string>,
    contactPhone: Option<string>,
    address: Option<string>,
    currency: Option<string>,
    taxRate: Option<real>,
    shippingFee: Option<real>,
    freeShippingThreshold: Option<real>,
    businessHours: Option<map<string, Hours>>,
    socialMedia: Option<map<string, string>>,
    notificationSettings: Option<map<string, bool>>)

  const SettingsId := "default_settings"

  const Days: set<string> :=
    {"monday", "tuesday", "wednesday", "thursday", "friday", "saturday", "sunday"}

  const DefaultHours: map<string, Hours> :=
    map d | d in Days :: Hours(Some("09:00"), Some("18:00"))

  const DefaultSocial: map<string, string> :=
    map["facebook" := "", "instagram" := "", "twitter" := ""]

  const DefaultNotifications: map<string, bool> :=
    map["order_confirmation" := true, "shipping_updates" := true, "promotional_emails" := true]

  /** The record the page starts from and falls back to. */
  const Defaults := Settings(
    SettingsId, Some(""), Some(""), Some(""), Some(""), Some(""), Some("VND"),
    Some(10.0), Some(0.0), Some(0.0),
    Some(DefaultHours), Some(DefaultSocial), Some(DefaultNotifications))

  const SavedMessage := "\U{0110}\U{00E3} l\U{01B0}u c\U{00E0}i \U{0111}\U{1EB7}t th\U{00E0}nh c\U{00F4}ng!"
  const SaveErrorMessage := "L\U{1ED7}i khi l\U{01B0}u c\U{00E0}i \U{0111}\U{1EB7}t. Vui l\U{00F2}ng th\U{1EED} l\U{1EA1}i."

  predicate TruthyNumber(v: Option<real>) {
    v.Some? && v.value != 0.0
  }

  /** `v || d` for a text field. */
  function TextOr(v: Option<string>, d: string): (r: Option<string>)
    ensures r.Some?
    ensures Truthy(v) ==> r == v
    ensures !Truthy(v) ==> r == Some(d)
  {
    if Truthy(v) then v else Some(d)
  }

  /** `v || d` for a number field. */
  function NumberOr(v: Option<real>, d: real): (r: Option<real>)
    ensures r.Some?
    ensures TruthyNumber(v) ==> r == v
    ensures !TruthyNumber(v) ==> r == Some(d)
  {
    if TruthyNumber(v) then v else Some(d)
  }

  /** Every field of a saved record is present. */
  predicate Complete(s: Settings) {
    s.storeName.Some? && s.storeDescription.Some? && s.contactEmail.Some?
    && s.contactPhone.Some? && s.address.Some? && s.currency.Some?
    && s.taxRate.Some? && s.shippingFee.Some? && s.freeShippingThreshold.Some?
    && s.businessHours.Some? && s.socialMedia.Some? && s.notificationSettings.Some?
  }

  /** The record `handleSaveSettings` sends to the upsert: every field is
      present, the currency is never empty, and the tax rate is never zero, so
      a rate of 0 typed by the admin is stored as 10. */
  function ToSave(s: Settings): (r: Settings)
    ensures r.id == s.id
    ensures Complete(r) && r.currency.value != "" && r.taxRate.value != 0.0
    ensures r.currency == (if Truthy(s.currency) then s.currency else Some("VND"))
    ensures r.taxRate == (if TruthyNumber(s.taxRate) then s.taxRate else Some(10.0))
    ensures r.shippingFee == (if TruthyNumber(s.shippingFee) then s.shippingFee else Some(0.0))
    ensures r.freeShippingThreshold ==
              (if TruthyNumber(s.freeShippingThreshold) then s.freeShippingThreshold else Some(0.0))
    ensures r.businessHours == (if s.businessHours.Some? then s.businessHours else Some(DefaultHours))
  {
    var t := WithScalarDefaults(s);
    t.(businessHours := if s.businessHours.Some? then s.businessHours else Some(DefaultHours),
       socialMedia := if s.socialMedia.Some? then s.socialMedia else Some(DefaultSocial),
       notificationSettings :=
         if s.notificationSettings.Some? then s.notificationSettings else Some(DefaultNotifications))
  }

  /** The text and number fields of `ToSave`; the object fields are kept. */
  function WithScalarDefaults(s: Settings): (r: Settings)
    ensures r.id == s.id && r.businessHours == s.businessHours
    ensures r.socialMedia == s.socialMedia && r.notificationSettings == s.notificationSettings
    ensures r.storeName.Some? && r.storeDescription.Some? && r.contactEmail.Some?
    ensures r.contactPhone.Some? && r.address.Some? && r.currency.Some? && r.currency.value != ""
    ensures r.taxRate.Some? && r.taxRate.value != 0.0 && r.shippingFee.Some? && r.freeShippingThreshold.Some?
    ensures Truthy(s.storeName) ==> r.storeName == s.storeName
    ensures Truthy(s.storeDescription) ==> r.storeDescription == s.storeDescription
    ensures Truthy(s.contactEmail) ==> r.contactEmail == s.contactEmail
    ensures Truthy(s.contactPhone) ==> r.contactPhone == s.contactPhone
    ensures Truthy(s.address) ==> r.address == s.address
  {
    s.(storeName := TextOr(s.storeName, ""),
       storeDescription := TextOr(s.storeDescription, ""),
       contactEmail := TextOr(s.contactEmail, ""),
       contactPhone := TextOr(s.contactPhone, ""),
       address := TextOr(s.address, ""),
       currency := TextOr(s.currency, "VND"),
       taxRate := NumberOr(s.taxRate, 10.0),
       shippingFee := NumberOr(s.shippingFee, 0.0),
       freeShippingThreshold := NumberOr(s.freeShippingThreshold, 0.0))
  }

  /** The five free-text fields are sent as typed, or as `''` when empty. */
  lemma ToSaveText(s: Settings)
    ensures var r := ToSave(s);
      && r.storeName == (if Truthy(s.storeName) then s.storeName else Some(""))
      && r.storeDescription == (if Truthy(s.storeDescription) then s.storeDescription else Some(""))
      && r.contactEmail == (if Truthy(s.contactEmail) then s.contactEmail else Some(""))
      && r.contactPhone == (if Truthy(s.contactPhone) then s.contactPhone else Some(""))
      && r.address == (if Truthy(s.address) then s.address else Some(""))
  {
  }

  /** The social links and the notification switches are sent as loaded, or
      as the page's defaults when the record has none. */
  lemma ToSaveObjects(s: Settings)
    ensures var r := ToSave(s);
      && r.socialMedia == (if s.socialMedia.Some? then s.socialMedia else Some(DefaultSocial))
      && r.notificationSettings ==
           (if s.notificationSettings.Some? then s.notificationSettings else Some(DefaultNotifications))
  {
  }

  /** Saving twice sends the same record as saving once. */
  lemma ToSaveIdempotent(s: Settings)
    ensures ToSave(ToSave(s)) == ToSave(s)
  {
  }

  /** A record whose every field is already truthy is sent unchanged. */
  lemma ToSaveKeepsTruthy(s: Settings)
    requires Truthy(s.storeName) && Truthy(s.storeDescription) && Truthy(s.contactEmail)
    requires Truthy(s.contactPhone) && Truthy(s.address) && Truthy(s.currency)
    requires TruthyNumber(s.taxRate) && TruthyNumber(s.shippingFee) && TruthyNumber(s.freeShippingThreshold)
    requires s.businessHours.Some? && s.socialMedia.Some? && s.notificationSettings.Some?
    ensures ToSave(s) == s
  {
  }

  /** The rows of the table whose id is `id`. */
  function WithId(rows: seq<Settings>, id: string): (r: seq<Settings>)
    ensures |r| <= |rows|
    ensures forall x :: x in r <==> x in rows && x.id == id
  {
    if |rows| == 0 then []
    else (if rows[0].id == id then [rows[0]] else []) + WithId(rows[1..], id)
  }

  /** `.upsert(record, { onConflict: 'id' })`: the row with the record's id is
      replaced, or the record is appended when there is none. */
  function Upsert(rows: seq<Settings>, s: Settings): (r: seq<Settings>)
    ensures s in r
    ensures forall x :: x in r ==> x == s || x in rows
    ensures forall x :: x in rows && x.id != s.id ==> x in r
  {
    if |rows| == 0 then [s]
    else if rows[0].id == s.id then [s] + rows[1..]
    else [rows[0]] + Upsert(rows[1..], s)
  }

  /** After an upsert into a table holding at most one row per id, exactly
      the upserted record has its id, and other ids select what they did. */
  lemma {:induction false} UpsertWithId(rows: seq<Settings>, s: Settings, id: string)
    requires |WithId(rows, s.id)| <= 1
    ensures WithId(Upsert(rows, s), id) == if id == s.id then [s] else WithId(rows, id)
  {
    if |rows| == 0 {
    } else if rows[0].id == s.id {
      assert Upsert(rows, s) == [s] + rows[1..];
      assert WithId(rows, s.id) == [rows[0]] + WithId(rows[1..], s.id);
      assert WithId(Upsert(rows, s), id) == (if id == s.id then [s] else []) + WithId(rows[1..], id);
      if id == s.id {
        assert |WithId(rows[1..], s.id)| == 0;
      }
    } else {
      assert WithId(rows, s.id) == WithId(rows[1..], s.id);
      UpsertWithId(rows[1..], s, id);
      assert Upsert(rows, s)[1..] == Upsert(rows[1..], s);
    }
  }

  /** `fetchSettings`: `.single()` on id `default_settings` yields the row when
      exactly one row has that id; an error (no row, several rows, or a thrown
      request) falls back to the defaults. */
  function Fetch(rows: seq<Settings>, requestFails: bool): (r: Settings)
    ensures requestFails ==> r == Defaults
    ensures !requestFails && |WithId(rows, SettingsId)| == 1 ==> r in rows && r.id == SettingsId
    ensures |WithId(rows, SettingsId)| != 1 ==> r == Defaults
  {
    var found := WithId(rows, SettingsId);
    if requestFails || |found| != 1 then Defaults
    else
      assert found[0] in found;
      found[0]
  }

  /** `handleSaveSettings`: the table after the upsert and the message shown. */
  function Save(s: Settings, rows: seq<Settings>, upsertFails: bool): (r: (seq<Settings>, string))
    ensures upsertFails ==> r == (rows, SaveErrorMessage)
    ensures !upsertFails ==> r.1 == SavedMessage && ToSave(s) in r.0
  {
    if upsertFails then (rows, SaveErrorMessage) else (Upsert(rows, ToSave(s)), SavedMessage)
  }

  /** Reloading the page after a successful save shows the defaulted record. */
  lemma SaveThenFetch(s: Settings, rows: seq<Settings>)
    requires s.id == SettingsId
    requires |WithId(rows, SettingsId)| <= 1
    ensures Fetch(Save(s, rows, false).0, false) == ToSave(s)
  {
    UpsertWithId(rows, ToSave(s), SettingsId);
  }

  datatype TextField = StoreName | StoreDescription | ContactEmail | ContactPhone | Address | Currency
  datatype NumberField = TaxRate | ShippingFee | FreeShippingThreshold

  function GetText(s: Settings, f: TextField): Option<string> {
    match f
    case StoreName => s.storeName
    case StoreDescription => s.storeDescription
    case ContactEmail => s.contactEmail
    case ContactPhone => s.contactPhone
    case Address => s.address
    case Currency => s.currency
  }

  function GetNumber(s: Settings, f: NumberField): Option<real> {
    match f
    case TaxRate => s.taxRate
    case ShippingFee => s.shippingFee
    case FreeShippingThreshold => s.freeShippingThreshold
  }

  /** `handleInputChange(field, e.target.value)` for a text input. */
  function SetText(s: Settings, f: TextField, v: string): (r: Settings)
    ensures GetText(r, f) == Some(v)
    ensures forall g :: g != f ==> GetText(r, g) == GetText(s, g)
    ensures forall g :: GetNumber(r, g) == GetNumber(s, g)
    ensures r.id == s.id && r.businessHours == s.businessHours
    ensures r.socialMedia == s.socialMedia && r.notificationSettings == s.notificationSettings
  {
    match f
    case StoreName => s.(storeName := Some(v))
    case StoreDescription => s.(storeDescription := Some(v))
    case ContactEmail => s.(contactEmail := Some(v))
    case ContactPhone => s.(contactPhone := Some(v))
    case Address => s.(address := Some(v))
    case Currency => s.(currency := Some(v))
  }

  /** `handleInputChange(field, Number(e.target.value))`; `None` is NaN. */
  function SetNumber(s: Settings, f: NumberField, v: Option<real>): (r: Settings)
    ensures GetNumber(r, f) == v
    ensures forall g :: g != f ==> GetNumber(r, g) == GetNumber(s, g)
    ensures forall g :: GetText(r, g) == GetText(s, g)
    ensures r.id == s.id && r.businessHours == s.businessHours
    ensures r.socialMedia == s.socialMedia && r.notificationSettings == s.notificationSettings
  {
    match f
    case TaxRate => s.(taxRate := v)
    case ShippingFee => s.(shippingFee := v)
    case FreeShippingThreshold => s.(freeShippingThreshold := v)
  }

  /** Clearing the tax-rate input (`Number("")` is 0) and saving stores 10. */
  lemma ClearedTaxRateSavesTen(s: Settings)
    ensures ToSave(SetNumber(s, TaxRate, Some(0.0))).taxRate == Some(10.0)
  {
  }

  datatype HourField = Open | Close

  /** `handleBusinessHoursChange(day, field, value)`. Spreading a missing day
      gives an entry holding only the edited field; reading a day of a null
      `business_hours` throws, which is `None`. */
  function ChangeHours(s: Settings, day: string, f: HourField, v: string): (r: Option<Settings>)
    ensures r.Some? <==> s.businessHours.Some?
    ensures r.Some? ==> r.value.businessHours.Some?
    ensures r.Some? ==> r.value == s.(businessHours := r.value.businessHours)
    ensures r.Some? ==> r.value.businessHours.value.Keys == s.businessHours.value.Keys + {day}
    ensures r.Some? ==> forall d :: d in s.businessHours.value && d != day ==>
              r.value.businessHours.value[d] == s.businessHours.value[d]
    ensures r.Some? ==> var h := r.value.businessHours.value[day];
              (if f == Open then h.open else h.close) == Some(v)
    ensures r.Some? ==> var h := r.value.businessHours.value[day];
              var old_ := if day in s.businessHours.value then s.businessHours.value[day] else Hours(None, None);
              (if f == Open then h.close == old_.close else h.open == old_.open)
  {
    match s.businessHours
    case None => None
    case Some(bh) =>
      var prev := if day in bh then bh[day] else Hours(None, None);
      var h := if f == Open then prev.(open := Some(v)) else prev.(close := Some(v));
      Some(s.(businessHours := Some(bh[day := h])))
  }

  /** `handleSocialMediaChange(platform, value)`: only that platform changes;
      a null map is spread as an empty one. */
  function ChangeSocial(s: Settings, platform: string, v: string): (r: Settings)
    ensures r == s.(socialMedia := r.socialMedia)
    ensures r.socialMedia.Some? && platform in r.socialMedia.value
    ensures r.socialMedia.value[platform] == v
    ensures forall p :: p != platform ==>
              (p in r.socialMedia.value <==> s.socialMedia.Some? && p in s.socialMedia.value)
    ensures forall p :: p != platform && s.socialMedia.Some? && p in s.socialMedia.value ==>
              r.socialMedia.value[p] == s.socialMedia.value[p]
  {
    s.(socialMedia := Some(s.socialMedia.GetOr(map[])[platform := v]))
  }

  /** `handleNotificationChange(setting, value)`: only that flag changes. */
  function ChangeNotification(s: Settings, setting: string, v: bool): (r: Settings)
    ensures r == s.(notificationSettings := r.notificationSettings)
    ensures r.notificationSettings.Some? && setting in r.notificationSettings.value
    ensures r.notificationSettings.value[setting] == v
    ensures forall k :: k != setting ==>
              (k in r.notificationSettings.value
               <==> s.notificationSettings.Some? && k in s.notificationSettings.value)
    ensures forall k :: k != setting && s.notificationSettings.Some? && k in s.notificationSettings.value ==>
              r.notificationSettings.value[k] == s.notificationSettings.value[k]
  {
    s.(notificationSettings := Some(s.notificationSettings.GetOr(map[])[setting := v]))
  }

  /** Toggling a flag and then restoring its old value gives back the record. */
  lemma ChangeNotificationRestore(s: Settings, setting: string, v: bool)
    requires s.notificationSettings.Some? && setting in s.notificationSettings.value
    ensures ChangeNotification(ChangeNotification(s, setting, v), setting,
                               s.notificationSettings.value[setting]) == s
  {
    var m := s.notificationSettings.value;
    var r := ChangeNotification(ChangeNotification(s, setting, v), setting, m[setting]);
    assert r.notificationSettings.value == m;
  }

  /** Editing one day's hours and typing the old value back restores them. */
  lemma ChangeHoursRestore(s: Settings, day: string, v: string)
    requires s.businessHours.Some? && day in s.businessHours.value
    requires s.businessHours.value[day].open.Some?
    ensures var once := ChangeHours(s, day, Open, v);
            ChangeHours(once.value, day, Open, s.businessHours.value[day].open.value) == Some(s)
  {
    var bh := s.businessHours.value;
    var r := ChangeHours(ChangeHours(s, day, Open, v).value, day, Open, bh[day].open.value);
    assert r.value.businessHours.value == bh;
  }
}

=== FILE: strings.dfy ===
/** String helpers shared by the model: ASCII case folding, substring search,
    joining and splitting on a separator, and decimal rendering of integers. */
module Strings {

  predicate IsDigit(c: char) {
    '0' <= c <= '9'
  }

  predicate IsAsciiUpper(c: char) {
    'A' <= c <= 'Z'
  }

  predicate IsAsciiLower(c: char) {
    'a' <= c <= 'z'
  }

  predicate AllDigits(s: string) {
    forall i :: 0 <= i < |s| ==> IsDigit(s[i])
  }

  /** `/^[0-9]{10}$/`: exactly ten decimal digits. */
  predicate TenDigits(s: string) {
    |s| == 10 && AllDigits(s)
  }

  /** The characters JavaScript's `\s` class matches (ECMAScript WhiteSpace and
      LineTerminator). */
  predicate IsJsSpace(c: char) {
    || c == ' ' || c == '\t' || c == '\n' || c == '\r'
    || c == '\U{000B}' || c == '\U{000C}' || c == '\U{00A0}' || c == '\U{1680}'
    || ('\U{2000}' <= c <= '\U{200A}')
    || c == '\U{2028}' || c == '\U{2029}' || c == '\U{202F}' || c == '\U{205F}'
    || c == '\U{3000}' || c == '\U{FEFF}'
  }

  /** ASCII case folding of one character; every other character is kept. */
  function LowerChar(c: char): (r: char)
    ensures IsAsciiUpper(c) ==> r as int == c as int + 32
    ensures !IsAsciiUpper(c) ==> r == c
    ensures !IsAsciiUpper(r)
  {
    if IsAsciiUpper(c) then (c as int + 32) as char else c
  }

  /** `toLowerCase`, restricted to ASCII letters. */
  function ToLower(s: string): (r: string)
    ensures |r| == |s|
    ensures forall i :: 0 <= i < |s| ==> r[i] == LowerChar(s[i])
  {
    if |s| == 0 then "" else [LowerChar(s[0])] + ToLower(s[1..])
  }

  lemma ToLowerIdempotent(s: string)
    ensures ToLower(ToLower(s)) == ToLower(s)
  {
  }

  /** `prefix` starts `s` (JavaScript `startsWith`). */
  predicate StartsWith(s: string, prefix: string) {
    |prefix| <= |s| && s[..|prefix|] == prefix
  }

  /** `needle` occurs in `hay` at index `i`. */
  predicate OccursAt(hay: string, needle: string, i: int) {
    0 <= i && i + |needle| <= |hay| && hay[i..i + |needle|] == needle
  }

  /** JavaScript `includes`: an executable substring search. */
  function Contains(hay: string, needle: string): (b: bool)
    ensures b <==> exists i :: OccursAt(hay, needle, i)
    decreases |hay|
  {
    if StartsWith(hay, needle) then
      assert OccursAt(hay, needle, 0);
      true
    else if |hay| == 0 then
      assert forall i :: !OccursAt(hay, needle, i);
      false
    else
      var rest := Contains(hay[1..], needle);
      assert !OccursAt(hay, needle, 0);
      assert rest ==> exists i :: OccursAt(hay, needle, i) by {
        if rest {
          var i :| OccursAt(hay[1..], needle, i);
          assert OccursAt(hay, needle, i + 1);
        }
      }
      assert (exists i :: OccursAt(hay, needle, i)) ==> rest by {
        if exists i :: OccursAt(hay, needle, i) {
          var i :| OccursAt(hay, needle, i);
          assert i != 0;
          assert OccursAt(hay[1..], needle, i - 1);
        }
      }
      rest
  }

  /** Every string contains the empty string. */
  lemma ContainsEmpty(hay: string)
    ensures Contains(hay, "")
  {
    assert OccursAt(hay, "", 0);
  }

  /** `parts.join(sep)`. */
  function Join(parts: seq<string>, sep: string): (r: string)
    ensures |parts| == 0 ==> r == ""
    ensures |parts| == 1 ==> r == parts[0]
  {
    if |parts| == 0 then ""
    else if |parts| == 1 then parts[0]
    else parts[0] + sep + Join(parts[1..], sep)
  }

  /** The characters of `s` up to, not including, the first `c` (the first
      element of JavaScript `s.split(c)`). */
  function Before(s: string, c: char): (r: string)
    ensures StartsWith(s, r)
    ensures c !in r
    ensures |r| < |s| ==> s[|r|] == c
    ensures c !in s ==> r == s
  {
    if |s| == 0 then ""
    else if s[0] == c then ""
    else [s[0]] + Before(s[1..], c)
  }

  /** `s.split(c)` for a one-character separator. */
  function Split(s: string, c: char): (r: seq<string>)
    ensures |r| >= 1
    ensures forall i :: 0 <= i < |r| ==> c !in r[i]
    decreases |s|
  {
    var head := Before(s, c);
    if |head| == |s| then [s] else [head] + Split(s[|head| + 1..], c)
  }

  /** Joining the pieces of a split with the same separator gives back the
      original string. */
  lemma {:induction false} JoinSplit(s: string, c: char)
    ensures Join(Split(s, c), [c]) == s
    decreases |s|
  {
    var head := Before(s, c);
    if |head| < |s| {
      var tail := s[|head| + 1..];
      var rest := Split(tail, c);
      JoinSplit(tail, c);
      assert Split(s, c) == [head] + rest;
      assert |[head] + rest| >= 2 && ([head] + rest)[0] == head && ([head] + rest)[1..] == rest;
      assert Join([head] + rest, [c]) == head + [c] + Join(rest, [c]);
      assert s[..|head|] == head && s[|head|] == c;
      assert s == s[..|head|] + [s[|head|]] + tail;
    }
  }

  /** `Before` stops at the first separator. */
  lemma {:induction false} BeforeSeparator(a: string, c: char, b: string)
    requires c !in a
    ensures Before(a + [c] + b, c) == a
  {
    if |a| > 0 {
      assert (a + [c] + b)[1..] == a[1..] + [c] + b;
      BeforeSeparator(a[1..], c, b);
    }
  }

  /** A separator-free piece before the first separator is the first piece of
      the split. */
  lemma SplitSeparator(a: string, c: char, b: string)
    requires c !in a
    ensures Split(a + [c] + b, c) == [a] + Split(b, c)
  {
    var s := a + [c] + b;
    BeforeSeparator(a, c, b);
    assert s[|a| + 1..] == b;
  }

  /** Splitting a join of separator-free pieces gives the pieces back. */
  lemma {:induction false} SplitJoin(parts: seq<string>, c: char)
    requires |parts| >= 1
    requires forall i :: 0 <= i < |parts| ==> c !in parts[i]
    ensures Split(Join(parts, [c]), c) == parts
    decreases |parts|
  {
    if |parts| > 1 {
      var rest := Join(parts[1..], [c]);
      assert Join(parts, [c]) == parts[0] + [c] + rest;
      SplitSeparator(parts[0], c, rest);
      SplitJoin(parts[1..], c);
      assert parts == [parts[0]] + parts[1..];
    }
  }

  /** The two regular-expression character classes the pages replace:
      `\s` and `[^a-z0-9]`. */
  datatype CharClass = Whitespace | NotSlug

  predicate In(k: CharClass, c: char) {
    match k
    case Whitespace => IsJsSpace(c)
    case NotSlug => !(IsAsciiLower(c) || IsDigit(c))
  }

  /** The leading run of characters of class `k` removed: what is left
      starts outside the class. */
  function DropRun(k: CharClass, s: string): (r: string)
    ensures |r| <= |s|
    ensures |r| > 0 ==> !In(k, r[0])
  {
    if |s| > 0 && In(k, s[0]) then DropRun(k, s[1..]) else s
  }

  /** What `DropRun` leaves is a suffix of its input. */
  lemma {:induction false} DropRunSuffix(k: CharClass, s: string)
    ensures DropRun(k, s) == s[|s| - |DropRun(k, s)|..]
  {
    if |s| > 0 && In(k, s[0]) {
      DropRunSuffix(k, s[1..]);
      assert s[1..][|s| - 1 - |DropRun(k, s)|..] == s[|s| - |DropRun(k, s)|..];
    }
  }

  /** The leading run of characters outside class `k`; it is empty only
      when `s` is empty or starts in the class. */
  function TakeWord(k: CharClass, s: string): (w: string)
    ensures |w| <= |s|
    ensures |s| > 0 && !In(k, s[0]) ==> |w| > 0
  {
    if |s| > 0 && !In(k, s[0]) then [s[0]] + TakeWord(k, s[1..]) else ""
  }

  /** A word is a prefix of its input, ended by the class or the end. */
  lemma {:induction false} TakeWordPrefix(k: CharClass, s: string)
    ensures var w := TakeWord(k, s);
      w == s[..|w|] && (|w| < |s| ==> In(k, s[|w|]))
  {
    if |s| > 0 && !In(k, s[0]) {
      TakeWordPrefix(k, s[1..]);
      var w := TakeWord(k, s);
      assert w == [s[0]] + TakeWord(k, s[1..]);
      assert s[..|w|] == [s[0]] + s[1..][..|w| - 1];
      if |w| < |s| {
        assert s[|w|] == s[1..][|w| - 1];
      }
    }
  }

  /** No character of `w` is in class `k`. */
  predicate Outside(k: CharClass, w: string) {
    forall i :: 0 <= i < |w| ==> !In(k, w[i])
  }

  /** Every character `DropRun` removes is in the class. */
  lemma {:induction false} DropRunDropped(k: CharClass, s: string)
    ensures forall i :: 0 <= i < |s| - |DropRun(k, s)| ==> In(k, s[i])
  {
    if |s| > 0 && In(k, s[0]) {
      DropRunDropped(k, s[1..]);
      forall i | 1 <= i < |s| - |DropRun(k, s)| ensures In(k, s[i]) {
        assert s[i] == s[1..][i - 1];
      }
    }
  }

  /** A word has no character of the class. */
  lemma {:induction false} TakeWordOutside(k: CharClass, s: string)
    ensures Outside(k, TakeWord(k, s))
  {
    if |s| > 0 && !In(k, s[0]) {
      TakeWordOutside(k, s[1..]);
      var w := TakeWord(k, s);
      forall i | 0 <= i < |w| ensures !In(k, w[i]) {
        if i > 0 {
          assert w[i] == TakeWord(k, s[1..])[i - 1];
        }
      }
    }
  }

  /** The words of `s` for separator class `k`: its maximal non-empty runs
      of characters outside the class, in order. */
  function Words(k: CharClass, s: string): (ws: seq<string>)
    decreases |s|
  {
    var t := DropRun(k, s);
    if |t| == 0 then []
    else
      var w := TakeWord(k, t);
      [w] + Words(k, t[|w|..])
  }

  /** `s.replace(/[k]+/g, '-')`: each maximal run of characters of class
      `k` becomes one `-`, every other character is kept. */
  function DashRuns(k: CharClass, s: string): (r: string)
    ensures |r| <= |s|
    ensures |s| > 0 && !In(k, s[0]) ==> |r| > 0 && r[0] == s[0]
    ensures |s| > 0 ==> |r| > 0
    decreases |s|
  {
    if |s| == 0 then ""
    else if In(k, s[0]) then "-" + DashRuns(k, DropRun(k, s[1..]))
    else [s[0]] + DashRuns(k, s[1..])
  }

  /** Every character of the result is a `-` or outside the class. */
  lemma {:induction false} DashRunsChars(k: CharClass, s: string)
    ensures forall i :: 0 <= i < |DashRuns(k, s)| ==> DashRuns(k, s)[i] == '-' || !In(k, DashRuns(k, s)[i])
    decreases |s|
  {
    if |s| > 0 {
      var rest := if In(k, s[0]) then DropRun(k, s[1..]) else s[1..];
      DashRunsChars(k, rest);
      var r := DashRuns(k, s);
      forall i | 1 <= i < |r| ensures r[i] == '-' || !In(k, r[i]) {
        assert r[i] == DashRuns(k, rest)[i - 1];
      }
    }
  }

  /** Splitting off the first character of a non-empty left part. */
  lemma ConsSplit(w: string, rest: string)
    requires |w| > 0
    ensures w + rest == [w[0]] + (w[1..] + rest)
  {
  }

  /** A character outside the class is kept in front. */
  lemma DashRunsCons(k: CharClass, c: char, x: string)
    requires !In(k, c)
    ensures DashRuns(k, [c] + x) == [c] + DashRuns(k, x)
  {
    assert ([c] + x)[1..] == x;
  }

  /** The text of one word passes through unchanged. */
  lemma {:induction false} DashRunsWord(k: CharClass, w: string, rest: string)
    requires Outside(k, w)
    ensures DashRuns(k, w + rest) == w + DashRuns(k, rest)
  {
    if |w| > 0 {
      var t := w[1..];
      assert Outside(k, t) by {
        forall i | 0 <= i < |t| ensures !In(k, t[i]) {
          assert t[i] == w[i + 1];
        }
      }
      DashRunsWord(k, t, rest);
      ConsSplit(w, rest);
      DashRunsCons(k, w[0], t + rest);
      ConsSplit(w, DashRuns(k, rest));
    } else {
      assert w + rest == rest;
    }
  }

  /** A string with no character of the class is left as it is. */
  lemma DashRunsNone(k: CharClass, s: string)
    requires Outside(k, s)
    ensures DashRuns(k, s) == s
  {
    DashRunsWord(k, s, "");
    assert s + "" == s;
  }

  /** Whether `s` ends with a character of the class after some word. */
  predicate TrailingRun(k: CharClass, s: string) {
    |s| > 0 && In(k, s[|s| - 1]) && Words(k, s) != []
  }

  /** `parts.join(sep)` with a first part in front of at least one more. */
  lemma JoinCons(w: string, ws: seq<string>, sep: string)
    requires |ws| > 0
    ensures Join([w] + ws, sep) == w + sep + Join(ws, sep)
  {
    assert ([w] + ws)[1..] == ws;
  }

  /** A join of non-empty parts starts with the first part's first
      character and ends with the last part's last character. */
  lemma {:induction false} JoinEnds(ws: seq<string>, sep: string)
    requires forall n :: 0 <= n < |ws| ==> |ws[n]| > 0
    ensures var j := Join(ws, sep);
      |ws| > 0 ==> |j| > 0 && j[0] == ws[0][0] && j[|j| - 1] == ws[|ws| - 1][|ws[|ws| - 1]| - 1]
  {
    if |ws| > 1 {
      var rest := ws[1..];
      JoinEnds(rest, sep);
      LastOfConcat(Join(ws, sep), ws[0] + sep, Join(rest, sep));
      assert ws[|ws| - 1] == rest[|rest| - 1];
    }
  }

  /** Every word is non-empty and has no character of the class. */
  lemma {:induction false} WordsShape(k: CharClass, s: string)
    ensures forall n :: 0 <= n < |Words(k, s)| ==> |Words(k, s)[n]| > 0 && Outside(k, Words(k, s)[n])
    decreases |s|
  {
    var t := DropRun(k, s);
    if |t| > 0 {
      var w := TakeWord(k, t);
      var rest := t[|w|..];
      TakeWordOutside(k, t);
      WordsShape(k, rest);
      var ws := Words(k, s);
      assert ws == [w] + Words(k, rest);
      forall n | 0 <= n < |ws| ensures |ws[n]| > 0 && Outside(k, ws[n]) {
        if n > 0 {
          assert ws[n] == Words(k, rest)[n - 1];
        }
      }
    }
  }

  /** A string that starts with a word: its first word, then the words of
      the rest. */
  lemma WordsWordLed(k: CharClass, s: string)
    requires |s| > 0 && !In(k, s[0])
    ensures var w := TakeWord(k, s);
      && |w| > 0 && s == w + s[|w|..] && Words(k, s) == [w] + Words(k, s[|w|..])
      && (|w| < |s| ==> In(k, s[|w|..][0]))
  {
    var w := TakeWord(k, s);
    assert DropRun(k, s) == s;
    TakeWordPrefix(k, s);
    SplitAt(s, |w|);
  }

  lemma SplitAt(s: string, k: nat)
    requires k <= |s|
    ensures s == s[..k] + s[k..]
  {
  }

  /** A string that starts with a run: one `-`, then what follows the run. */
  lemma RunLed(k: CharClass, r: string)
    requires |r| > 0 && In(k, r[0])
    ensures var r' := DropRun(k, r[1..]);
      && DashRuns(k, r) == "-" + DashRuns(k, r')
      && Words(k, r) == Words(k, r')
      && (|r'| > 0 ==> r[|r| - 1] == r'[|r'| - 1])
      && (|r'| == 0 ==> Words(k, r) == [] && In(k, r[|r| - 1]))
  {
    var r' := DropRun(k, r[1..]);
    assert DropRun(k, r) == r';
    if |r'| > 0 {
      DropRunSuffix(k, r[1..]);
      assert r'[|r'| - 1] == r[1..][|r| - 2];
      assert DropRun(k, r') == r';
    } else if |r| > 1 {
      DropRunDropped(k, r[1..]);
      assert r[|r| - 1] == r[1..][|r| - 2];
    }
  }

  /** The join step: a word, a `-`, then the joined rest. */
  lemma JoinAssemble(ds: string, dr: string, w: string, ws: seq<string>, all: seq<string>, tail: string)
    requires |ws| > 0 && all == [w] + ws
    requires ds == w + ("-" + dr) && dr == Join(ws, "-") + tail
    ensures ds == Join(all, "-") + tail
  {
    JoinCons(w, ws, "-");
  }

  /** The last character of a concatenation with a non-empty right part. */
  lemma LastOfConcat(s: string, a: string, b: string)
    requires s == a + b && |b| > 0
    ensures s[|s| - 1] == b[|b| - 1]
  {
  }

  /** The join of a single word, then what follows it. */
  lemma AssembleOne(ds: string, w: string, dr: string, all: seq<string>)
    requires all == [w] && ds == w + dr
    ensures ds == Join(all, "-") + dr
  {
  }

  /** A string that is one word. */
  lemma WordOnly(k: CharClass, s: string)
    requires |s| > 0 && !In(k, s[0]) && |TakeWord(k, s)| == |s|
    ensures DashRuns(k, s) == Join(Words(k, s), "-") + (if In(k, s[|s| - 1]) then "-" else "")
  {
    var w := TakeWord(k, s);
    WordsWordLed(k, s);
    TakeWordOutside(k, s);
    assert s == w;
    assert !In(k, s[|s| - 1]);
    DashRunsNone(k, s);
    AssembleOne(DashRuns(k, s), w, "", Words(k, s));
    assert w + "" == w;
  }

  /** A string that is one word followed by one run. */
  lemma WordThenRun(k: CharClass, s: string)
    requires |s| > 0 && !In(k, s[0])
    requires var r := s[|TakeWord(k, s)|..]; |r| > 0 && |DropRun(k, r[1..])| == 0
    ensures DashRuns(k, s) == Join(Words(k, s), "-") + (if In(k, s[|s| - 1]) then "-" else "")
  {
    var w := TakeWord(k, s);
    var r := s[|w|..];
    WordsWordLed(k, s);
    TakeWordOutside(k, s);
    DashRunsWord(k, w, r);
    RunLed(k, r);
    LastOfConcat(s, w, r);
    assert DashRuns(k, r) == "-";
    AssembleOne(DashRuns(k, s), w, "-", Words(k, s));
  }

  /** A string that is a word, a run, then more: the step from the words
      form of what follows the run. */
  lemma WordRunMore(k: CharClass, s: string, w: string, r: string, r': string)
    requires |s| > 0 && !In(k, s[0])
    requires w == TakeWord(k, s) && r == s[|w|..] && |r| > 0 && r' == DropRun(k, r[1..]) && |r'| > 0
    requires DashRuns(k, r') == Join(Words(k, r'), "-") + (if In(k, r'[|r'| - 1]) then "-" else "")
    ensures DashRuns(k, s) == Join(Words(k, s), "-") + (if In(k, s[|s| - 1]) then "-" else "")
  {
    var tail := if In(k, s[|s| - 1]) then "-" else "";
    WordsWordLed(k, s);
    TakeWordOutside(k, s);
    DashRunsWord(k, w, r);
    RunLed(k, r);
    LastOfConcat(s, w, r);
    assert s[|s| - 1] == r'[|r'| - 1];
    WordsWordLed(k, r');
    assert DashRuns(k, s) == w + ("-" + DashRuns(k, r'));
    assert Words(k, s) == [w] + Words(k, r');
    JoinAssemble(DashRuns(k, s), DashRuns(k, r'), w, Words(k, r'), Words(k, s), tail);
  }

  /** For a string that starts with a word, the runs version is the words
      joined by `-`, with one more `-` when it ends with a run. */
  lemma {:induction false} DashRunsWordLed(k: CharClass, s: string)
    requires |s| > 0 && !In(k, s[0])
    ensures DashRuns(k, s) == Join(Words(k, s), "-") + (if In(k, s[|s| - 1]) then "-" else "")
    decreases |s|
  {
    var r := s[|TakeWord(k, s)|..];
    if |r| == 0 {
      WordOnly(k, s);
    } else if |DropRun(k, r[1..])| == 0 {
      WordThenRun(k, s);
    } else {
      WordsWordLed(k, s);
      var r' := DropRun(k, r[1..]);
      DashRunsWordLed(k, r');
      WordRunMore(k, s, TakeWord(k, s), r, r');
    }
  }

  /** Regrouping a lead, a middle and a tail. */
  lemma Frame(ds: string, lead: string, rest: string, mid: string, tail: string)
    requires ds == lead + rest && rest == mid + tail
    ensures ds == lead + mid + tail
  {
  }

  /** The words form of a string that is one run. */
  lemma RunOnlyWords(k: CharClass, s: string)
    requires |s| > 0 && In(k, s[0]) && |DropRun(k, s[1..])| == 0
    ensures DashRuns(k, s) == "-" + Join(Words(k, s), "-") + (if TrailingRun(k, s) then "-" else "")
  {
    RunLed(k, s);
    assert !TrailingRun(k, s) && Words(k, s) == [];
    Frame(DashRuns(k, s), "-", DashRuns(k, DropRun(k, s[1..])), "", "");
  }

  /** The words form of a string that is a run followed by a word. */
  lemma RunThenWords(k: CharClass, s: string, r': string)
    requires |s| > 0 && In(k, s[0]) && r' == DropRun(k, s[1..]) && |r'| > 0
    ensures DashRuns(k, s) == "-" + Join(Words(k, s), "-") + (if TrailingRun(k, s) then "-" else "")
  {
    var tail: string := if TrailingRun(k, s) then "-" else "";
    RunLed(k, s);
    DashRunsWordLed(k, r');
    WordsWordLed(k, r');
    assert tail == (if In(k, r'[|r'| - 1]) then "-" else "");
    Frame(DashRuns(k, s), "-", DashRuns(k, r'), Join(Words(k, s), "-"), tail);
  }

  /** The words form of a string that starts with a run. */
  lemma RunLedWords(k: CharClass, s: string)
    requires |s| > 0 && In(k, s[0])
    ensures DashRuns(k, s) == "-" + Join(Words(k, s), "-") + (if TrailingRun(k, s) then "-" else "")
  {
    var r' := DropRun(k, s[1..]);
    if |r'| > 0 {
      RunThenWords(k, s, r');
    } else {
      RunOnlyWords(k, s);
    }
  }

  /** The words form of a string that starts with a word. */
  lemma WordLedWords(k: CharClass, s: string)
    requires |s| > 0 && !In(k, s[0])
    ensures DashRuns(k, s) == Join(Words(k, s), "-") + (if TrailingRun(k, s) then "-" else "")
  {
    DashRunsWordLed(k, s);
    WordsWordLed(k, s);
  }

  /** `s.replace(/[k]+/g, '-')` is the words of `s` joined by `-`, with one
      `-` in front when `s` starts with a run and one at the end when it
      ends with a run after some word. */
  lemma DashRunsWords(k: CharClass, s: string)
    ensures DashRuns(k, s) ==
      (if |s| > 0 && In(k, s[0]) then "-" else "") + Join(Words(k, s), "-") + (if TrailingRun(k, s) then "-" else "")
  {
    if |s| > 0 && In(k, s[0]) {
      RunLedWords(k, s);
    } else if |s| > 0 {
      WordLedWords(k, s);
      assert "" + Join(Words(k, s), "-") == Join(Words(k, s), "-");
    } else {
      assert Words(k, s) == [];
    }
  }

  /** Decimal digits of a natural number, most significant first. */
  function NatToString(n: nat): (r: string)
    ensures |r| >= 1
    ensures AllDigits(r)
    ensures n == 0 ==> r == "0"
    ensures n > 0 ==> r[0] != '0'
  {
    var d := ['0' + (n % 10) as char];
    if n < 10 then d else NatToString(n / 10) + d
  }

  /** `String(n)` for an integer: a minus sign before negative values. */
  function IntToString(n: int): (r: string)
    ensures n >= 0 ==> AllDigits(r) && |r| >= 1
    ensures n < 0 ==> |r| >= 2 && r[0] == '-' && AllDigits(r[1..])
  {
    if n >= 0 then NatToString(n) else "-" + NatToString(-n)
  }

  /** The value of a string of decimal digits. */
  function DigitsValue(s: string): (n: nat)
    requires AllDigits(s)
  {
    if |s| == 0 then 0 else DigitsValue(s[..|s| - 1]) * 10 + (s[|s| - 1] as int - '0' as int)
  }

  /** Reading back the digits of `NatToString(n)` gives `n`. */
  lemma {:induction false} NatToStringRoundTrip(n: nat)
    ensures DigitsValue(NatToString(n)) == n
  {
    var s := NatToString(n);
    if n >= 10 {
      NatToStringRoundTrip(n / 10);
      assert s[..|s| - 1] == NatToString(n / 10);
    }
  }
}

=== FILE: uri_encode.dfy ===
/** Percent-encoding as JavaScript's `encodeURIComponent` and the
    `application/x-www-form-urlencoded` serializer behind
    `URLSearchParams.toString()` perform it: characters outside a safe set
    become the `%XX` escapes of their UTF-8 bytes. */
module UriEncode {
  import opened Strings

  predicate IsAsciiAlnum(c: char) {
    IsDigit(c) || IsAsciiUpper(c) || IsAsciiLower(c)
  }

  /** Characters `encodeURIComponent` leaves as they are. */
  predicate ComponentSafe(c: char) {
    IsAsciiAlnum(c) || c in "-_.!~*'()"
  }

  /** Characters the form-urlencoded serializer leaves as they are. */
  predicate FormSafe(c: char) {
    IsAsciiAlnum(c) || c in "*-._"
  }

  /** The UTF-8 encoding of one Unicode scalar value. */
  function Utf8(c: char): (bytes: seq<nat>)
    ensures 1 <= |bytes| <= 4
    ensures forall i :: 0 <= i < |bytes| ==> bytes[i] < 256
    ensures |bytes| == 1 <==> c as int < 0x80
  {
    var n := c as int;
    if n < 0x80 then [n]
    else if n < 0x800 then [0xC0 + n / 64, 0x80 + n % 64]
    else if n < 0x10000 then [0xE0 + n / 4096, 0x80 + (n / 64) % 64, 0x80 + n % 64]
    else [0xF0 + n / 262144, 0x80 + (n / 4096) % 64, 0x80 + (n / 64) % 64, 0x80 + n % 64]
  }

  function HexDigit(n: nat): char
    requires n < 16
  {
    "0123456789ABCDEF"[n]
  }

  /** `%XX` escapes, upper-case hexadecimal, for a sequence of bytes. */
  function PercentBytes(bytes: seq<nat>): (r: string)
    requires forall i :: 0 <= i < |bytes| ==> bytes[i] < 256
    ensures |r| == 3 * |bytes|
    ensures |bytes| > 0 ==> r[0] == '%'
  {
    if |bytes| == 0 then ""
    else ['%', HexDigit(bytes[0] / 16), HexDigit(bytes[0] % 16)] + PercentBytes(bytes[1..])
  }

  function ComponentChar(c: char): (r: string)
    ensures |r| >= 1
    ensures |r| == 1 <==> ComponentSafe(c)
    ensures ComponentSafe(c) ==> r == [c]
  {
    if ComponentSafe(c) then [c] else PercentBytes(Utf8(c))
  }

  /** `encodeURIComponent(s)`. Dafny strings hold scalar values only, so the
      lone-surrogate error of the JavaScript function cannot arise. */
  function EncodeURIComponent(s: string): (r: string)
    ensures |r| >= |s|
  {
    if |s| == 0 then "" else ComponentChar(s[0]) + EncodeURIComponent(s[1..])
  }

  /** `encodeURIComponent` leaves a string unchanged exactly when every
      character is in its safe set. */
  lemma {:induction false} EncodeURIComponentIdentity(s: string)
    ensures EncodeURIComponent(s) == s <==> forall i :: 0 <= i < |s| ==> ComponentSafe(s[i])
  {
    if |s| > 0 {
      EncodeURIComponentIdentity(s[1..]);
      var tail := EncodeURIComponent(s[1..]);
      assert EncodeURIComponent(s) == ComponentChar(s[0]) + tail;
      if ComponentSafe(s[0]) {
        assert (forall i :: 0 <= i < |s| ==> ComponentSafe(s[i]))
          <==> (forall i :: 0 <= i < |s[1..]| ==> ComponentSafe(s[1..][i]));
        assert s == [s[0]] + s[1..];
      } else {
        assert |EncodeURIComponent(s)| > |s|;
      }
    }
  }

  /** Encoding never shortens a string, and it lengthens it as soon as one
      character needs escaping. */
  lemma {:induction false} EncodeURIComponentGrows(s: string, i: nat)
    requires i < |s| && !ComponentSafe(s[i])
    ensures |EncodeURIComponent(s)| > |s|
  {
    if i > 0 {
      EncodeURIComponentGrows(s[1..], i - 1);
    }
  }

  function FormChar(c: char): (r: string)
    ensures |r| >= 1
    ensures FormSafe(c) ==> r == [c]
    ensures c == ' ' ==> r == "+"
  {
    if FormSafe(c) then [c]
    else if c == ' ' then "+"
    else PercentBytes(Utf8(c))
  }

  /** The form-urlencoded byte serializer: safe characters kept, a space as
      `+`, everything else percent-encoded. */
  function FormEncode(s: string): (r: string)
    ensures |r| >= |s|
  {
    if |s| == 0 then "" else FormChar(s[0]) + FormEncode(s[1..])
  }

  /** `URLSearchParams.toString()` over a list of name/value pairs. */
  function FormSerialize(pairs: seq<(string, string)>): (r: string)
    ensures |pairs| == 0 ==> r == ""
    ensures |pairs| > 0 ==> Split(r, '&') == SerializedPairs(pairs)
  {
    if |pairs| > 0 then SerializedPairsSplit(pairs); Join(SerializedPairs(pairs), "&")
    else Join(SerializedPairs(pairs), "&")
  }

  function SerializedPairs(pairs: seq<(string, string)>): (r: seq<string>)
    ensures |r| == |pairs|
    ensures forall i :: 0 <= i < |pairs| ==> r[i] == FormEncode(pairs[i].0) + "=" + FormEncode(pairs[i].1)
  {
    if |pairs| == 0 then []
    else [FormEncode(pairs[0].0) + "=" + FormEncode(pairs[0].1)] + SerializedPairs(pairs[1..])
  }

  /** A `%XX` escape never writes the query separator `&`. */
  lemma {:induction false} PercentBytesNoAmp(bytes: seq<nat>)
    requires forall i :: 0 <= i < |bytes| ==> bytes[i] < 256
    ensures '&' !in PercentBytes(bytes)
  {
    if |bytes| > 0 {
      PercentBytesNoAmp(bytes[1..]);
      var h := "0123456789ABCDEF";
      assert forall n :: 0 <= n < 16 ==> h[n] != '&';
    }
  }

  /** `encodeURIComponent` escapes every `&`, so its output has none. */
  lemma {:induction false} EncodeURIComponentNoAmp(s: string)
    ensures '&' !in EncodeURIComponent(s)
  {
    if |s| > 0 {
      EncodeURIComponentNoAmp(s[1..]);
      if !ComponentSafe(s[0]) {
        PercentBytesNoAmp(Utf8(s[0]));
      }
    }
  }

  /** The form serializer escapes every `&`, so its output has none. */
  lemma {:induction false} FormEncodeNoAmp(s: string)
    ensures '&' !in FormEncode(s)
  {
    if |s| > 0 {
      FormEncodeNoAmp(s[1..]);
      if !FormSafe(s[0]) && s[0] != ' ' {
        PercentBytesNoAmp(Utf8(s[0]));
      }
    }
  }

  /** No serialized `name=value` pair contains `&`, so splitting the
      serialized query on `&` gives back exactly the pairs. */
  lemma SerializedPairsSplit(pairs: seq<(string, string)>)
    requires |pairs| >= 1
    ensures Split(Join(SerializedPairs(pairs), "&"), '&') == SerializedPairs(pairs)
  {
    var fields := SerializedPairs(pairs);
    forall i | 0 <= i < |fields| ensures '&' !in fields[i] {
      FormEncodeNoAmp(pairs[i].0);
      FormEncodeNoAmp(pairs[i].1);
    }
    SplitJoin(fields, '&');
  }
}

=== FILE: user_settings.dfy ===
/** The customer settings page: the password form and the three e-mail
    notification switches stored in `user_settings`, one row per user id.
    A column that the row does not set (null, or left to its database
    default when the row was created by a single-column upsert) is `None`. */
module UserSettings {
  import opened Wrappers

  datatype Flag = OrderUpdates | Promotions | Security

  /** The switches as the page holds them. A null column read from the
      database shows and toggles exactly like `false` (`!null` is `true`), so
      it is held as `false`. */
  datatype Flags = Flags(orderUpdates: bool, promotions: bool, security: bool)

  datatype Row = Row(
    orderUpdates: Option<bool>,
    promotions: Option<bool>,
    securityAlerts: Option<bool>,
    updatedAt: Option<string>)

  datatype Message = Success(text: string) | Failure(text: string)

  const InitialFlags := Flags(true, true, true)

  const MismatchMessage := "M\U{1EAD}t kh\U{1EA9}u m\U{1EDB}i kh\U{00F4}ng kh\U{1EDB}p"
  const PasswordUpdated := "C\U{1EAD}p nh\U{1EAD}t m\U{1EAD}t kh\U{1EA9}u th\U{00E0}nh c\U{00F4}ng"
  const SettingsUpdated := "C\U{1EAD}p nh\U{1EAD}t c\U{00E0}i \U{0111}\U{1EB7}t th\U{00E0}nh c\U{00F4}ng"
  const SettingsFailed := "C\U{00F3} l\U{1ED7}i x\U{1EA3}y ra khi c\U{1EAD}p nh\U{1EAD}t c\U{00E0}i \U{0111}\U{1EB7}t"

  /** The database column a switch is written to. */
  function Column(f: Flag): (c: string)
    ensures c in {"order_updates", "promotions", "security_alerts"}
    ensures FlagOf(c) == Some(f)
  {
    match f
    case OrderUpdates => "order_updates"
    case Promotions => "promotions"
    case Security => "security_alerts"
  }

  /** The switch a database column is read into. */
  function FlagOf(c: string): (r: Option<Flag>)
    ensures r.Some? <==> c in {"order_updates", "promotions", "security_alerts"}
  {
    if c == "order_updates" then Some(OrderUpdates)
    else if c == "promotions" then Some(Promotions)
    else if c == "security_alerts" then Some(Security)
    else None
  }

  /** Writing and reading use inverse mappings between switches and columns. */
  lemma ColumnRoundTrip(f: Flag, c: string)
    ensures FlagOf(Column(f)) == Some(f)
    ensures FlagOf(c).Some? ==> Column(FlagOf(c).value) == c
  {
  }

  function Get(fl: Flags, f: Flag): bool {
    match f
    case OrderUpdates => fl.orderUpdates
    case Promotions => fl.promotions
    case Security => fl.security
  }

  /** `setEmailNotifications(prev => ({ ...prev, [setting]: v }))`. */
  function Set(fl: Flags, f: Flag, v: bool): (r: Flags)
    ensures Get(r, f) == v
    ensures forall g :: g != f ==> Get(r, g) == Get(fl, g)
  {
    match f
    case OrderUpdates => fl.(orderUpdates := v)
    case Promotions => fl.(promotions := v)
    case Security => fl.(security := v)
  }

  /** The value a row holds in the column of switch `f`. */
  function ColumnValue(row: Row, f: Flag): (v: Option<bool>)
    ensures v == (if Column(f) == "order_updates" then row.orderUpdates
                  else if Column(f) == "promotions" then row.promotions
                  else row.securityAlerts)
  {
    match f
    case OrderUpdates => row.orderUpdates
    case Promotions => row.promotions
    case Security => row.securityAlerts
  }

  /** The switches `fetchSettings` shows for a row: each flag is read from the
      column `Column` names for it. */
  function FlagsOf(row: Row): (r: Flags)
    ensures forall f :: Get(r, f) == ColumnValue(row, f).GetOr(false)
  {
    Flags(row.orderUpdates.GetOr(false), row.promotions.GetOr(false), row.securityAlerts.GetOr(false))
  }

  /** `fetchSettings`. With no session nothing happens; `.single()` on the
      user's id finds the row when there is one; a missing row (error
      PGRST116) is tolerated and keeps the switches, and any other error is
      caught and keeps them too. */
  function Fetch(session: Option<string>, rows: map<string, Row>, requestFails: bool, fl: Flags): (r: Flags)
    ensures session.None? || requestFails ==> r == fl
    ensures session.Some? && session.value !in rows ==> r == fl
    ensures session.Some? && !requestFails && session.value in rows ==> r == FlagsOf(rows[session.value])
  {
    if session.None? || requestFails then fl
    else if session.value in rows then FlagsOf(rows[session.value])
    else fl
  }

  /** The row after `.upsert({ user_id, [column]: v, updated_at })`: an
      existing row gets the one column and the timestamp; a new row has only
      those set. */
  function UpsertColumn(rows: map<string, Row>, user: string, f: Flag, v: bool, now: string): (r: map<string, Row>)
    ensures r.Keys == rows.Keys + {user}
    ensures forall u :: u in rows && u != user ==> r[u] == rows[u]
    ensures ColumnValue(r[user], f) == Some(v) && r[user].updatedAt == Some(now)
    ensures forall g :: g != f ==>
              ColumnValue(r[user], g) == (if user in rows then ColumnValue(rows[user], g) else None)
  {
    var base := if user in rows then rows[user] else Row(None, None, None, None);
    var row := match f
      case OrderUpdates => base.(orderUpdates := Some(v))
      case Promotions => base.(promotions := Some(v))
      case Security => base.(securityAlerts := Some(v));
    rows[user := row.(updatedAt := Some(now))]
  }

  /** The page after a switch is clicked: switches, table, and the message
      shown (`None` when it is left as it was). */
  datatype ToggleResult = ToggleResult(flags: Flags, rows: map<string, Row>, message: Option<Message>)

  /** `updateNotificationSettings(setting)`: the new value is the negation of
      the shown one; the switch changes only after the upsert succeeds. */
  function Toggle(fl: Flags, f: Flag, session: Option<string>, rows: map<string, Row>,
                  upsertFails: bool, now: string): (r: ToggleResult)
    ensures session.None? ==> r == ToggleResult(fl, rows, None)
    ensures session.Some? && upsertFails ==> r == ToggleResult(fl, rows, Some(Failure(SettingsFailed)))
    ensures session.Some? && !upsertFails ==>
              && Get(r.flags, f) == !Get(fl, f)
              && (forall g :: g != f ==> Get(r.flags, g) == Get(fl, g))
              && r.rows == UpsertColumn(rows, session.value, f, !Get(fl, f), now)
              && r.message == Some(Success(SettingsUpdated))
  {
    var v := !Get(fl, f);
    if session.None? then ToggleResult(fl, rows, None)
    else if upsertFails then ToggleResult(fl, rows, Some(Failure(SettingsFailed)))
    else ToggleResult(Set(fl, f, v), UpsertColumn(rows, session.value, f, v, now), Some(Success(SettingsUpdated)))
  }

  /** When the page shows what the user's stored row says, a successful toggle
      keeps it so: reloading the page shows the toggled switches. */
  lemma ToggleThenFetch(fl: Flags, f: Flag, user: string, rows: map<string, Row>, now: string)
    requires user in rows && Fetch(Some(user), rows, false, fl) == fl
    ensures var t := Toggle(fl, f, Some(user), rows, false, now);
            Fetch(Some(user), t.rows, false, t.flags) == t.flags
  {
    var t := Toggle(fl, f, Some(user), rows, false, now);
    var got := FlagsOf(t.rows[user]);
    forall g ensures Get(got, g) == Get(t.flags, g) {
      if g != f {
        assert Get(fl, g) == ColumnValue(rows[user], g).GetOr(false);
      }
    }
    FlagsExtensional(got, t.flags);
  }

  /** Two switch states that agree on every switch are equal. */
  lemma FlagsExtensional(a: Flags, b: Flags)
    requires forall f :: Get(a, f) == Get(b, f)
    ensures a == b
  {
    assert Get(a, OrderUpdates) == Get(b, OrderUpdates);
    assert Get(a, Promotions) == Get(b, Promotions);
    assert Get(a, Security) == Get(b, Security);
  }

  /** Clicking a switch twice with both upserts succeeding restores it. */
  lemma ToggleTwice(fl: Flags, f: Flag, user: string, rows: map<string, Row>, t1: string, t2: string)
    ensures var once := Toggle(fl, f, Some(user), rows, false, t1);
            Toggle(once.flags, f, Some(user), once.rows, false, t2).flags == fl
  {
    var once := Toggle(fl, f, Some(user), rows, false, t1);
    var twice := Toggle(once.flags, f, Some(user), once.rows, false, t2);
    forall g ensures Get(twice.flags, g) == Get(fl, g) {
    }
    FlagsExtensional(twice.flags, fl);
  }

  /** The outcome of `updatePassword`: the account's password after it and
      the message shown. */
  datatype PasswordResult = PasswordResult(password: string, message: Message)

  /** `updatePassword`: a new password that differs from its confirmation
      is rejected before the auth call; otherwise the auth call's error
      message (`authError`) is shown, or the password changes. */
  function UpdatePassword(current: string, newPassword: string, confirm: string,
                          authError: Option<string>): (r: PasswordResult)
    ensures newPassword != confirm ==> r == PasswordResult(current, Failure(MismatchMessage))
    ensures newPassword == confirm && authError.Some? ==>
              r == PasswordResult(current, Failure(authError.value))
    ensures r.password != current ==> r.password == newPassword && newPassword == confirm
    ensures r.message.Success? <==> newPassword == confirm && authError.None?
  {
    if newPassword != confirm then PasswordResult(current, Failure(MismatchMessage))
    else match authError
      case Some(m) => PasswordResult(current, Failure(m))
      case None => PasswordResult(newPassword, Success(PasswordUpdated))
  }
}

=== FILE: vnpay.dfy ===
/** The VNPay 2.1.0 signing library: the canonical string over sorted
    parameters, the signed payment URL, and response verification. The
    keyed hash (HMAC-SHA512, hex) is a parameter: any deterministic function
    of the secret and the data. */
module VNPay {
  import opened Wrappers
  import opened Strings
  import opened Entries
  import opened UriEncode

  /** HMAC-SHA512 of `data` under `secret`, rendered as hex. */
  type Hmac = (string, string) -> string

  const SecureHash := "vnp_SecureHash"
  const SecureHashType := "vnp_SecureHashType"

  /** The gateway settings read from the environment. */
  datatype Config = Config(tmnCode: string, hashSecret: string, url: string, returnUrl: string)

  /** An amount in major units scaled by 100 and rendered as a string; a
      missing amount gives `NaN`. */
  function AmountString(amount: Option<int>): (r: string)
    ensures amount.Some? && amount.value >= 0 ==> |r| >= 1 && AllDigits(r) && DigitsValue(r) == amount.value * 100
    ensures amount.None? ==> !AllDigits(r)
  {
    match amount
    case Some(a) =>
      if a >= 0 then NatToStringRoundTrip(a * 100); IntToString(a * 100) else IntToString(a * 100)
    case None =>
      assert "NaN"[0] == 'N';
      "NaN"
  }

  /** `key=value`, the value URL-encoded when `encoded` holds. */
  function Field(e: Entry, encoded: bool): (r: string)
    ensures StartsWith(r, e.0 + "=") && |r| >= |e.0| + 1 + |e.1|
    ensures encoded ==> '&' !in r[|e.0| + 1..]
    ensures (!encoded || forall i :: 0 <= i < |e.1| ==> ComponentSafe(e.1[i])) ==> r == e.0 + "=" + e.1
  {
    var v := if encoded then EncodeURIComponentNoAmp(e.1); EncodeURIComponentIdentity(e.1); EncodeURIComponent(e.1)
             else e.1;
    assert (e.0 + "=" + v)[|e.0| + 1..] == v;
    e.0 + "=" + v
  }

  function Fields(e: seq<Entry>, encoded: bool): (r: seq<string>)
    ensures |r| == |e|
    ensures forall i :: 0 <= i < |e| ==> r[i] == Field(e[i], encoded)
  {
    if |e| == 0 then [] else [Field(e[0], encoded)] + Fields(e[1..], encoded)
  }

  /** The string that is signed: the entries sorted by key, each rendered as
      `key=value`, joined by `&`. The library encodes each value with
      `encodeURIComponent`; the inline copies in the payment routes do not. */
  function CanonicalString(params: seq<Entry>, encoded: bool): (r: string)
    ensures |params| == 0 ==> r == ""
    ensures encoded && |params| > 0 && (forall j :: 0 <= j < |params| ==> '&' !in params[j].0) ==>
      Split(r, '&') == Fields(SortByKey(params), true)
  {
    if encoded && |params| > 0 && (forall j :: 0 <= j < |params| ==> '&' !in params[j].0) then
      CanonicalSplit(params);
      Join(Fields(SortByKey(params), encoded), "&")
    else Join(Fields(SortByKey(params), encoded), "&")
  }

  /** With `&`-free keys, the encoded canonical string splits back into its
      fields, in key order. */
  lemma CanonicalSplit(params: seq<Entry>)
    requires |params| > 0
    requires forall j :: 0 <= j < |params| ==> '&' !in params[j].0
    ensures Split(Join(Fields(SortByKey(params), true), "&"), '&') == Fields(SortByKey(params), true)
  {
    var sorted := SortByKey(params);
    var fields := Fields(sorted, true);
    forall i | 0 <= i < |fields| ensures '&' !in fields[i] {
      assert sorted[i] in multiset(params);
      var j :| 0 <= j < |params| && params[j] == sorted[i];
      FieldNoAmp(sorted[i]);
    }
    SplitJoin(fields, '&');
  }

  /** An encoded field with a `&`-free key holds no `&`. */
  lemma FieldNoAmp(e: Entry)
    requires '&' !in e.0
    ensures '&' !in Field(e, true)
  {
    var f := Field(e, true);
    assert f == f[..|e.0| + 1] + f[|e.0| + 1..];
    assert f[..|e.0| + 1] == e.0 + "=";
  }

  /** Every value consists of characters `encodeURIComponent` keeps. */
  predicate ValuesSafe(params: seq<Entry>) {
    forall j, i :: 0 <= j < |params| && 0 <= i < |params[j].1| ==> ComponentSafe(params[j].1[i])
  }

  /** The query parameters of the URL `createVNPayUrl` builds: the sorted
      parameters with `vnp_SecureHash` set to the digest of their canonical
      string. */
  function SignedQuery(cfg: Config, hmac: Hmac, params: seq<Entry>): (q: seq<Entry>)
    ensures Lookup(q, SecureHash) == Some(hmac(cfg.hashSecret, CanonicalString(params, true)))
    ensures !HasKey(params, SecureHash) ==>
      q == SortByKey(params) + [(SecureHash, hmac(cfg.hashSecret, CanonicalString(params, true)))]
    ensures forall x :: x in params && x.0 != SecureHash ==> x in q
  {
    var sorted := SortByKey(params);
    assert forall x :: x in params ==> x in multiset(sorted);
    assert HasKey(sorted, SecureHash) <==> HasKey(params, SecureHash) by {
      HasKeyPermutation(sorted, params, SecureHash);
    }
    Set(sorted, SecureHash, hmac(cfg.hashSecret, CanonicalString(params, true)))
  }

  /** `createVNPayUrl`: the gateway URL with the signed query attached. The
      text after the `?` splits on `&` into one serialized `name=value` field
      per signed parameter, the hash included. */
  function CreateVNPayUrl(cfg: Config, hmac: Hmac, params: seq<Entry>): (url: string)
    ensures StartsWith(url, cfg.url + "?")
    ensures Split(url[|cfg.url| + 1..], '&') == SerializedPairs(SignedQuery(cfg, hmac, params))
  {
    var q := SignedQuery(cfg, hmac, params);
    assert (SecureHash, Lookup(q, SecureHash).value) in q;
    SerializedPairsSplit(q);
    var url := cfg.url + "?" + FormSerialize(q);
    assert url[|cfg.url| + 1..] == FormSerialize(q);
    url
  }

  /** The outcome of `verifyVNPayResponse`, with the caller's object as the
      call leaves it (both hash fields deleted). */
  datatype Verification = Verification(valid: bool, remaining: seq<Entry>)

  /** `verifyVNPayResponse`: strips the two hash fields, signs the rest and
      compares with the received hash by exact string equality. */
  function VerifyVNPayResponse(cfg: Config, hmac: Hmac, params: seq<Entry>): (v: Verification)
    ensures !HasKey(v.remaining, SecureHash) && !HasKey(v.remaining, SecureHashType)
    ensures forall x :: x in v.remaining <==> x in params && x.0 != SecureHash && x.0 != SecureHashType
    ensures v.valid <==>
      Lookup(params, SecureHash) == Some(hmac(cfg.hashSecret, CanonicalString(v.remaining, true)))
    ensures !HasKey(params, SecureHash) ==> !v.valid
  {
    var received := Lookup(params, SecureHash);
    var remaining := Remove(Remove(params, SecureHash), SecureHashType);
    RemoveNoKey(params, SecureHash);
    RemoveNoKey(Remove(params, SecureHash), SecureHashType);
    Verification(received == Some(hmac(cfg.hashSecret, CanonicalString(remaining, true))), remaining)
  }

  /** A key occurs in one reordering of a list iff it occurs in another. */
  lemma HasKeyPermutation(a: seq<Entry>, b: seq<Entry>, k: string)
    requires multiset(a) == multiset(b)
    ensures HasKey(a, k) <==> HasKey(b, k)
  {
    if HasKey(a, k) {
      var i :| 0 <= i < |a| && a[i].0 == k;
      assert a[i] in multiset(b);
      var j :| 0 <= j < |b| && b[j] == a[i];
    }
    if HasKey(b, k) {
      var i :| 0 <= i < |b| && b[i].0 == k;
      assert b[i] in multiset(a);
      var j :| 0 <= j < |a| && a[j] == b[i];
    }
  }

  /** Lookup in an object gives the same answer under any reordering. */
  lemma LookupPermutation(a: seq<Entry>, b: seq<Entry>, k: string)
    requires DistinctKeys(a) && multiset(a) == multiset(b)
    ensures Lookup(a, k) == Lookup(b, k)
  {
    PermutationDistinct(a, b);
    HasKeyPermutation(a, b, k);
    if Lookup(a, k).Some? {
      var v := Lookup(a, k).value;
      LookupDistinct(a, k, v);
      assert (k, v) in multiset(b);
      LookupDistinct(b, k, v);
    }
  }

  /** Stripping the hash fields from a signed query leaves the sorted
      parameters. */
  lemma StripSignedQuery(params: seq<Entry>, sig: string)
    requires !HasKey(params, SecureHash) && !HasKey(params, SecureHashType)
    ensures Remove(Remove(SortByKey(params) + [(SecureHash, sig)], SecureHash), SecureHashType) == SortByKey(params)
  {
    var sorted := SortByKey(params);
    var q := sorted + [(SecureHash, sig)];
    HasKeyPermutation(sorted, params, SecureHash);
    HasKeyPermutation(sorted, params, SecureHashType);
    RemoveConcat(sorted, [(SecureHash, sig)], SecureHash);
    RemoveAbsent(sorted, SecureHash);
    assert Remove([(SecureHash, sig)], SecureHash) == [];
    assert sorted + [] == sorted;
    assert Remove(q, SecureHash) == sorted;
    RemoveAbsent(sorted, SecureHashType);
  }

  /** Re-signing the sorted parameters signs the same string. */
  lemma CanonicalOfSorted(params: seq<Entry>, encoded: bool)
    requires DistinctKeys(params)
    ensures CanonicalString(SortByKey(params), encoded) == CanonicalString(params, encoded)
  {
    SortByKeySorted(params);
    SortSorted(SortByKey(params));
  }

  /** Round trip: the query of a signed payment URL, handed back unchanged,
      passes verification, for every secret and every hash function. */
  lemma SignVerifyRoundTrip(cfg: Config, hmac: Hmac, params: seq<Entry>)
    requires DistinctKeys(params)
    requires !HasKey(params, SecureHash) && !HasKey(params, SecureHashType)
    ensures VerifyVNPayResponse(cfg, hmac, SignedQuery(cfg, hmac, params)).valid
  {
    var sig := hmac(cfg.hashSecret, CanonicalString(params, true));
    StripSignedQuery(params, sig);
    CanonicalOfSorted(params, true);
  }

  /** Verification does not depend on the order in which the parameters
      arrive. */
  lemma VerifyInsertionOrderIndependent(cfg: Config, hmac: Hmac, a: seq<Entry>, b: seq<Entry>)
    requires DistinctKeys(a) && multiset(a) == multiset(b)
    ensures VerifyVNPayResponse(cfg, hmac, a).valid == VerifyVNPayResponse(cfg, hmac, b).valid
  {
    PermutationDistinct(a, b);
    LookupPermutation(a, b, SecureHash);
    var a1 := Remove(a, SecureHash);
    var b1 := Remove(b, SecureHash);
    RemovePermutation(a, b, SecureHash);
    RemoveDistinct(a, SecureHash);
    RemoveDistinct(b, SecureHash);
    RemovePermutation(a1, b1, SecureHashType);
    RemoveDistinct(a1, SecureHashType);
    RemoveDistinct(b1, SecureHashType);
    SortInsertionOrderIndependent(Remove(a1, SecureHashType), Remove(b1, SecureHashType));
  }

  /** The canonical string is the same whichever order the parameters were
      inserted in. */
  lemma CanonicalInsertionOrderIndependent(a: seq<Entry>, b: seq<Entry>, encoded: bool)
    requires DistinctKeys(a) && multiset(a) == multiset(b)
    ensures CanonicalString(a, encoded) == CanonicalString(b, encoded)
  {
    PermutationDistinct(a, b);
    SortInsertionOrderIndependent(a, b);
  }

  /** Joined strings are strictly longer when every part is at least as long
      and one part is longer. */
  lemma {:induction false} JoinLonger(p: seq<string>, q: seq<string>, sep: string, k: nat)
    requires |p| == |q| && k < |p|
    requires forall i :: 0 <= i < |p| ==> |p[i]| <= |q[i]|
    requires |p[k]| < |q[k]|
    ensures |Join(p, sep)| < |Join(q, sep)|
  {
    if |p| > 1 {
      if k == 0 {
        JoinNoShorter(p[1..], q[1..], sep);
      } else {
        JoinLonger(p[1..], q[1..], sep, k - 1);
      }
    }
  }

  lemma {:induction false} JoinNoShorter(p: seq<string>, q: seq<string>, sep: string)
    requires |p| == |q|
    requires forall i :: 0 <= i < |p| ==> |p[i]| <= |q[i]|
    ensures |Join(p, sep)| <= |Join(q, sep)|
  {
    if |p| > 1 {
      JoinNoShorter(p[1..], q[1..], sep);
    }
  }

  /** The library's encoded canonical string equals the raw one used by the
      inline route copies exactly when every value consists of characters
      `encodeURIComponent` leaves unescaped. */
  lemma CanonicalEncodedIffRaw(params: seq<Entry>)
    ensures CanonicalString(params, true) == CanonicalString(params, false) <==> ValuesSafe(params)
  {
    if ValuesSafe(params) {
      SafeFieldsAgree(params);
    } else {
      UnsafeFieldsDiffer(params);
    }
  }

  lemma SafeFieldsAgree(params: seq<Entry>)
    requires ValuesSafe(params)
    ensures Fields(SortByKey(params), true) == Fields(SortByKey(params), false)
  {
    var s := SortByKey(params);
    var enc := Fields(s, true);
    var raw := Fields(s, false);
    forall i | 0 <= i < |s| ensures enc[i] == raw[i] {
      assert s[i] in multiset(params);
      var j :| 0 <= j < |params| && params[j] == s[i];
      EncodeURIComponentIdentity(s[i].1);
    }
  }

  lemma UnsafeFieldsDiffer(params: seq<Entry>)
    requires !ValuesSafe(params)
    ensures |CanonicalString(params, false)| < |CanonicalString(params, true)|
  {
    var s := SortByKey(params);
    var enc := Fields(s, true);
    var raw := Fields(s, false);
    forall i | 0 <= i < |s| ensures |raw[i]| <= |enc[i]| { }
    var j, c :| 0 <= j < |params| && 0 <= c < |params[j].1| && !ComponentSafe(params[j].1[c]);
    assert params[j] in multiset(s);
    var k :| 0 <= k < |s| && s[k] == params[j];
    EncodeURIComponentGrows(s[k].1, c);
    JoinLonger(raw, enc, "&", k);
  }
}

=== FILE: vnpay_callback.dfy ===
/** `GET /api/vnpay/callback`: an inline copy of the verification that signs
    the raw values, then sets the order's payment and order status from the
    response code and redirects. */
module VNPayCallback {
  import opened Wrappers
  import opened Entries
  import VNPay
  import opened Store

  /** `VNPAY_HASH_SECRET` and `NEXT_PUBLIC_APP_URL`, each possibly unset. */
  datatype Env = Env(hashSecret: Option<string>, appUrl: Option<string>)

  /** The inline check: both hash fields are deleted, the rest is signed as
      raw `key=value` pairs over sorted keys, and the received hash must equal
      the digest exactly. */
  function RawVerify(secret: string, hmac: VNPay.Hmac, params: seq<Entry>): (v: VNPay.Verification)
    ensures v.remaining == Remove(Remove(params, VNPay.SecureHash), VNPay.SecureHashType)
    ensures !HasKey(v.remaining, VNPay.SecureHash) && !HasKey(v.remaining, VNPay.SecureHashType)
    ensures v.valid <==> Lookup(params, VNPay.SecureHash) == Some(hmac(secret, VNPay.CanonicalString(v.remaining, false)))
  {
    var remaining := Remove(Remove(params, VNPay.SecureHash), VNPay.SecureHashType);
    RemoveNoKey(params, VNPay.SecureHash);
    RemoveNoKey(Remove(params, VNPay.SecureHash), VNPay.SecureHashType);
    VNPay.Verification(Lookup(params, VNPay.SecureHash) == Some(hmac(secret, VNPay.CanonicalString(remaining, false))), remaining)
  }

  /** `paid` for response code `00`, `failed` otherwise. */
  function PaymentStatus(code: Option<string>): (s: string)
    ensures s == "paid" <==> code == Some("00")
    ensures s == "failed" <==> code != Some("00")
  {
    if code == Some("00") then "paid" else "failed"
  }

  /** The order status that goes with a payment status. */
  function OrderStatus(paymentStatus: string): (s: string)
    ensures s == "processing" <==> paymentStatus == "paid"
    ensures s == "pending" <==> paymentStatus != "paid"
  {
    if paymentStatus == "paid" then "processing" else "pending"
  }

  /** The redirect target: the success page when paid, the failure page
      otherwise, each with the order id in the query. */
  function RedirectUrl(appUrl: Option<string>, paid: bool, orderId: Option<string>): (u: string)
    ensures appUrl.None? ==> |u| >= 10 && u[..9] == "undefined" && u[9] == '/'
  {
    Render(appUrl) + (if paid then "/checkout/success?orderId=" else "/checkout/failure?orderId=") + Render(orderId)
  }

  predicate IsAlpha(c: char) {
    'a' <= c <= 'z' || 'A' <= c <= 'Z'
  }

  /** A character allowed after the first one of a URL scheme. */
  predicate IsSchemeChar(c: char) {
    IsAlpha(c) || '0' <= c <= '9' || c == '+' || c == '-' || c == '.'
  }

  /** The rest of a scheme: scheme characters up to the first `:`. */
  predicate SchemeRest(t: string) {
    |t| > 0 && (t[0] == ':' || (IsSchemeChar(t[0]) && SchemeRest(t[1..])))
  }

  /** The URL parser reads a string without a base only when it starts with
      a scheme: a letter, then letters, digits, `+`, `-` or `.`, then `:`.
      `NextResponse.redirect` throws on any other string. */
  predicate HasScheme(u: string) {
    |u| > 0 && IsAlpha(u[0]) && SchemeRest(u[1..])
  }

  /** A scheme is exactly a letter-led run of scheme characters closed by
      `:`; so a `:` must come before any other character. */
  lemma {:induction false} SchemeRestIff(t: string)
    ensures SchemeRest(t) <==>
      exists i :: 0 <= i < |t| && t[i] == ':' && forall j :: 0 <= j < i ==> IsSchemeChar(t[j])
  {
    if |t| > 0 && t[0] != ':' {
      SchemeRestIff(t[1..]);
      if SchemeRest(t) {
        var i :| 0 <= i < |t[1..]| && t[1..][i] == ':' && forall j :: 0 <= j < i ==> IsSchemeChar(t[1..][j]);
        assert t[i + 1] == ':';
        forall j | 0 <= j < i + 1 ensures IsSchemeChar(t[j]) {
          if j > 0 {
            assert t[j] == t[1..][j - 1];
          }
        }
      }
      if exists i :: 0 <= i < |t| && t[i] == ':' && forall j :: 0 <= j < i ==> IsSchemeChar(t[j]) {
        var i :| 0 <= i < |t| && t[i] == ':' && forall j :: 0 <= j < i ==> IsSchemeChar(t[j]);
        assert i > 0;
        assert IsSchemeChar(t[0]);
        assert t[1..][i - 1] == ':';
        forall j | 0 <= j < i - 1 ensures IsSchemeChar(t[1..][j]) {
          assert t[1..][j] == t[j + 1];
        }
      }
    } else if |t| > 0 {
      assert t[0] == ':';
    }
  }

  /** With `NEXT_PUBLIC_APP_URL` unset the target starts `undefined/`, which
      has no scheme. */
  lemma UndefinedNoScheme(u: string)
    requires |u| >= 10 && u[..9] == "undefined" && u[9] == '/'
    ensures !HasScheme(u)
  {
    var t := u[1..];
    SchemeRestIff(t);
    forall i | 0 <= i < 8 ensures t[i] != ':' {
      assert t[i] == u[..9][i + 1];
    }
    assert !IsSchemeChar(t[8]) by {
      assert t[8] == u[9];
    }
    forall i | 0 <= i < |t| && t[i] == ':' ensures 8 < i {
    }
  }

  /** Text after a scheme does not change that it is one. */
  lemma {:induction false} SchemeRestAppend(t: string, x: string)
    requires SchemeRest(t)
    ensures SchemeRest(t + x)
  {
    if t[0] != ':' {
      SchemeRestAppend(t[1..], x);
      assert (t + x)[1..] == t[1..] + x;
    }
  }

  /** An app URL with a scheme makes every redirect target absolute. */
  lemma SchemedAppUrl(a: string, paid: bool, orderId: Option<string>)
    requires HasScheme(a)
    ensures HasScheme(RedirectUrl(Some(a), paid, orderId))
  {
    var u := RedirectUrl(Some(a), paid, orderId);
    var x := u[|a|..];
    assert u == a + x;
    SchemeRestAppend(a[1..], x);
    assert u[1..] == a[1..] + x;
  }

  /** The handler over the query's (already decoded) pairs; `updateFails` is
      the outcome of the order update. When the redirect target is not an
      absolute URL, `NextResponse.redirect` throws after the update and the
      catch answers 500. */
  function Callback(env: Env, hmac: VNPay.Hmac, pairs: seq<Entry>, db: Db, updateFails: bool): (s: Step)
    ensures var params := FromEntries(pairs);
      var v := RawVerify(OrDefault(env.hashSecret, ""), hmac, params);
      var orderId := Lookup(v.remaining, "vnp_TxnRef");
      var ps := PaymentStatus(Lookup(v.remaining, "vnp_ResponseCode"));
      var url := RedirectUrl(env.appUrl, ps == "paid", orderId);
      var updated := UpdateOrder(db, orderId, (o: Order) => o.(paymentStatus := ps, status := OrderStatus(ps)));
      && (!v.valid ==> s == Step(Json(400, Error("Invalid signature")), db))
      && (v.valid && updateFails ==> s == Step(Json(500, Error("Failed to update order")), db))
      && (v.valid && !updateFails && HasScheme(url) ==> s == Step(Redirect(url), updated))
      && (v.valid && !updateFails && !HasScheme(url) ==>
            s == Step(Json(500, Error("Internal server error")), updated))
  {
    var params := FromEntries(pairs);
    var v := RawVerify(OrDefault(env.hashSecret, ""), hmac, params);
    if !v.valid then Step(Json(400, Error("Invalid signature")), db)
    else
      var orderId := Lookup(v.remaining, "vnp_TxnRef");
      var ps := PaymentStatus(Lookup(v.remaining, "vnp_ResponseCode"));
      if updateFails then Step(Json(500, Error("Failed to update order")), db)
      else
        var url := RedirectUrl(env.appUrl, ps == "paid", orderId);
        var updated := UpdateOrder(db, orderId, (o: Order) => o.(paymentStatus := ps, status := OrderStatus(ps)));
        if HasScheme(url) then Step(Redirect(url), updated)
        else Step(Json(500, Error("Internal server error")), updated)
  }

  /** With `NEXT_PUBLIC_APP_URL` unset, an accepted callback still updates
      the order but then answers 500 instead of redirecting. */
  lemma UnsetAppUrlFails(env: Env, hmac: VNPay.Hmac, pairs: seq<Entry>, db: Db)
    requires env.appUrl.None?
    requires RawVerify(OrDefault(env.hashSecret, ""), hmac, FromEntries(pairs)).valid
    ensures Callback(env, hmac, pairs, db, false).response == Json(500, Error("Internal server error"))
  {
    var v := RawVerify(OrDefault(env.hashSecret, ""), hmac, FromEntries(pairs));
    var ps := PaymentStatus(Lookup(v.remaining, "vnp_ResponseCode"));
    UndefinedNoScheme(RedirectUrl(env.appUrl, ps == "paid", Lookup(v.remaining, "vnp_TxnRef")));
  }

  /** With an app URL that has a scheme, an accepted callback whose update
      succeeds redirects. */
  lemma SchemedAppUrlRedirects(env: Env, hmac: VNPay.Hmac, pairs: seq<Entry>, db: Db)
    requires env.appUrl.Some? && HasScheme(env.appUrl.value)
    requires RawVerify(OrDefault(env.hashSecret, ""), hmac, FromEntries(pairs)).valid
    ensures Callback(env, hmac, pairs, db, false).response.Redirect?
  {
    var v := RawVerify(OrDefault(env.hashSecret, ""), hmac, FromEntries(pairs));
    var ps := PaymentStatus(Lookup(v.remaining, "vnp_ResponseCode"));
    SchemedAppUrl(env.appUrl.value, ps == "paid", Lookup(v.remaining, "vnp_TxnRef"));
  }

  /** An accepted callback for an existing order marks it `paid` and
      `processing` exactly when the code is `00`, and `failed` and `pending`
      otherwise; it redirects to the success page exactly when paid, and no
      other order changes. */
  lemma CallbackOutcome(env: Env, hmac: VNPay.Hmac, pairs: seq<Entry>, db: Db, id: string)
    requires RawVerify(OrDefault(env.hashSecret, ""), hmac, FromEntries(pairs)).valid
    requires Lookup(FromEntries(pairs), "vnp_TxnRef") == Some(id) && id in db.orders
    ensures var s := Callback(env, hmac, pairs, db, false);
      var paid := Lookup(FromEntries(pairs), "vnp_ResponseCode") == Some("00");
      && (s.db.orders[id].paymentStatus == "paid" <==> paid)
      && (s.db.orders[id].paymentStatus == "failed" <==> !paid)
      && (s.db.orders[id].status == "processing" <==> paid)
      && (s.db.orders[id].status == "pending" <==> !paid)
      && (HasScheme(RedirectUrl(env.appUrl, paid, Some(id))) ==>
            s.response == Redirect(RedirectUrl(env.appUrl, paid, Some(id))))
      && (!HasScheme(RedirectUrl(env.appUrl, paid, Some(id))) ==>
            s.response == Json(500, Error("Internal server error")))
      && (forall k :: k in db.orders && k != id ==> s.db.orders[k] == db.orders[k])
      && s.db.txns == db.txns && s.db.history == db.history
  {
    var params := FromEntries(pairs);
    LookupRemoveOther(params, VNPay.SecureHash, VNPay.SecureHashType, "vnp_TxnRef");
    LookupRemoveOther(params, VNPay.SecureHash, VNPay.SecureHashType, "vnp_ResponseCode");
  }

  /** Deleting the hash fields leaves the lookup of any other key unchanged. */
  lemma LookupRemoveOther(params: seq<Entry>, a: string, b: string, k: string)
    requires DistinctKeys(params) && k != a && k != b
    ensures Lookup(Remove(Remove(params, a), b), k) == Lookup(params, k)
  {
    RemoveDistinct(params, a);
    RemoveDistinct(Remove(params, a), b);
    var r := Remove(Remove(params, a), b);
    if Lookup(params, k).Some? {
      var v := Lookup(params, k).value;
      LookupDistinct(params, k, v);
      LookupDistinct(r, k, v);
    }
  }

  /** Round trip with a raw signer: pairs with distinct keys and no hash
      fields, followed by the digest of their raw canonical string, are
      accepted. */
  lemma RawSignedAccepted(env: Env, hmac: VNPay.Hmac, params: seq<Entry>)
    requires DistinctKeys(params)
    requires !HasKey(params, VNPay.SecureHash) && !HasKey(params, VNPay.SecureHashType)
    ensures var sig := hmac(OrDefault(env.hashSecret, ""), VNPay.CanonicalString(params, false));
      RawVerify(OrDefault(env.hashSecret, ""), hmac, FromEntries(params + [(VNPay.SecureHash, sig)])).valid
  {
    var sig := hmac(OrDefault(env.hashSecret, ""), VNPay.CanonicalString(params, false));
    var q := params + [(VNPay.SecureHash, sig)];
    AppendDistinct(params, (VNPay.SecureHash, sig));
    FromEntriesDistinct(q);
    StripAppended(params, sig);
    assert Lookup(q, VNPay.SecureHash) == Some(sig) by {
      LookupDistinct(q, VNPay.SecureHash, sig);
      assert q[|params|] == (VNPay.SecureHash, sig);
    }
  }

  lemma StripAppended(params: seq<Entry>, sig: string)
    requires !HasKey(params, VNPay.SecureHash) && !HasKey(params, VNPay.SecureHashType)
    ensures Remove(Remove(params + [(VNPay.SecureHash, sig)], VNPay.SecureHash), VNPay.SecureHashType) == params
  {
    RemoveConcat(params, [(VNPay.SecureHash, sig)], VNPay.SecureHash);
    RemoveAbsent(params, VNPay.SecureHash);
    assert Remove([(VNPay.SecureHash, sig)], VNPay.SecureHash) == [];
    assert params + [] == params;
    RemoveAbsent(params, VNPay.SecureHashType);
  }

  /** The pieces of a library-signed query as the callback sees them. */
  lemma LibSignedStripped(cfg: VNPay.Config, hmac: VNPay.Hmac, params: seq<Entry>)
    requires DistinctKeys(params)
    requires !HasKey(params, VNPay.SecureHash) && !HasKey(params, VNPay.SecureHashType)
    ensures var q := FromEntries(VNPay.SignedQuery(cfg, hmac, params));
      && Lookup(q, VNPay.SecureHash) == Some(hmac(cfg.hashSecret, VNPay.CanonicalString(params, true)))
      && Remove(Remove(q, VNPay.SecureHash), VNPay.SecureHashType) == SortByKey(params)
  {
    var sorted := SortByKey(params);
    var sig := hmac(cfg.hashSecret, VNPay.CanonicalString(params, true));
    var q := sorted + [(VNPay.SecureHash, sig)];
    assert VNPay.SignedQuery(cfg, hmac, params) == q;
    PermutationDistinct(params, sorted);
    VNPay.HasKeyPermutation(sorted, params, VNPay.SecureHash);
    VNPay.HasKeyPermutation(sorted, params, VNPay.SecureHashType);
    AppendDistinct(sorted, (VNPay.SecureHash, sig));
    FromEntriesDistinct(q);
    StripAppended(sorted, sig);
  }

  /** The callback accepts a query signed by the library whenever every value
      is left unchanged by `encodeURIComponent`, since the two canonical
      strings then coincide. */
  lemma LibSignedAcceptedWhenSafe(cfg: VNPay.Config, hmac: VNPay.Hmac, params: seq<Entry>)
    requires DistinctKeys(params) && VNPay.ValuesSafe(params)
    requires !HasKey(params, VNPay.SecureHash) && !HasKey(params, VNPay.SecureHashType)
    ensures RawVerify(cfg.hashSecret, hmac, FromEntries(VNPay.SignedQuery(cfg, hmac, params))).valid
  {
    LibSignedStripped(cfg, hmac, params);
    VNPay.CanonicalOfSorted(params, false);
    VNPay.CanonicalEncodedIffRaw(params);
  }

  /** With a hash that never maps two strings to one digest, the callback
      accepts a library-signed query exactly when every value is left
      unchanged by `encodeURIComponent`. */
  lemma LibSignedAcceptedIffSafe(cfg: VNPay.Config, hmac: VNPay.Hmac, params: seq<Entry>)
    requires DistinctKeys(params)
    requires !HasKey(params, VNPay.SecureHash) && !HasKey(params, VNPay.SecureHashType)
    requires forall a, b :: hmac(cfg.hashSecret, a) == hmac(cfg.hashSecret, b) ==> a == b
    ensures RawVerify(cfg.hashSecret, hmac, FromEntries(VNPay.SignedQuery(cfg, hmac, params))).valid
        <==> VNPay.ValuesSafe(params)
  {
    LibSignedStripped(cfg, hmac, params);
    VNPay.CanonicalOfSorted(params, false);
    VNPay.CanonicalEncodedIffRaw(params);
  }
}

=== FILE: vnpay_return.dfy ===
/** `GET /payment/vnpay-return`: verifies the gateway's return with the
    library, records the outcome on the transaction rows, and for a
    successful payment marks the order paid and appends a payment-history
    row. Nothing guards against a second delivery of the same return. */
module VNPayReturn {
  import opened Wrappers
  import opened Strings
  import opened Entries
  import VNPay
  import opened Store

  /** The `VNPAY_*` variables the library reads. */
  datatype Env = Env(tmnCode: Option<string>, hashSecret: Option<string>, url: Option<string>, returnUrl: Option<string>)

  function LibConfig(env: Env): (cfg: VNPay.Config)
    ensures cfg.hashSecret == OrDefault(env.hashSecret, "")
  {
    VNPay.Config(OrDefault(env.tmnCode, ""), OrDefault(env.hashSecret, ""), OrDefault(env.url, ""), OrDefault(env.returnUrl, ""))
  }

  /** Outcomes of the database calls, in the order the handler makes them. */
  datatype Outcomes = Outcomes(txnFails: bool, orderFails: bool, methodLookupFails: bool, historyFails: bool)

  /** `.update({status, response_code, response_message}).eq('order_id', id)`:
      every transaction row of that order takes the new status; the code and
      message are written only when defined. A missing id matches no row. */
  function UpdateTxns(txns: seq<Txn>, orderId: Option<string>, status: string,
                      code: Option<string>, message: Option<string>): (r: seq<Txn>)
    ensures |r| == |txns|
    ensures forall i :: 0 <= i < |txns| && Some(txns[i].orderId) != orderId ==> r[i] == txns[i]
    ensures forall i :: 0 <= i < |txns| && Some(txns[i].orderId) == orderId ==>
      r[i] == txns[i].(status := status,
                       responseCode := if code.Some? then code else txns[i].responseCode,
                       responseMessage := if message.Some? then message else txns[i].responseMessage)
  {
    if |txns| == 0 then []
    else
      var t := txns[0];
      var t' := if Some(t.orderId) == orderId then
          t.(status := status,
             responseCode := if code.Some? then code else t.responseCode,
             responseMessage := if message.Some? then message else t.responseMessage)
        else t;
      [t'] + UpdateTxns(txns[1..], orderId, status, code, message)
  }

  /** The rows of `payment_methods` with the given code. */
  function WithCode(methods: seq<PaymentMethod>, code: string): (r: seq<PaymentMethod>)
    ensures forall m :: m in r <==> m in methods && m.code == code
    ensures |r| <= |methods|
  {
    if |methods| == 0 then []
    else (if methods[0].code == code then [methods[0]] else []) + WithCode(methods[1..], code)
  }

  /** `(await ….eq('code', 'VNPAY').single()).data?.id`: the id when exactly one
      row has the code; `.single()` fails on none or several, and a failed
      call leaves it undefined. */
  function VNPayMethodId(methods: seq<PaymentMethod>, fails: bool): (r: Option<string>)
    ensures r.Some? <==> !fails && |WithCode(methods, "VNPAY")| == 1
    ensures r.Some? ==> exists m :: m in methods && m.code == "VNPAY" && m.id == r.value
  {
    var rows := WithCode(methods, "VNPAY");
    if !fails && |rows| == 1 then assert rows[0] in rows; Some(rows[0].id) else None
  }

  /** The longest run of decimal digits at the start of `s`. */
  function DigitPrefix(s: string): (r: string)
    ensures StartsWith(s, r) && AllDigits(r)
    ensures |r| < |s| ==> !IsDigit(s[|r|])
    ensures AllDigits(s) ==> r == s
  {
    if |s| == 0 || !IsDigit(s[0]) then "" else [s[0]] + DigitPrefix(s[1..])
  }

  /** `parseFloat(v) / 100` on a decimal digit prefix; no leading digit (or
      no value) gives `NaN`, which is stored as null. */
  function ParseAmount(v: Option<string>): (r: Option<real>)
    ensures v.Some? && |v.value| > 0 && AllDigits(v.value) ==> r == Some(DigitsValue(v.value) as real / 100.0)
    ensures v.None? ==> r.None?
  {
    match v
    case None => None
    case Some(s) =>
      var p := DigitPrefix(s);
      if |p| == 0 then None
      else Some(DigitsValue(p) as real / 100.0)
  }

  /** The fields the handler reads from the verified parameters. */
  function OrderId(remaining: seq<Entry>): (r: Option<string>)
    ensures r.None? <==> !HasKey(remaining, "vnp_TxnRef")
    ensures r.Some? ==> ("vnp_TxnRef", r.value) in remaining
  {
    Lookup(remaining, "vnp_TxnRef")
  }

  function Code(remaining: seq<Entry>): (r: Option<string>)
    ensures r.None? <==> !HasKey(remaining, "vnp_ResponseCode")
    ensures r.Some? ==> ("vnp_ResponseCode", r.value) in remaining
  {
    Lookup(remaining, "vnp_ResponseCode")
  }

  function TransactionNo(remaining: seq<Entry>): (r: Option<string>)
    ensures r.None? <==> !HasKey(remaining, "vnp_TransactionNo")
    ensures r.Some? ==> ("vnp_TransactionNo", r.value) in remaining
  {
    Lookup(remaining, "vnp_TransactionNo")
  }

  /** The order update made for a successful payment. */
  function MarkPaid(transactionNo: Option<string>, now: string): (f: Order -> Order)
    ensures forall o :: f(o).paymentStatus == "paid" && f(o).status == "processing"
    ensures forall o :: f(o).paymentDetails == Some(PaymentDetails(transactionNo, now))
    ensures forall o :: f(o).(paymentStatus := o.paymentStatus, status := o.status, paymentDetails := o.paymentDetails) == o
  {
    (o: Order) => o.(paymentStatus := "paid", status := "processing",
                     paymentDetails := Some(PaymentDetails(transactionNo, now)))
  }

  /** The payment-history row appended for a successful payment. */
  function HistoryFor(remaining: seq<Entry>, methods: seq<PaymentMethod>, methodLookupFails: bool): (h: HistoryRow)
    ensures h.status == "success" && h.details == remaining
    ensures h.orderId == OrderId(remaining) && h.transactionId == TransactionNo(remaining)
    ensures h.amount == ParseAmount(Lookup(remaining, "vnp_Amount"))
  {
    HistoryRow(OrderId(remaining), VNPayMethodId(methods, methodLookupFails),
               ParseAmount(Lookup(remaining, "vnp_Amount")), "success", TransactionNo(remaining), remaining)
  }

  /** The page the browser is sent to: `/orders/<id>/success` or `/failed`,
      the id rendered as a template literal renders it. */
  function RedirectPath(orderId: Option<string>, success: bool): (r: string)
    ensures var id := Render(orderId); var tail := if success then "/success" else "/failed";
      && |r| == 8 + |id| + |tail| && r[..8] == "/orders/"
      && r[8..8 + |id|] == id && r[8 + |id|..] == tail
  {
    "/orders/" + Render(orderId) + (if success then "/success" else "/failed")
  }

  /** The handler over the query's (already decoded) pairs. `now` is
      `new Date().toISOString()`. */
  function Return(env: Env, hmac: VNPay.Hmac, pairs: seq<Entry>, now: string, db: Db, out: Outcomes): (s: Step)
    ensures var v := VNPay.VerifyVNPayResponse(LibConfig(env), hmac, FromEntries(pairs));
      && (!v.valid ==> s == Step(Json(400, Error("Invalid signature")), db))
      && (v.valid && out.txnFails ==> s == Step(Json(500, Error("Failed to update transaction")), db))
      && (v.valid && !out.txnFails ==>
            && s.db.txns == UpdateTxns(db.txns, OrderId(v.remaining),
                                       if Code(v.remaining) == Some("00") then "success" else "failed",
                                       Code(v.remaining), Lookup(v.remaining, "vnp_Message"))
            && s.db.categories == db.categories && s.db.orderItems == db.orderItems
            && s.db.paymentMethods == db.paymentMethods)
  {
    var v := VNPay.VerifyVNPayResponse(LibConfig(env), hmac, FromEntries(pairs));
    if !v.valid then Step(Json(400, Error("Invalid signature")), db)
    else
      var orderId := OrderId(v.remaining);
      var code := Code(v.remaining);
      var success := code == Some("00");
      if out.txnFails then Step(Json(500, Error("Failed to update transaction")), db)
      else
        var db1 := db.(txns := UpdateTxns(db.txns, orderId, if success then "success" else "failed",
                                          code, Lookup(v.remaining, "vnp_Message")));
        if !success then Step(Redirect(RedirectPath(orderId, false)), db1)
        else if out.orderFails then Step(Json(500, Error("Failed to update order")), db1)
        else
          var db2 := UpdateOrder(db1, orderId, MarkPaid(TransactionNo(v.remaining), now));
          if out.historyFails then Step(Json(500, Error("Failed to create payment history")), db2)
          else
            var row := HistoryFor(v.remaining, db.paymentMethods, out.methodLookupFails);
            Step(Redirect(RedirectPath(orderId, true)), db2.(history := db2.history + [row]))
  }

  /** Writing the same outcome twice changes nothing further. */
  lemma UpdateTxnsIdempotent(txns: seq<Txn>, orderId: Option<string>, status: string,
                             code: Option<string>, message: Option<string>)
    ensures var once := UpdateTxns(txns, orderId, status, code, message);
      UpdateTxns(once, orderId, status, code, message) == once
  {
    var once := UpdateTxns(txns, orderId, status, code, message);
    var twice := UpdateTxns(once, orderId, status, code, message);
    assert forall i | 0 <= i < |txns| :: twice[i] == once[i];
  }

  /** The amount the store sends (`amount * 100`) reads back as `amount`. */
  lemma AmountRoundTrip(a: nat)
    ensures ParseAmount(Some(VNPay.AmountString(Some(a)))) == Some(a as real)
  {
    var s := VNPay.AmountString(Some(a));
    assert DigitsValue(s) == a * 100;
    assert (a * 100) as real / 100.0 == a as real;
  }

  /** A verified return whose code is not "00" marks the transaction rows
      failed and touches neither orders nor payment history. */
  lemma ReturnFailed(env: Env, hmac: VNPay.Hmac, pairs: seq<Entry>, now: string, db: Db, out: Outcomes)
    requires var v := VNPay.VerifyVNPayResponse(LibConfig(env), hmac, FromEntries(pairs));
      v.valid && Code(v.remaining) != Some("00") && !out.txnFails
    ensures var v := VNPay.VerifyVNPayResponse(LibConfig(env), hmac, FromEntries(pairs));
      var s := Return(env, hmac, pairs, now, db, out);
      && s.response == Redirect("/orders/" + Render(OrderId(v.remaining)) + "/failed")
      && s.db.orders == db.orders && s.db.history == db.history
      && forall i :: 0 <= i < |db.txns| && Some(db.txns[i].orderId) == OrderId(v.remaining) ==>
           s.db.txns[i].status == "failed"
  {
  }

  /** A verified "00" return with every write succeeding marks the order paid
      and processing, records the transaction number, appends exactly one
      history row and redirects to the success page. */
  lemma ReturnPaid(env: Env, hmac: VNPay.Hmac, pairs: seq<Entry>, now: string, db: Db, out: Outcomes)
    requires var v := VNPay.VerifyVNPayResponse(LibConfig(env), hmac, FromEntries(pairs));
      v.valid && Code(v.remaining) == Some("00")
    requires !out.txnFails && !out.orderFails && !out.historyFails
    ensures var v := VNPay.VerifyVNPayResponse(LibConfig(env), hmac, FromEntries(pairs));
      var s := Return(env, hmac, pairs, now, db, out);
      var id := OrderId(v.remaining);
      && s.response == Redirect("/orders/" + Render(id) + "/success")
      && s.db.history == db.history + [HistoryFor(v.remaining, db.paymentMethods, out.methodLookupFails)]
      && s.db.orders.Keys == db.orders.Keys
      && (forall k :: k in db.orders && Some(k) != id ==> s.db.orders[k] == db.orders[k])
      && (id.Some? && id.value in db.orders ==>
            && s.db.orders[id.value].paymentStatus == "paid"
            && s.db.orders[id.value].status == "processing"
            && s.db.orders[id.value].paymentDetails == Some(PaymentDetails(TransactionNo(v.remaining), now))
            && s.db.orders[id.value].totalAmount == db.orders[id.value].totalAmount)
  {
  }

  /** A failed order update answers 500 before the history insert, leaving
      orders and history as they were. */
  lemma ReturnOrderFails(env: Env, hmac: VNPay.Hmac, pairs: seq<Entry>, now: string, db: Db, out: Outcomes)
    requires var v := VNPay.VerifyVNPayResponse(LibConfig(env), hmac, FromEntries(pairs));
      v.valid && Code(v.remaining) == Some("00") && !out.txnFails && out.orderFails
    ensures var s := Return(env, hmac, pairs, now, db, out);
      && s.response == Json(500, Error("Failed to update order"))
      && s.db.orders == db.orders && s.db.history == db.history
  {
  }

  /** A failed history insert answers 500 with the order already marked paid
      but no history row. */
  lemma ReturnHistoryFails(env: Env, hmac: VNPay.Hmac, pairs: seq<Entry>, now: string, db: Db, out: Outcomes)
    requires var v := VNPay.VerifyVNPayResponse(LibConfig(env), hmac, FromEntries(pairs));
      v.valid && Code(v.remaining) == Some("00") && !out.txnFails && !out.orderFails && out.historyFails
    ensures var v := VNPay.VerifyVNPayResponse(LibConfig(env), hmac, FromEntries(pairs));
      var s := Return(env, hmac, pairs, now, db, out);
      && s.response == Json(500, Error("Failed to create payment history"))
      && s.db.history == db.history
      && s.db.orders == UpdateOrder(db, OrderId(v.remaining), MarkPaid(TransactionNo(v.remaining), now)).orders
  {
    var v := VNPay.VerifyVNPayResponse(LibConfig(env), hmac, FromEntries(pairs));
    var code := Code(v.remaining);
    var db1 := db.(txns := UpdateTxns(db.txns, OrderId(v.remaining), "success", code, Lookup(v.remaining, "vnp_Message")));
    var db2 := UpdateOrder(db1, OrderId(v.remaining), MarkPaid(TransactionNo(v.remaining), now));
    assert Return(env, hmac, pairs, now, db, out) == Step(Json(500, Error("Failed to create payment history")), db2);
  }

  /** The history part of a successful return, on its own. */
  lemma PaidAppendsRow(env: Env, hmac: VNPay.Hmac, pairs: seq<Entry>, now: string, db: Db, out: Outcomes)
    requires var v := VNPay.VerifyVNPayResponse(LibConfig(env), hmac, FromEntries(pairs));
      v.valid && Code(v.remaining) == Some("00")
    requires !out.txnFails && !out.orderFails && !out.historyFails
    ensures var v := VNPay.VerifyVNPayResponse(LibConfig(env), hmac, FromEntries(pairs));
      var s := Return(env, hmac, pairs, now, db, out);
      && s.db.history == db.history + [HistoryFor(v.remaining, db.paymentMethods, out.methodLookupFails)]
      && s.db.paymentMethods == db.paymentMethods
  {
  }

  /** Nothing makes the handler idempotent: delivering the same successful
      return a second time appends a second, identical history row. */
  lemma ReturnReplayDuplicates(env: Env, hmac: VNPay.Hmac, pairs: seq<Entry>, now: string, db: Db, out: Outcomes)
    requires var v := VNPay.VerifyVNPayResponse(LibConfig(env), hmac, FromEntries(pairs));
      v.valid && Code(v.remaining) == Some("00")
    requires !out.txnFails && !out.orderFails && !out.historyFails
    ensures var v := VNPay.VerifyVNPayResponse(LibConfig(env), hmac, FromEntries(pairs));
      var row := HistoryFor(v.remaining, db.paymentMethods, out.methodLookupFails);
      var first := Return(env, hmac, pairs, now, db, out).db;
      && first.history == db.history + [row]
      && Return(env, hmac, pairs, now, first, out).db.history == first.history + [row]
  {
    PaidAppendsRow(env, hmac, pairs, now, db, out);
    PaidAppendsRow(env, hmac, pairs, now, Return(env, hmac, pairs, now, db, out).db, out);
  }
}

=== FILE: wishlist.dfy ===
/** The wishlist section of the account page and the favorites page: remove
    a product from the wishlist, and move a product to the cart by bumping
    its cart row or inserting one. The favorites page does the same but
    only for a signed-in user. */
module Wishlist {
  import opened Wrappers
  import opened Seqs

  datatype WishItem = WishItem(id: string, productId: string)

  /** A row of `cart`. */
  datatype CartRow = CartRow(id: string, userId: string, productId: string, quantity: int)

  /** `removeFromWishlist`: the local list drops every entry of the product
      once the delete succeeds. */
  function RemoveFromWishlist(items: seq<WishItem>, productId: string, deleteFails: bool): (r: seq<WishItem>)
    ensures deleteFails ==> r == items
    ensures !deleteFails ==> forall x :: x in r <==> x in items && x.productId != productId
    ensures |r| <= |items|
  {
    if deleteFails || |items| == 0 then items
    else (if items[0].productId != productId then [items[0]] else []) + RemoveFromWishlist(items[1..], productId, false)
  }

  /** The entries `removeFromWishlist` keeps: all of them when the delete
      fails. */
  function RemoveMask(items: seq<WishItem>, productId: string, deleteFails: bool): (keep: seq<bool>)
    ensures |keep| == |items|
    ensures forall i :: 0 <= i < |items| ==> keep[i] == (deleteFails || items[i].productId != productId)
    ensures Kept(items, keep) == RemoveFromWishlist(items, productId, deleteFails)
  {
    if |items| == 0 then []
    else
      var rest := RemoveMask(items[1..], productId, deleteFails);
      assert deleteFails ==> items == [items[0]] + items[1..];
      [deleteFails || items[0].productId != productId] + rest
  }

  /** Removal keeps the order of the other entries. */
  lemma RemoveFromWishlistIsSubSequence(items: seq<WishItem>, productId: string, deleteFails: bool)
    ensures SubSequence(RemoveFromWishlist(items, productId, deleteFails), items)
  {
    var keep := RemoveMask(items, productId, deleteFails);
  }

  /** The user's cart rows for a product. */
  function RowsFor(cart: seq<CartRow>, userId: string, productId: string): (r: seq<CartRow>)
    ensures forall x :: x in r <==> x in cart && x.userId == userId && x.productId == productId
  {
    if |cart| == 0 then []
    else (if cart[0].userId == userId && cart[0].productId == productId then [cart[0]] else [])
         + RowsFor(cart[1..], userId, productId)
  }

  /** `.single()`: the row when there is exactly one. `lookupFails` is an
      error of the query, whose `data` is then null: the caller sees no row
      even when one exists. */
  function Existing(cart: seq<CartRow>, userId: string, productId: string, lookupFails: bool): (r: Option<CartRow>)
    ensures r.Some? ==> r.value in cart && r.value.userId == userId && r.value.productId == productId
    ensures r.Some? <==> !lookupFails && |RowsFor(cart, userId, productId)| == 1
  {
    var rows := RowsFor(cart, userId, productId);
    if !lookupFails && |rows| == 1 then assert rows[0] in rows; Some(rows[0]) else None
  }

  /** `.update({ quantity }).eq('id', id)` on the `cart` table. It has the
      shape of `Cart.UpdateItemQuantity` but acts on database rows, which
      carry the owner and no product record, rather than on the client
      store's items; Dafny has no field update generic over both types. */
  function SetQuantity(cart: seq<CartRow>, id: string, quantity: int): (r: seq<CartRow>)
    ensures |r| == |cart|
    ensures forall i :: 0 <= i < |cart| ==> r[i] == (if cart[i].id == id then cart[i].(quantity := quantity) else cart[i])
  {
    seq(|cart|, i requires 0 <= i < |cart| => if cart[i].id == id then cart[i].(quantity := quantity) else cart[i])
  }

  /** The cart write of `addToCart`; its error is not checked. `newId` is the
      id the database gives an inserted row. A failed lookup leads to an
      insert, even when the user already has a row for the product. */
  function CartWrite(cart: seq<CartRow>, userId: string, productId: string, newId: string,
                     lookupFails: bool, writeFails: bool): (r: seq<CartRow>)
    ensures writeFails ==> r == cart
    ensures !writeFails && lookupFails ==> r == cart + [CartRow(newId, userId, productId, 1)]
  {
    if writeFails then cart
    else match Existing(cart, userId, productId, lookupFails)
      case Some(row) => SetQuantity(cart, row.id, row.quantity + 1)
      case None => cart + [CartRow(newId, userId, productId, 1)]
  }

  /** The state both pages act on. */
  datatype State = State(wishlist: seq<WishItem>, cart: seq<CartRow>)

  /** `addToCart` of the wishlist section: the cart write, then the removal
      from the wishlist, which happens whatever the write did. */
  function AddToCart(st: State, userId: string, productId: string, newId: string,
                     lookupFails: bool, writeFails: bool, deleteFails: bool): (r: State)
    ensures r.cart == CartWrite(st.cart, userId, productId, newId, lookupFails, writeFails)
    ensures r.wishlist == RemoveFromWishlist(st.wishlist, productId, deleteFails)
  {
    State(RemoveFromWishlist(st.wishlist, productId, deleteFails),
          CartWrite(st.cart, userId, productId, newId, lookupFails, writeFails))
  }

  /** The favorites page's versions: without a session nothing happens. */
  function FavoritesRemove(st: State, session: Option<string>, productId: string, deleteFails: bool): (r: State)
    ensures session.None? ==> r == st
    ensures session.Some? ==> r == st.(wishlist := RemoveFromWishlist(st.wishlist, productId, deleteFails))
  {
    if session.None? then st else st.(wishlist := RemoveFromWishlist(st.wishlist, productId, deleteFails))
  }

  function FavoritesAddToCart(st: State, session: Option<string>, productId: string, newId: string,
                              lookupFails: bool, writeFails: bool, deleteFails: bool): (r: State)
    ensures session.None? ==> r == st
    ensures session.Some? ==> r == AddToCart(st, session.value, productId, newId, lookupFails, writeFails, deleteFails)
  {
    if session.None? then st else AddToCart(st, session.value, productId, newId, lookupFails, writeFails, deleteFails)
  }

  /** The total quantity the user holds of a product. */
  function Quantity(cart: seq<CartRow>, userId: string, productId: string): (q: int)
    ensures NonNegative(cart) ==> q >= 0
    ensures RowsFor(cart, userId, productId) == [] ==> q == 0
  {
    if |cart| == 0 then 0
    else (if cart[0].userId == userId && cart[0].productId == productId then cart[0].quantity else 0)
         + Quantity(cart[1..], userId, productId)
  }

  predicate NonNegative(cart: seq<CartRow>) {
    forall i :: 0 <= i < |cart| ==> cart[i].quantity >= 0
  }

  predicate DistinctIds(cart: seq<CartRow>) {
    forall i, j :: 0 <= i < j < |cart| ==> cart[i].id != cart[j].id
  }

  lemma {:induction false} QuantityAppend(cart: seq<CartRow>, row: CartRow, userId: string, productId: string)
    ensures Quantity(cart + [row], userId, productId) ==
      Quantity(cart, userId, productId) + (if row.userId == userId && row.productId == productId then row.quantity else 0)
  {
    if |cart| == 0 {
      assert cart + [row] == [row];
    } else {
      assert (cart + [row])[1..] == cart[1..] + [row];
      QuantityAppend(cart[1..], row, userId, productId);
    }
  }

  /** The tally of two carts joined together is the sum of their tallies. */
  lemma {:induction false} QuantityConcat(a: seq<CartRow>, b: seq<CartRow>, userId: string, productId: string)
    ensures Quantity(a + b, userId, productId) == Quantity(a, userId, productId) + Quantity(b, userId, productId)
  {
    if |a| == 0 {
      assert a + b == b;
    } else {
      assert (a + b)[1..] == a[1..] + b;
      QuantityConcat(a[1..], b, userId, productId);
    }
  }

  /** Bumping the row with a unique id adds one to that row's tally. */
  lemma QuantityBump(cart: seq<CartRow>, k: nat, userId: string, productId: string)
    requires DistinctIds(cart) && k < |cart|
    requires cart[k].userId == userId && cart[k].productId == productId
    ensures Quantity(SetQuantity(cart, cart[k].id, cart[k].quantity + 1), userId, productId) ==
      Quantity(cart, userId, productId) + 1
  {
    var r := SetQuantity(cart, cart[k].id, cart[k].quantity + 1);
    var before, after := cart[..k], cart[k + 1..];
    assert r[..k] == before by {
      forall i | 0 <= i < k ensures r[i] == cart[i] { assert cart[i].id != cart[k].id; }
    }
    assert r[k + 1..] == after by {
      forall i | k < i < |cart| ensures r[i] == cart[i] { assert cart[i].id != cart[k].id; }
    }
    assert r == (before + [r[k]]) + after;
    assert cart == (before + [cart[k]]) + after;
    QuantityConcat(before + [r[k]], after, userId, productId);
    QuantityConcat(before + [cart[k]], after, userId, productId);
    QuantityAppend(before, r[k], userId, productId);
    QuantityAppend(before, cart[k], userId, productId);
  }

  /** A successful cart write raises the user's quantity of the product by
      exactly one, whether it bumped a row or inserted one; after a failed
      lookup the insert adds a second row rather than bumping the first. */
  lemma CartWriteAddsOne(cart: seq<CartRow>, userId: string, productId: string, newId: string, lookupFails: bool)
    requires DistinctIds(cart)
    ensures Quantity(CartWrite(cart, userId, productId, newId, lookupFails, false), userId, productId) ==
      Quantity(cart, userId, productId) + 1
  {
    var r := CartWrite(cart, userId, productId, newId, lookupFails, false);
    match Existing(cart, userId, productId, lookupFails)
    case Some(row) =>
      assert r == SetQuantity(cart, row.id, row.quantity + 1);
      var k :| 0 <= k < |cart| && cart[k] == row;
      QuantityBump(cart, k, userId, productId);
    case None =>
      assert r == cart + [CartRow(newId, userId, productId, 1)];
      QuantityAppend(cart, CartRow(newId, userId, productId, 1), userId, productId);
  }

  /** After a move to the cart the product is gone from the wishlist when the
      delete succeeds. */
  lemma AddToCartClearsWish(st: State, userId: string, productId: string, newId: string,
                            lookupFails: bool, writeFails: bool)
    ensures forall x :: x in AddToCart(st, userId, productId, newId, lookupFails, writeFails, false).wishlist ==> x.productId != productId
  {
  }
}

=== FILE: wrappers.dfy ===
/** Optional values: JavaScript's `undefined`/`null` next to a present value. */
module Wrappers {

  datatype Option<+T> = None | Some(value: T) {

    /** Returns the value held in Some, or the default when None. */
    function GetOr(default: T): T {
      match this
      case Some(v) => v
      case None => default
    }
  }

  /** JavaScript truthiness of a possibly null or undefined string: present
      and not empty. */
  predicate Truthy(v: Option<string>) {
    v.Some? && v.value != ""
  }
}
